=== FILE: README.md ===
# Pumpunjuksautin communication core in Dafny

Pumpunjuksautin ("pump fooler") is AVR firmware that sits between a heat
pump and one of its thermistors. It pulls the sensed voltage down to a
target, and it reports its measurements over an RS-485 line. This project
models the firmware's communication core and the arithmetic around it as
pure Dafny functions, and proves properties of that model:

- the serial transport (`avr/src/serial.c`): silence-delimited frames,
  double-buffered receive, half-duplex transmit, and the error counters;
- the main loop (`avr/src/main.c`), which routes each frame to the text
  engine or the Modbus engine and sends the answer;
- the Modbus-RTU engine (`avr/src/interface/modbus.c`) and its first
  generation (`avr/src/interface_modbus.c`), including CRC-16/MODBUS;
- the text engine with `GET`, `SET` and `HELP`
  (`avr/src/interface/ascii.c`) and its first generation
  (`avr/src/interface_ascii.c`);
- the command registry contract (`avr/src/interface/cmd.h`,
  `avr/src/modbus_types.h`) and the scanners and printers of
  `avr/src/cmd_functions.c` and `avr/src/misc.c`;
- the accumulator, target and channel arithmetic of `avr/src/juksautin.c`;
- the prototype firmware `avr_proto/src/main.c`;
- `find_version_2` of the host tool (`juksutil/src/tz.c`).

| module | file | models |
|---|---|---|
| Base | base.dfy | bytes, 16/32-bit wrap-around, C strings, `strsep`, `%d` formatting |
| Search | search.dfy | `bsearch` with a `memcmp`/`strcasecmp` comparator, as lexicographic order |
| ModbusTypes | modbus_types.dfy | object kinds and status codes |
| Cmd | cmd.dfy | registry entries, table validity, lookups by name and by (kind, address) |
| Crc16 | crc16.dfy | `_crc16_update` over a 16-bit register, and `modbus_crc` |
| Modbus | modbus.dfy | `modbus_interface` and the handlers for codes 3, 4, 6 and 16 |
| ModbusLegacy | modbus_legacy.dfy | `interface_modbus` with its placeholder handler |
| CmdFunctions | cmd_functions.dfy | `cmd_scan_*`, `cmd_print_*`, `modbus_strerror` |
| Misc | misc.dfy | `misc_version`, `misc_pong`, the LED and the dummy coil |
| Juksautin | juksautin.dfy | `store`, the readouts, target conversion, channel rotation |
| Ascii | ascii.dfy | `ascii_interface`, `process_read`, `process_write`, error lines |
| AsciiLegacy | ascii_legacy.dfy | `interface_ascii` with its own messages |
| Serial | serial.dfy | every ISR and API call of the transport |
| MainLoop | main_loop.dfy | `loop()` of the firmware |
| Proto | proto.dfy | the prototype's ISRs and loop |
| Tz | tz.dfy | `find_version_2` on a TZif buffer |

Modelling decisions:

- **The device.** Each engine is generic in the device state `D`.
  - Registry entries carry getters, setters, printers, scanners and
    Modbus marshallers as function values.
  - A setter returns a status and the next device state.
  - The generated tables are parameters. `AsciiTableValid` and
    `ModbusTableValid` state what the model assumes of them: the tables
    are sorted and their keys unique, as the `bsearch` lookups need;
    each printer and marshaller stays within the room it is given; and
    a marshaller that reports OK produced or consumed at least one byte.
    `cmd.h` does not promise the last point (see "Left out").
- **Bytes and integers.** Bytes are integers from 0 to 255. The
  wrap-arounds in the C code are written out: the 16-bit message counter,
  `int16_t`/`int32_t` narrowing, 32-bit sums, `uint16_t` results and the
  32-bit `int` skip of `find_version_2`. The exception is the serial
  error counters (see "Left out").
- **Buffers.** `serial_tx` is a sequence of `SERIAL_TX_LEN` (80)
  characters. Each operation returns the new buffer. The text engines'
  replies are stated as the C string found in that buffer.
- **Transport.** Each ISR and API call of `serial.c` is a function on a
  `Transport` record. The record's `Valid()` predicate holds the
  invariants every operation keeps. The length of the receive buffers is
  a parameter: 80 is the code as written, and 81 is the correction
  described under Findings.
- **Where the code and the design disagree**, the model follows the
  code:
  - `main.c` calls `ascii_interface(rx_buf, len)`, but the header
    declares one argument. The model hands the newer text engine the
    frame's C string and never strips a line ending, because `main.c`
    does not strip one.
  - A Modbus read of 38 registers passes the handler's own limit, but
    the reply would not fit with its CRC. The engine replaces it with a
    failure exception (`Modbus.ThirtyEightRegistersNeverSucceed`), so
    the largest read that succeeds is 37 registers.
  - A bare LF after a CR strips the CR as well, as in
    `ascii_strip_line_ending`.
  - The target conversions, the duty-ratio readout and the error
    comparison are modelled as written. Where they differ from what was
    evidently intended, the corrected definitions sit beside them and
    are named under Findings.

## Model

| member | source | states |
|---|---|---|
| Base.Inc16 | avr/src/main.c:77-78 | the message counter counts modulo 2^16: one more below 0xFFFF, 0 after 0xFFFF |
| Base.Le16OfBytes | avr/src/interface/modbus.c:303-305 | writing a 16-bit value low byte first and reading it back little-endian gives the value |
| Base.Int16 | avr/src/cmd_functions.c:93-95 | narrowing to `int16_t` lands in [-2^15, 2^15) and agrees with the value modulo 2^16 |
| Base.Int32 | avr/src/cmd_functions.c:115-117 | narrowing to `int32_t` lands in [-2^31, 2^31) and agrees with the value modulo 2^32 |
| Base.SepSome | avr/src/interface/ascii.c:72 | `strsep` on a string with the delimiter splits at its first occurrence |
| Base.SepNone | avr/src/interface/ascii.c:245 | `strsep` on a string without the delimiter returns it whole and leaves no rest |
| Base.SepParts | avr/src/interface/ascii.c:154 | the token, the delimiter and the rest put back together give the input |
| Base.FormatFirst | avr/src/main.c:91 | a template with one `%d` formats as the text before, the decimal argument, and the text after |
| Search.Cmp | avr/src/interface/modbus.c:88-93 | the comparator is zero exactly on equal keys and negative exactly when the first key sorts first |
| Search.LexIrreflexive | avr/src/interface/modbus.c:70-77 | no key sorts before itself |
| Search.LexTransitive | avr/src/interface/modbus.c:70-77 | the key order is transitive |
| Search.LexTotal | avr/src/interface/modbus.c:70-77 | any two keys are equal or ordered one way or the other |
| Search.AbsentAbove | avr/src/interface/modbus.c:81-83 | in a strictly sorted table, a key below the middle entry is absent from the upper half |
| Search.AbsentBelow | avr/src/interface/modbus.c:81-83 | in a strictly sorted table, a key above the middle entry is absent from the lower half |
| Search.FindIn | avr/src/interface/modbus.c:81-83 | binary search in a range finds an index holding the key, or the key is nowhere in that range |
| Search.Find | avr/src/interface/modbus.c:60-67 | over the whole table, the search fails exactly when the key is not in the table |
| Cmd.NameKeyCaseEq | avr/src/interface/ascii.c:228-236 | two names have the same lower-cased key exactly when `strcasecmp` calls them equal |
| Cmd.ModbusKey | avr/src/interface/modbus.c:60-64 | the compared prefix of an entry is three bytes, starting with the object kind's tag |
| Cmd.ModbusKeyInjective | avr/src/interface/modbus.c:70-77 | two (kind, address) pairs compare equal exactly when both parts are equal |
| Cmd.ModbusOrderIsByteWise | avr/src/interface/modbus.c:75-76 | `memcmp` compares the little-endian address low byte first, so 0x0100 sorts before 0x0001 |
| Cmd.FindAscii | avr/src/interface/ascii.c:220-225 | lookup by name finds an entry whose name equals the request ignoring case, and fails exactly when no entry does |
| Cmd.FindModbus | avr/src/interface/modbus.c:60-67 | lookup finds an entry with that kind and address, and fails exactly when there is none |
| ModbusTypes.Tag | avr/src/modbus_types.h:6-11 | every object kind is tagged by a letter |
| ModbusTypes.TagOrder | avr/src/modbus_types.h:6-11 | the tags order coils, discrete inputs, holding registers, input registers, and no two kinds share one |
| ModbusTypes.Code | avr/src/modbus_types.h:16-29 | every status has a code from 0 to 11, and only OK has code 0 |
| ModbusTypes.StatusOf | avr/src/modbus_types.h:16-29 | exactly the codes 0 to 11 name a status, and the status found has that code |
| ModbusTypes.CodeRoundTrip | avr/src/modbus_types.h:16-29 | code and status convert into each other, and the four exceptions in use have codes 1 to 4 |
| Crc16.ModbusCrc | avr/src/interface/modbus.c:257-264 | the loop over the first `len` bytes computes the CRC of exactly that prefix |
| Crc16.Constants | avr/src/interface/modbus.c:259 | the register starts at 0xFFFF, and the reflected polynomial is 0xA001 |
| Crc16.CrcFromAppend | avr/src/interface/modbus.c:257-264 | the CRC of a concatenation continues from the CRC of the first part |
| Crc16.CrcFromSnoc | avr/src/interface/modbus.c:260-262 | one more byte is one more `_crc16_update` step |
| Crc16.SingleByteErrorDetected | avr/src/interface/modbus.c:280-282 | changing any one byte of a frame changes its CRC |
| Crc16.RegisterSeesByteError | avr/src/interface/modbus.c:257-264 | changing one byte of the input changes the 16-bit register after the whole input |
| Crc16.AppendCrcValid | avr/src/interface/modbus.c:303-306 | a body followed by its CRC, low byte first, passes the CRC check |
| Crc16.CorruptedFrameRejected | avr/src/interface/modbus.c:276-282 | a frame that passes the check fails it once any one byte before the CRC is changed |
| Crc16.UpdateReg | avr/src/interface/modbus.c:260-262 | one `_crc16_update` on the bit register equals avr-libc's documented arithmetic form: xor the byte in, then eight shifts that apply 0xA001 when bit 0 was set |
| Crc16.CrcIsArithmetic | avr/src/interface/modbus.c:257-264 | on every input the CRC of the bit register is the value the arithmetic loop computes from 0xFFFF |
| Crc16.FieldMismatch | avr/src/interface/modbus.c:276-282 | a frame whose trailing field differs from the CRC of its body fails the check |
| Modbus.ExceptionCode | avr/src/interface/modbus.c:242-247 | `serial_tx[1] or 0x80` keeps the function code's low seven bits and sets the top bit |
| Modbus.HandlerTableSorted | avr/src/interface/modbus.c:47-57 | the handler table is strictly sorted, so `bsearch` over it is sound |
| Modbus.FindFunctionHandler | avr/src/interface/modbus.c:79-86 | codes 3 and 4 find the register reader, 6 the single write, 16 the multiple write, and no other code finds a handler |
| Modbus.ReadLoop | avr/src/interface/modbus.c:116-145 | the register loop yields two bytes per remaining register, or an exception that is not OK |
| Modbus.ReadRegistersAnswer | avr/src/interface/modbus.c:95-148 | a wrong length is an illegal function, too many registers a server failure; a normal reply is a byte count of twice the registers and that many bytes |
| Modbus.TryRegisterWrite | avr/src/interface/modbus.c:211-230 | an address without a writable holding register is an illegal data address and the device is untouched; with one, the outcome and device are exactly its writer's; success consumed some of the input |
| Modbus.WriteRegisterAnswer | avr/src/interface/modbus.c:151-169 | a wrong length is an illegal function; a normal reply echoes the request |
| Modbus.WriteLoop | avr/src/interface/modbus.c:196-207 | with no data left the loop succeeds on the device as it is; a success with data left means the first write went through |
| Modbus.WriteRegistersAnswer | avr/src/interface/modbus.c:172-209 | a short request, or a byte count that disagrees with the length, is an illegal function; a normal reply is the first four request bytes |
| Modbus.Handle | avr/src/interface/modbus.c:289-301 | a read leaves the device as it was, and an exception never carries OK |
| Modbus.ExceptionReply | avr/src/interface/modbus.c:242-247 | `fill_exception` leaves the three header bytes: station, exception code, status |
| Modbus.Body | avr/src/interface/modbus.c:284-301 | the reply body starts with the station and the function code or its exception code, and leaves room for the CRC |
| Modbus.WithCrc | avr/src/interface/modbus.c:303-306 | the framed reply passes the CRC check and extends the body by two bytes |
| Modbus.ModbusInterface | avr/src/interface/modbus.c:266-307 | exactly the accepted frames (long enough, this station, CRC correct) get a reply; the reply has a valid CRC and fits the buffer; a dropped frame leaves the device as it was |
| Modbus.Respond | avr/src/interface/modbus.c:284-306 | an accepted frame's reply echoes station and function (or exception) code and carries a valid CRC |
| Modbus.RequestAnswered | avr/src/interface/modbus.c:266-307 | any request to this station with a function code and two data bytes, framed with its CRC, is answered |
| Modbus.UnknownFunctionRejected | avr/src/interface/modbus.c:292-294 | an unknown function code is answered with exception 1 and changes nothing |
| Modbus.ExceptionReplyShape | avr/src/interface/modbus.c:242-247 | for a function code below 0x80, an exception reply is five bytes long and its exception code is never 0 |
| Modbus.ThirtyEightRegistersNeverSucceed | avr/src/interface/modbus.c:297-300 | a read of 38 registers passes the handler's limit but is always answered with an exception |
| Modbus.ReadReplyLength | avr/src/interface/modbus.c:113-147 | a successful read of n registers is 5 + 2n bytes long with byte count 2n |
| Modbus.ReadUsesKindOfCode | avr/src/interface/modbus.c:99 | a read whose start address has no entry of the code's kind (holding registers for 3, input registers for 4) is an illegal data address |
| Modbus.ReaderOutcomePassedThrough | avr/src/interface/modbus.c:133-142 | a reader's error becomes the exception, and an odd byte count becomes a server failure |
| Modbus.FindModbusUnique | avr/src/interface/modbus.c:60-67 | with unique keys, lookup returns the one entry with that kind and address |
| Modbus.ReadStepAt | avr/src/interface/modbus.c:118-144 | a register without a readable entry of the kind stops the read as an illegal data address; otherwise the entry's reader, given twice the registers left, decides: its error, a server failure for an odd count, or its bytes and the offset after them |
| Modbus.ReadRunDecides | avr/src/interface/modbus.c:116-147 | every run from an offset ends as the read loop does: success exactly when the run reaches the last register, with the readers' bytes in register order, otherwise the status of the step that stopped |
| Modbus.ReadLoopHasRun | avr/src/interface/modbus.c:116-145 | the read loop from any offset has a run |
| Modbus.ReadRegistersByRun | avr/src/interface/modbus.c:95-148 | a read is answered normally exactly when its run reaches the last register, with byte count 2n and the readers' bytes in register order; otherwise with the stopping step's exception |
| Modbus.WriteStepAt | avr/src/interface/modbus.c:196-230 | a register without a writable holding entry halts the write as an illegal data address on the untouched device; otherwise the entry's writer, given the rest of the data, decides: its error, a server failure for an odd count, or the offset after what it consumed, with the device it leaves |
| Modbus.WriteRunDecides | avr/src/interface/modbus.c:196-208 | every run ends as the write loop does: writes happen in data order, each on the device the previous one left, and the first halting step ends the loop with its status and device |
| Modbus.WriteLoopHasRun | avr/src/interface/modbus.c:196-207 | the write loop from any offset and device has a run |
| Modbus.WriteRegistersByRun | avr/src/interface/modbus.c:172-209 | a well-formed multiple write is answered with address and count exactly when its run consumes all the data, with the device after the last write; otherwise with the halting step's exception and device |
| Modbus.WriteRegisterEffect | avr/src/interface/modbus.c:151-169 | a single write to a writable holding register runs its writer on the value bytes: the request is echoed exactly when the writer reports OK, and the device is the writer's either way |
| Modbus.ZeroProgressStalls | avr/src/interface/modbus.c:116-145 | a marshaller reporting OK with nothing produced or consumed leaves the loop where it was |
| Modbus.WriteNeedsWritableHolding | avr/src/interface/modbus.c:211-226 | a single write to an address without a writable holding register is an illegal data address and leaves the device unchanged |
| ModbusLegacy.ExceptionCode | avr/src/interface_modbus.c:112-117 | `0x80 + code` in a byte: adds 0x80 below 0x80 and wraps to code - 0x80 above |
| ModbusLegacy.HasHandler | avr/src/interface_modbus.c:45-46 | only code 4 has a handler |
| ModbusLegacy.Body | avr/src/interface_modbus.c:147-164 | code 4 gets the placeholder "kissa", every other code exception 1 |
| ModbusLegacy.InterfaceModbus | avr/src/interface_modbus.c:129-170 | the same acceptance rule as the newer engine; the reply has a valid CRC and is nine bytes for code 4 and five otherwise |
| ModbusLegacy.Respond | avr/src/interface_modbus.c:147-169 | an accepted frame's reply echoes the station and carries a valid CRC |
| ModbusLegacy.EnginesAgreeOnUnknownCodes | avr/src/interface_modbus.c:152-158 | on a function code below 0x80 that the newer engine does not know, both engines send the same bytes |
| ModbusLegacy.ExceptionCodesDiverge | avr/src/interface_modbus.c:112-117 | on a function code of 0x80 or more the first engine clears the top bit that the newer one keeps set |
| CmdFunctions.ModbusStrerror | avr/src/cmd_functions.c:172-180 | only OK has no message, and every other status has a non-empty one |
| CmdFunctions.StrerrorMessage | avr/src/cmd_functions.c:172-180 | the messages read "Illegal data value", "Unrecoverable error", or "Modbus error" with the code |
| CmdFunctions.SetterOutcome | avr/src/cmd_functions.c:79-87 | a setter's OK becomes success, and any other status becomes an error at offset 0 carrying the status code |
| CmdFunctions.ScanBool | avr/src/cmd_functions.c:62-88 | succeeds exactly on a boolean token whose setter says OK; any other token is refused with the allowed-values message and no setter call |
| CmdFunctions.BoolTokensListed | avr/src/cmd_functions.c:65-72 | true is "1" or "on" in any case, false is "0" or "off" in any case, and nothing else is a boolean |
| CmdFunctions.PrintBool | avr/src/cmd_functions.c:135-142 | prints one character, which scans back as the getter's value; with no room reports out of buffer |
| CmdFunctions.BoolRoundTrip | avr/src/cmd_functions.c:62-142 | scanning what `cmd_print_bool` printed calls the setter with the getter's value |
| CmdFunctions.PrintBoolKeepsContract | avr/src/interface/cmd.h:30-33 | `cmd_print_bool` meets the printer contract of the registry |
| CmdFunctions.ScanMagnitude | avr/src/cmd_functions.c:95 | an unsigned `%i` reads a non-negative value from at least one character, and fails exactly when no digit starts the input; after "0x" or "0X" it always succeeds, reading both characters and then every hexadecimal digit up to the first non-digit |
| CmdFunctions.ScanI | avr/src/cmd_functions.c:95 | `%i` with `%n` reports a count of characters read within the input |
| CmdFunctions.DecimalScansBack | avr/src/cmd_functions.c:95 | `%i` reads every decimal rendering back as its value, consuming all of it |
| CmdFunctions.NegativeScansBack | avr/src/cmd_functions.c:95 | a negative decimal rendering is read back with its sign |
| CmdFunctions.ScanHexExample | avr/src/cmd_functions.c:95 | `%i` reads "0x1F" as 31 |
| CmdFunctions.BarePrefixExample | avr/src/cmd_functions.c:95-103 | a bare "0x" is a whole number: `%i` stores 0 with `%n` at 2, and `cmd_scan_int16` hands 0 to the setter |
| CmdFunctions.BarePrefixStopsExample | avr/src/cmd_functions.c:95-98 | "0xg" converts as 0 with `%n` at 2, so `cmd_scan_int16` answers "Not a digit" at offset 2 |
| CmdFunctions.ScanOctalExample | avr/src/cmd_functions.c:117 | `%i` reads "-017" as octal, -15 |
| CmdFunctions.ScanInt | avr/src/cmd_functions.c:96-99 | succeeds exactly when the whole token is one number and the setter says OK; otherwise "Not a digit" at the offset reached |
| CmdFunctions.ScanTrailingExample | avr/src/cmd_functions.c:96-98 | "12a" is refused at offset 2 |
| CmdFunctions.ScanInt16 | avr/src/cmd_functions.c:91-110 | `cmd_scan_int16` passes the number narrowed to 16 bits, and refuses a token that is not a whole number |
| CmdFunctions.Int16RoundTrip | avr/src/cmd_functions.c:91-110 | scanning a printed 16-bit value calls the setter with the getter's value |
| CmdFunctions.ScanInt32 | avr/src/cmd_functions.c:113-132 | `cmd_scan_int32` passes the number narrowed to 32 bits, and refuses a token that is not a whole number |
| CmdFunctions.Int32RoundTrip | avr/src/cmd_functions.c:113-132 | scanning a printed 32-bit value calls the setter with the getter's value |
| CmdFunctions.PrintInt | avr/src/cmd_functions.c:151-162 | `snprintf` writes a prefix of the decimal, cut to count - 1 characters, and returns the full length |
| CmdFunctions.PrintIntKeepsContract | avr/src/cmd_functions.c:151-162 | the integer printers meet the printer contract for 32-bit getters |
| CmdFunctions.DecimalLength32 | avr/src/cmd_functions.c:158-162 | a 32-bit integer prints in at most 11 characters |
| CmdFunctions.PrintPong | avr/src/cmd_functions.c:183-192 | out of buffer exactly below four bytes, otherwise writes "PONG" |
| CmdFunctions.PrintPongKeepsContract | avr/src/cmd_functions.c:183-192 | `cmd_print_pong` meets the printer contract |
| Misc.MiscVersion | avr/src/misc.c:31-34 | `strlcpy` copies a prefix of the version, cut to count - 1 characters, and returns the full length |
| Misc.VersionTruncationVisible | avr/src/misc.c:31-34 | when the version does not fit, the return value is at least the room given, which is how callers see the cut |
| Misc.VersionKeepsContract | avr/src/cmd_functions.c:145-148 | `cmd_print_version`, the same `strlcpy`, meets the printer contract |
| Misc.MiscPong | avr/src/misc.c:58-67 | below four bytes of room reports `BUFLEN_MAX`, otherwise writes "PONG" |
| Misc.GetLed | avr/src/misc.c:43-46 | writing back the LED state that was read changes nothing |
| Misc.GetDummyCoil | avr/src/misc.c:69-72 | writing back the coil value that was read changes nothing |
| Misc.GetAfterSet | avr/src/misc.c:43-78 | each getter reads back what its setter wrote, and the other bit keeps its value |
| Misc.PongsAgree | avr/src/misc.c:58-67 | `misc_pong` and `cmd_print_pong` give the same result |
| Misc.SetLed | avr/src/misc.c:48-56 | always OK; the LED takes the value, and the dummy coil is untouched |
| Misc.SetDummyCoil | avr/src/misc.c:74-78 | always OK; the coil takes the value, and the LED is untouched |
| Misc.SettersIdempotent | avr/src/misc.c:43-78 | setting twice is setting once with the last value |
| Misc.LedThroughText | avr/src/misc.c:43-56 | printing one LED state and scanning it into another device copies the state |
| Juksautin.SumMaxValues | avr/src/juksautin.c:36-40 | the millivolt sum bound is 15617038; one more sample times `MV_MULT` fits 32 bits, and so does the ratio sum times 2^16 |
| Juksautin.RawOfMillivoltsAsWritten | avr/src/juksautin.c:92 | the raw target as written is the floor of (mv × 256 + 128) / 275, so at most 61007 |
| Juksautin.SetRoundingAsWrittenIsNotNearest | avr/src/juksautin.c:92 | as written, 7 mV becomes raw 6, though 7 is nearer |
| Juksautin.MillivoltsOfRawAsWritten | avr/src/juksautin.c:106 | the readback as written fits 16 bits, and up to raw 61007 it is the floor of (raw × 275 + 137) / 256 |
| Juksautin.GetRoundingAsWrittenIsNotNearest | avr/src/juksautin.c:106 | as written, raw 20 reads as 22 mV, though 21 is nearer |
| Juksautin.GetWrapsAboveRange | avr/src/juksautin.c:106 | raw targets of 61008 and up read back wrapped modulo 2^16 |
| Juksautin.RawOfMillivolts | avr/src/juksautin.c:92 | corrected conversion: the raw target is the nearest to mv × 256 / 275, so at most 61007 |
| Juksautin.MillivoltsOfRaw | avr/src/juksautin.c:106 | corrected conversion: the millivolts are the nearest to raw × 275 / 256 |
| Juksautin.TargetRoundTrip | avr/src/juksautin.c:90-107 | with the corrected conversions, setting a target and reading it back is off by at most 1 mV |
| Juksautin.TargetRoundTripAsWritten | avr/src/juksautin.c:90-107 | with the conversions as written, setting a target and reading it back is off by at most 1 mV |
| Juksautin.SetTarget | avr/src/juksautin.c:90-98 | always OK, changes only the target, stores at most 61007, and the target reads back within 1 mV of the value set |
| Juksautin.GetTarget | avr/src/juksautin.c:100-107 | the readback fits 16 bits and, for every storable target, is within 1 mV of raw × 275 / 256 |
| Juksautin.Store | avr/src/juksautin.c:244-263 | the accumulator stays within 32/16 bits, and its count is never 0 after a sample |
| Juksautin.StoreKeepsHeadroom | avr/src/juksautin.c:244-263 | with samples up to `vmax`, the sum never exceeds max + vmax, never exceeds count × vmax, and on an even count never exceeds max; so the 32-bit sum never wraps |
| Juksautin.TakeAccu | avr/src/juksautin.c:147-157 | returns the accumulator as it was and leaves an empty one that satisfies every headroom bound |
| Juksautin.ToMillivolts | avr/src/juksautin.c:160-163 | the mean is a 16-bit value |
| Juksautin.MillivoltProduct | avr/src/juksautin.c:32-36 | within the headroom, sum × 275 does not wrap, and divided by the count it is at most 1023 × 275 |
| Juksautin.MillivoltsExact | avr/src/juksautin.c:160-163 | within the headroom the 32-bit computation is the exact integer mean, at most 1098 mV |
| Juksautin.ToRatio16AsWritten | avr/src/juksautin.c:167-170 | the ratio as written is truncated to 16 bits |
| Juksautin.RatioQuotient | avr/src/juksautin.c:38-40 | within the headroom, sum << 16 does not wrap, and the quotient is 2^16 exactly at full duty and below it otherwise |
| Juksautin.FullDutyReadsZero | avr/src/juksautin.c:167-170 | as written, a pump that was on for every sample reads as ratio 0 |
| Juksautin.ToRatio16 | avr/src/juksautin.c:165-170 | the corrected ratio is a 16-bit value |
| Juksautin.RatioReadouts | avr/src/juksautin.c:165-170 | below full duty the corrected ratio equals the written one, sum × 2^16 / count; at full duty it is 65535 where the written one is 0 |
| Juksautin.ChannelAt | avr/src/juksautin.c:186-202 | the thermistor channel 0 is chosen exactly on the steps that are not multiples of 4 |
| Juksautin.AdcChannelSelection | avr/src/juksautin.c:173-203 | advances the cycle modulo 16, returns its channel, records one ratio sample, and changes nothing else |
| Juksautin.Next | avr/src/juksautin.c:185 | the 4-bit cycle counter steps modulo 16 |
| Juksautin.CycleCounts | avr/src/juksautin.c:186-202 | in one cycle, channels 8, 2, 3 and 4 come once each and channel 0 twelve times |
| Juksautin.ScheduleIsRotation | avr/src/juksautin.c:183-202 | from any cycle position, the next 16 channels are a rotation of the cycle |
| Juksautin.SixteenStepCycle | avr/src/juksautin.c:183-202 | any 16 consecutive selections sample channels 8, 2, 3 and 4 once each and channel 0 twelve times |
| Juksautin.HandleJuksautus | avr/src/juksautin.c:208-220 | the pump pulls down exactly when the sample is above the target; the sample is stored; nothing else changes |
| Juksautin.HandleErr | avr/src/juksautin.c:237-241 | compared as unsigned 16-bit values, the error level becomes the larger of the old level and the sample; nothing else changes |
| Juksautin.HandleErrs | avr/src/juksautin.c:237-241 | a run of `handle_err` calls on 16-bit samples changes only the error level |
| Juksautin.ErrorIsRunningMax | avr/src/juksautin.c:237-241 | after a run of samples, the error taken is at least the old level and every sample, all read unsigned, and is one of them |
| Juksautin.TakeError | avr/src/juksautin.c:125-134 | returns the error level as its `uint16_t` bit pattern and resets it to 0, changing nothing else |
| Juksautin.TakeRatio | avr/src/juksautin.c:120-123 | empties the ratio accumulator; no reading exactly when it was empty, where `to_ratio16` (juksautin.c:169) would divide by zero; otherwise sum × 2^16 / count below full duty and 0 at full duty |
| Juksautin.TakeRatioSaturating | avr/src/juksautin.c:165-170 | corrected readout: the same, except that full duty reads 65535 |
| Ascii.PutLine | avr/src/interface/ascii.c:249 | `strcpy_P` leaves exactly the message as the buffer's C string |
| Ascii.StripLineEnding | avr/src/interface/ascii.c:39-51 | reports exactly whether the last byte is LF, replaces it and a CR before it with NUL, and leaves every other byte |
| Ascii.StripGivesLine | avr/src/interface/ascii.c:39-51 | stripping a line that ends in LF or CRLF leaves exactly the text before the ending |
| Ascii.SerialPad | avr/src/interface/ascii.c:53-64 | with room, n spaces with the caret at column n and a space; otherwise "At n: " |
| Ascii.PutMsg | avr/src/interface/ascii.c:76-77 | the message, cut to fit, follows the padding and is NUL-terminated, and the padding is kept |
| Ascii.ErrorAt | avr/src/interface/ascii.c:75-78 | an error line always leaves a NUL-terminated buffer |
| Ascii.ErrorLine | avr/src/interface/ascii.c:75-78 | with room, the error line is spaces, a caret under byte n of the request, and the cut message |
| Ascii.ErrorFull | avr/src/interface/ascii.c:122-146 | `error_full` always leaves a NUL-terminated buffer |
| Ascii.ErrorFullAfterCaret | avr/src/interface/ascii.c:122-146 | when the message fits after the caret, it is printed there |
| Ascii.ErrorFullBeforeCaret | avr/src/interface/ascii.c:131-140 | when it does not fit, it is printed before the caret and ends with " ^" |
| Ascii.Terminated | avr/src/interface/ascii.c:143-145 | `strncpy` of the message and the NUL after the tail leave the rest of the buffer |
| Ascii.TerminatedLine | avr/src/interface/ascii.c:143-145 | when nothing before it is NUL, the buffer's C string is the text before, the message, and the kept tail |
| Ascii.FoundIsUnique | avr/src/interface/ascii.c:220-225 | with names unique ignoring case, lookup returns the one matching entry |
| Ascii.Printed | avr/src/interface/ascii.c:92-103 | a field that is accepted leaves room for the NUL or the separating space |
| Ascii.ReadPrinted | avr/src/interface/ascii.c:92-103 | the printer's output is accepted exactly when it fits, and is then written after the earlier output; otherwise the buffer-full error at the field's column |
| Ascii.Field | avr/src/interface/ascii.c:71-103 | one field's text always leaves room for the NUL or a space after it |
| Ascii.ReadField | avr/src/interface/ascii.c:67-103 | an unknown name fails at its column; otherwise the step succeeds exactly when the field renders, and writes `name=value` after the earlier output |
| Ascii.ReadStepFits | avr/src/interface/ascii.c:67-103 | the per-name step of `process_read` writes what the field rendering says, and never a NUL |
| Ascii.ReadLoop | avr/src/interface/ascii.c:67-120 | the loop ends with a NUL-terminated buffer, or with an error at or after its starting column |
| Ascii.LoopReply | avr/src/interface/ascii.c:67-120 | the loop succeeds exactly when every name renders, and then the output is the fields in order separated by single spaces |
| Ascii.ReadTail | avr/src/interface/ascii.c:105-109 | the terminating NUL closes exactly the output written, and keeps what came before |
| Ascii.ReadJoin | avr/src/interface/ascii.c:110-114 | the space and the rest of the reply join this field's text and the rest's |
| Ascii.ProcessRead | avr/src/interface/ascii.c:67-120 | `process_read` leaves a NUL-terminated buffer, or an error at a column of the request |
| Ascii.ReadReply | avr/src/interface/ascii.c:67-120 | GET succeeds exactly when every field renders and fits, and then the reply is the `name=value` fields in request order |
| Ascii.ReadUnknown | avr/src/interface/ascii.c:75-79 | an unknown first name is reported at its own column |
| Ascii.WritePair | avr/src/interface/ascii.c:149-190 | one pair either stops with an error inside the request, or continues with a strictly shorter rest |
| Ascii.ProcessWrite | avr/src/interface/ascii.c:149-198 | a failed SET reports a column within the request |
| Ascii.WriteOnePair | avr/src/interface/ascii.c:174-195 | a single pair is written exactly when the scanner succeeds; the device is as the scanner left it; an error sits at the value's column plus the scanner's offset |
| Ascii.FirstPairAccepted | avr/src/interface/ascii.c:192-197 | after an accepted pair the rest is processed from the device the scanner produced |
| Ascii.WriteContinues | avr/src/interface/ascii.c:192-197 | SET continues from where its first pair left it, so later failures do not undo earlier writes |
| Ascii.WriteWithoutValue | avr/src/interface/ascii.c:175-180 | a pair without `=` is refused with "Expected '='" right after the name |
| Ascii.OperationWords | avr/src/interface/ascii.c:247-262 | an operation word matches GET, SET or HELP ignoring case exactly when its lower-case form is that word |
| Ascii.HelpHasNoSpace | avr/src/interface/ascii.c:262-268 | a line that is HELP in any case has no arguments |
| Ascii.HelpCommand | avr/src/interface/ascii.c:262-268 | HELP gives the listing exactly when no arguments follow |
| Ascii.GetCommand | avr/src/interface/ascii.c:247-253 | GET never changes the device and always leaves a NUL-terminated buffer |
| Ascii.GetReply | avr/src/interface/ascii.c:247-253 | `GET names` succeeds exactly when every field renders, with the fields as the reply, and the device unchanged |
| Ascii.SetCommand | avr/src/interface/ascii.c:254-261 | SET always leaves a NUL-terminated buffer, and without arguments it changes nothing |
| Ascii.SetReply | avr/src/interface/ascii.c:254-261 | `SET pairs` answers OK exactly when every pair is written; otherwise an error line at the offending column; the device is as the writes left it |
| Ascii.SetDispatch | avr/src/interface/ascii.c:254-260 | SET with arguments goes to the pair processor at the column after the operation |
| Ascii.SetAnswers | avr/src/interface/ascii.c:259-260 | "OK" is put in the buffer first and stays when every pair is written; otherwise the error line is written over it |
| Ascii.AsciiInterface | avr/src/interface/ascii.c:240-274 | a text request always leaves a NUL-terminated reply, and the help listing is produced exactly for HELP |
| Ascii.DispatchErrors | avr/src/interface/ascii.c:246-273 | a bare GET or SET asks for arguments; any other word than GET, SET or HELP gets the expecting-operation message |
| Ascii.HelpTakesNoArguments | avr/src/interface/ascii.c:262-266 | HELP with arguments is refused with the no-arguments message and changes nothing |
| AsciiLegacy.FindLegacy | avr/src/interface_ascii.c:167-172 | lookup finds an entry equal to the name ignoring case, and fails exactly when none is |
| AsciiLegacy.Refusal | avr/src/interface_ascii.c:58 | an error line is the message cut to fit the buffer, and changes nothing |
| AsciiLegacy.ReadName | avr/src/interface_ascii.c:53-108 | a field that is accepted leaves room for the NUL or space after it |
| AsciiLegacy.FieldAgrees | avr/src/interface_ascii.c:53-108 | one name renders in the first engine exactly when it renders in the newer one, as the same text |
| AsciiLegacy.Fields | avr/src/interface_ascii.c:51-113 | a successful reply fits the buffer with its NUL |
| AsciiLegacy.LegacyRead | avr/src/interface_ascii.c:51-113 | a successful GET fits the buffer |
| AsciiLegacy.ReadAgrees | avr/src/interface_ascii.c:51-113 | GET succeeds in the first engine exactly when it succeeds in the newer one on the same registry, with the same reply |
| AsciiLegacy.ModernValid | avr/src/interface_ascii.c:166-183 | the first engine's registry, seen as a newer one, is valid, and both lookups find the same entry |
| AsciiLegacy.FieldsMeetReplies | avr/src/interface_ascii.c:98-108 | the field loops of the two engines agree whenever their per-name steps do |
| AsciiLegacy.FailedWriteLine | avr/src/interface_ascii.c:151-154 | a failed write's line is the prefix and the message, cut to fit the buffer (the corrected room once the prefix fills it) |
| AsciiLegacy.WritePair | avr/src/interface_ascii.c:116-156 | one pair either finishes with a line that fits (OK on success) or continues with a shorter rest |
| AsciiLegacy.PairAgrees | avr/src/interface_ascii.c:116-156 | one pair continues, fails or succeeds in the first engine exactly as in the newer one, with the same device |
| AsciiLegacy.PairRefused | avr/src/interface_ascii.c:119-145 | an unknown, unwritable or valueless pair is refused by both engines without a change |
| AsciiLegacy.PairScanned | avr/src/interface_ascii.c:147-156 | a pair that reaches its scanner has the same outcome and device in both engines |
| AsciiLegacy.LegacyWrite | avr/src/interface_ascii.c:116-164 | the SET reply always fits, and is "OK" on success |
| AsciiLegacy.WriteAgrees | avr/src/interface_ascii.c:116-164 | SET succeeds in the first engine exactly when it does in the newer one, and leaves the same device |
| AsciiLegacy.GetCommand | avr/src/interface_ascii.c:199-205 | GET is OK exactly when the read succeeds, with the reply or the cut error as the line, and the device unchanged |
| AsciiLegacy.GetAnswer | avr/src/interface_ascii.c:199-205 | `GET names` answers as the newer engine does on the same registry |
| AsciiLegacy.Dispatch | avr/src/interface_ascii.c:196-216 | only GET or SET with arguments can succeed, and only SET with arguments can change the device |
| AsciiLegacy.DispatchArguments | avr/src/interface_ascii.c:199-212 | GET with arguments goes to the reader, SET with arguments to the writer |
| AsciiLegacy.InterfaceAscii | avr/src/interface_ascii.c:187-217 | a line without a trailing LF is refused with "Message not terminated by newline" and changes nothing |
| AsciiLegacy.TerminatedLine | avr/src/interface_ascii.c:36-48 | a line ending in LF or CRLF is dispatched as the text before the ending |
| AsciiLegacy.OperationErrors | avr/src/interface_ascii.c:213-216 | a bare GET or SET asks for arguments; HELP and other words get "Expecting 'GET' or 'SET'" |
| AsciiLegacy.GetFirstName | avr/src/interface_ascii.c:54-73 | unknown, unreadable, Modbus-only and too-long first names each get their own message |
| AsciiLegacy.SetAnswer | avr/src/interface_ascii.c:206-212 | `SET pairs` answers OK exactly when the newer engine would, with the same device |
| AsciiLegacy.SetOnePair | avr/src/interface_ascii.c:119-145 | the error of each kind of bad pair, and a scanner's outcome passed through with its message after the prefix |
| AsciiLegacy.SetContinues | avr/src/interface_ascii.c:157-163 | SET continues from the device its first pair left |
| AsciiLegacy.TailSizeAsWritten | avr/src/interface_ascii.c:152-153 | `SERIAL_TX_LEN - pos` as a 16-bit size is 80 - pos up to 80, and wraps to 2^16 + 80 - pos beyond |
| AsciiLegacy.TailSize | avr/src/interface_ascii.c:152-153 | the corrected size never reaches past the buffer |
| AsciiLegacy.TailEnd | avr/src/interface_ascii.c:153 | `snprintf` stores its NUL within the size it is given |
| AsciiLegacy.TailOverrunsAsWritten | avr/src/interface_ascii.c:152-153 | as written, a failed write to a field with a name of 58 or more characters stores past the end of `serial_tx` |
| AsciiLegacy.TailInside | avr/src/interface_ascii.c:152-153 | with the corrected size nothing is stored outside `serial_tx`, and the line is the prefix cut to the buffer followed by what the second write stores |
| Serial.Init | avr/src/serial.c:43-57 | starts valid, with no frame held, index 0, nothing to transmit and every counter at 0 |
| Serial.RxByte | avr/src/serial.c:274-297 | a received byte arms the timer, marks the line active and touches only the back buffer and index |
| Serial.RxBytes | avr/src/serial.c:274-297 | a run of bytes touches only the back buffer and index; an empty run changes nothing |
| Serial.RxBytesStore | avr/src/serial.c:284-296 | while they fit, the bytes are appended at the index and the rest of the back buffer is kept |
| Serial.RxBytesOverflow | avr/src/serial.c:287-292 | a byte past a full buffer sets the index to the overflow mark 255 |
| Serial.RxBytesSplit | avr/src/serial.c:274-297 | receiving two runs is receiving their concatenation |
| Serial.EndOfFrame | avr/src/serial.c:158-188 | exactly one counter moves: too long, flip timeout (frame still held), or good with the back buffer handed over with its length; the index rewinds |
| Serial.FrameArrives | avr/src/serial.c:158-188 | a frame of up to 80 bytes becomes the held frame with exactly those bytes; a longer one is dropped and counted |
| Serial.ReceiveFrame | avr/src/serial.c:141-188 | after a frame and the silence the receiver is valid and rewound |
| Serial.TransmitNow | avr/src/serial.c:190-202 | the indicator LED toggles, the line turns to transmit and the data-register interrupt is on; nothing else changes |
| Serial.TimerExpired | avr/src/serial.c:141-155 | the first silence ends the frame and re-arms; the second makes the line ready, and starts a pending transmit |
| Serial.GetMessage | avr/src/serial.c:204-219 | with a frame held, returns its bytes NUL-terminated at its length; without one returns nothing and length 0 |
| Serial.FreeMessage | avr/src/serial.c:221-225 | releases the held frame and changes nothing else |
| Serial.NulOverrunsAsWritten | avr/src/serial.c:213 | with 80-byte buffers, an 80-byte frame is accepted and its NUL would be written past the buffer |
| Serial.InitCanOverrun | avr/src/serial.c:43-44 | the buffers as declared meet the preconditions of that overrun |
| Serial.NulFitsWithSpareByte | avr/src/serial.c:213 | with one spare byte per buffer, every held frame has room for its NUL |
| Serial.PullCounters | avr/src/serial.c:227-237 | returns the counters and leaves them all at zero |
| Serial.SetTx | avr/src/serial.c:40 | an engine writing `serial_tx` changes nothing else of the transport |
| Serial.TxBin | avr/src/serial.c:113-138 | too long is counted and dropped; 0 does nothing; otherwise the length is queued, and sending starts at once, toggling the LED, when the line is ready |
| Serial.StrnLen | avr/src/serial.c:93 | `strnlen` is the length of the C string in the buffer, at most 80 |
| Serial.TxLine | avr/src/serial.c:91-111 | a buffer without a NUL is counted and dropped; otherwise the line's length plus one byte for the LF is queued |
| Serial.LineQueued | avr/src/serial.c:103-110 | the queued bytes are the line and LF; when the line and LF would fill the buffer, the line's last character is replaced by '>' |
| Serial.Udre | avr/src/serial.c:258-271 | sends the byte at the index and disables itself after the last one |
| Serial.Udres | avr/src/serial.c:258-271 | n steps advance the index by n and keep the buffer and the LED |
| Serial.UdresSend | avr/src/serial.c:258-271 | n steps put exactly the next n bytes on the wire, and the interrupt stays on exactly while bytes are left |
| Serial.TxComplete | avr/src/serial.c:242-255 | the indicator LED toggles back, the line returns to receive, the index rewinds and the transmit flag clears |
| Serial.LineOnWire | avr/src/serial.c:91-138 | a line queued on a ready line goes out as its text and one LF, and the transport is idle again with the LED as before |
| MainLoop.Boot | avr/src/main.c:37-78 | the node starts with a valid transport, nothing held, and a counter that wraps to 0 on the first message |
| MainLoop.OverflowText | avr/src/main.c:91 | the overflow message formats as "Incoming message longer than 80 bytes" |
| MainLoop.OverflowFits | avr/src/main.c:91 | that message fits the buffer with its NUL |
| MainLoop.UsageFits | avr/src/interface/ascii.c:215 | the usage text fits the buffer with its NUL |
| MainLoop.Strncpy | avr/src/interface/ascii.c:215 | `strncpy` of a shorter string pads with NUL, and the buffer's C string is the text |
| MainLoop.Place | avr/src/main.c:101-104 | the Modbus reply occupies the front of `serial_tx`, and the rest is kept |
| MainLoop.RouteOf | avr/src/main.c:80-108 | overflow exactly for frames over 80 bytes; text only with the text engine built in, binary only with Modbus, otherwise dropped |
| MainLoop.DualRouting | avr/src/main.c:81-84 | with both engines, a frame is text exactly when its second byte is a letter |
| MainLoop.SingleRouting | avr/src/main.c:84 | with one engine, every frame that fits goes to it |
| MainLoop.ModbusRequestsReachModbus | avr/src/main.c:81-83 | a frame with a handled function code goes to the Modbus engine |
| MainLoop.OperationsReachText | avr/src/main.c:81-83 | a line starting with GET, SET or HELP, in upper or lower case, goes to the text engine |
| MainLoop.RequestLine | avr/src/main.c:96 | the text engine sees a NUL-free prefix of the frame, the C string `rx_buf` holds |
| MainLoop.HandleOverflow | avr/src/main.c:86-93 | the frame is released; where text may be sent, the overflow message and LF are queued |
| MainLoop.Handle | avr/src/main.c:80-108 | every route releases the frame, and a dropped frame changes nothing else |
| MainLoop.HandleText | avr/src/main.c:94-98 | the text branch leaves a valid transport with the frame released |
| MainLoop.TextAnswer | avr/src/main.c:94-98 | a text frame is answered with the engine's reply line (or the usage text after HELP) and LF |
| MainLoop.HandleBinary | avr/src/main.c:99-105 | the Modbus branch leaves a valid transport with the frame released |
| MainLoop.BinaryAnswer | avr/src/main.c:99-105 | a binary frame is answered with exactly the engine's reply bytes, or not at all when there are none |
| MainLoop.SilentOnForeignFrames | avr/src/main.c:99-105 | a binary frame that is not an accepted request is never answered |
| MainLoop.Loop | avr/src/main.c:65-109 | the loop does nothing while transmitting or idle; otherwise it releases the frame and counts it modulo 2^16 |
| MainLoop.NoOverflowFromTransport | avr/src/main.c:80 | a frame the transport hands over is never on the overflow route |
| MainLoop.LineSent | avr/src/main.c:97-98 | after the engine, the reply's C string and LF are queued |
| Proto.Store | avr_proto/src/main.c:274-280 | a full accumulator is left as it is; otherwise the count grows by one |
| Proto.StoresSum | avr_proto/src/main.c:274-280 | a run of samples adds its first k values, k being what fits before the count is full, and the sum stays bounded |
| Proto.NextChannel | avr_proto/src/main.c:234-244 | the next channel is the thermistor 0 or the temperature sensor 8 |
| Proto.OneTemperatureInEight | avr_proto/src/main.c:234-244 | every eight consecutive counts choose the temperature sensor exactly once |
| Proto.AdcInit | avr_proto/src/main.c:109-155 | the board starts in a valid state |
| Proto.AdcIsr | avr_proto/src/main.c:227-272 | the next channel follows the count; channel 0 decides the pump and stores the sample, channel 8 stores the temperature, and the pump state is always stored |
| Proto.RxIsr | avr_proto/src/main.c:319-342 | a message is flagged exactly at an LF that did not overflow; LF rewinds; other bytes are stored while there is room |
| Proto.RxStores | avr_proto/src/main.c:338-341 | bytes without LF are appended while they fit |
| Proto.RxIgnores | avr_proto/src/main.c:325-332 | with the buffer full, bytes are ignored until LF |
| Proto.RxLine | avr_proto/src/main.c:333-337 | a short line and LF are delivered as a C string |
| Proto.RxLongLine | avr_proto/src/main.c:325-330 | a line of the buffer's size or longer is not delivered and leaves the empty string |
| Proto.UdreIsr | avr_proto/src/main.c:303-317 | sends the next character, or LF in place of the NUL and then hands over to the transmit-complete interrupt |
| Proto.Drain | avr_proto/src/main.c:303-317 | the data-register interrupt runs until it has disabled itself |
| Proto.DrainSends | avr_proto/src/main.c:303-317 | what goes out is the rest of the C string and one LF |
| Proto.PutText | avr_proto/src/main.c:211-216 | the reply is the text cut to 39 characters and NUL-terminated |
| Proto.TxStart | avr_proto/src/main.c:282-288 | sending starts from index 0 with the line turned to transmit and the LED toggled |
| Proto.TxDone | avr_proto/src/main.c:292-300 | transmit is off, receive on, the LED toggled back, and the interrupt disabled |
| Proto.Loop | avr_proto/src/main.c:169-224 | without a message nothing changes; otherwise the flag clears and the counter steps modulo 2^16 |
| Proto.PingPong | avr_proto/src/main.c:189-192 | PING is answered with "PONG" and LF, the LED blinks once, and the board listens again |
| Proto.OtherLinesIgnored | avr_proto/src/main.c:218-223 | any other line than PING or READ is not answered, and receive comes back on |
| Proto.ReadReports | avr_proto/src/main.c:193-217 | READ clears the accumulators and sends the rendered report, cut to the buffer |
| Proto.BoardAdc | avr_proto/src/main.c:227-272 | the converter interrupt keeps the board valid, counts one more ratio sample (saturating), and touches nothing but the shared accumulators and converter state |
| Proto.BoardRx | avr_proto/src/main.c:53-56 | a received byte goes through the receive interrupt only while `rx_toggle` has the receiver on; with it off nothing changes, and the sender and converter never change |
| Proto.DeafWhileSending | avr_proto/src/main.c:179-183 | while a reply is being sent the receiver is off, so any bytes arriving then leave the board exactly as it was |
| Proto.ReadRestartsCycle | avr_proto/src/main.c:202-203 | READ zeroes the ratio count that the converter interrupt reads, so the next conversion is routed to the temperature sensor |
| Tz.CountsOf | juksutil/src/tz.c:66-74 | the six counts are 32-bit values |
| Tz.Be32RoundTrip | juksutil/src/tz.c:69-74 | `be32toh` reads back what was written big-endian |
| Tz.HeaderCounts | juksutil/src/tz.c:66-74 | the counts read from a header are the ones it was built with |
| Tz.UnderSkip | juksutil/src/tz.c:76-83 | the skip as written falls short by four bytes per leap-second record |
| Tz.Skip | juksutil/src/tz.c:76-83 | the `int` skip is the header size plus the block, modulo 2^32, in the signed 32-bit range |
| Tz.SkipExact | juksutil/src/tz.c:76-83 | below 2^31 the skip does not wrap |
| Tz.Walk | juksutil/src/tz.c:60-89 | an offset is returned exactly when both version bytes (at 4 and at skip + 4) are at least '2', and it is the wrapped skip |
| Tz.FindVersion2AsWritten | juksutil/src/tz.c:60-89 | as written, the result is the header size plus the under-counted block modulo 2^32, and exactly that sum when it stays below 2^31 |
| Tz.FindVersion2 | juksutil/src/tz.c:60-89 | with eight bytes per leap record, the result is the end of the version-1 data block modulo 2^32, and exactly that end below 2^31 |
| Tz.WrappedSkip | juksutil/src/tz.c:77-78 | 0x33333334 transitions wrap the skip to 48, so the code reads byte 52 of a file whose data block would be over 4 GiB |
| Tz.FindVersion2Checked | juksutil/src/tz.c:60-89 | corrected walk: an offset exactly when the file holds the header, the block and the second version byte and both versions are at least '2'; it is the end of the block |
| Tz.CheckedAgrees | juksutil/src/tz.c:60-89 | wherever the code reads inside the file without wrapping, the checked walk answers as it does |
| Tz.FindsSecondHeader | juksutil/src/tz.c:76-88 | on every version-2 file the checked walk lands on the second header |
| Tz.WalkFindsSecondHeader | juksutil/src/tz.c:76-88 | so does the `int` walk with eight bytes per leap record, while skip + 4 stays below 2^31 |
| Tz.TruncatedReadsPast | juksutil/src/tz.c:86 | a file that ends before byte skip + 4 is read past its end as written, and the checked walk refuses it |
| Tz.RefusesVersion1 | juksutil/src/tz.c:63 | a first header of version 1 is refused |
| Tz.MissesSecondHeader | juksutil/src/tz.c:80 | as written, a file with leap-second records is walked to the wrong offset |
| Tz.OneLeapSecond | juksutil/src/tz.c:76-88 | with one leap second, as written gives offset 48, where the second header is at 52 |

## Left out

- I/O and hardware: register setup (`serial_init`, the ADC, pins, sleep) and
  the timer are events in the model, and the LED and the pump pin are state
  fields.
- Concurrency: `ATOMIC_BLOCK` and preemption. Each ISR and main-loop step is
  one atomic function, so the interleavings of an ISR inside a main-loop
  step are not modelled.
- `process_help`'s listing lines, which depend on the generated table and
  the version string, and the busy-wait between them: only the usage text
  that ends the help is modelled.
- `snprintf` and `sscanf` beyond `%d`, `%i` and `%n`; the error templates
  use only `%d`.
- Floating point: the prototype's READ report, `set_voltage` and
  `accu_mean` (the report is a `render` parameter);
  `juksautin_compute_k5_real_voltage`.
- The clock: `misc_now` and `cmd_print_now`.
- EEPROM and handler registration in `juksautin_init`; the target's EEPROM
  copy is not modelled.
- The generated command tables (`cmd.c`) are parameters, and
  `version.cmake`'s string is one too.
- `juksutil`: only `find_version_2`; the file and mmap wrappers around it
  are I/O. `char` is taken to be signed, as on the hosts the tool is built
  for.
- `juksautin_take_k5_raw_mv`, `juksautin_take_outside_temp` and
  `juksautin_take_accumulator_temp` are `Juksautin.ToMillivolts` applied to
  `Juksautin.TakeAccu`, for an accumulator that holds a sample; the three
  thermistor and temperature handlers are `Juksautin.Store`.
- Juksautin.ToMillivolts: requires a non-empty accumulator. The C code
  divides by `a.count` unconditionally (juksautin.c:162), so a readout
  taken when no sample has arrived since the last one divides by zero.
  That is undefined in C, and the model has no value to give it.
- Juksautin.TakeRatio: the empty accumulator gives no reading. The C code
  divides by zero there too (juksautin.c:169), so this stands in for
  undefined behaviour rather than modelling a value.
- Tz.FindVersion2AsWritten: files the code reads past the end of, or
  before the start of (a skip that wraps to a negative value), are
  outside `Tz.Readable`, and so are files where `skip + 4` overflows the
  `int`. The first kind is a file shorter than byte `skip + 4`, or
  shorter than the header when the first version is 2 or more. Both are
  undefined behaviour with no value to model. A skip that wraps modulo
  2^32 but lands inside the file is modelled (`Tz.WrappedSkip`). The
  missing length check is recorded under Findings.
- Serial.PullCounters: does not state that the rest of the transport is
  unchanged, only that the counters are returned and reset.
- The serial counters are unbounded naturals; their 16-bit wrap-around is
  not modelled.
- Cmd.ModbusTableValid: `cmd.h` does not promise that a marshaller
  reporting OK produced or consumed anything. The model assumes it does
  (`Cmd.ReaderContract`, `Cmd.WriterContract`), because with nothing
  consumed the loops of `read_registers` and `write_registers` never end
  (`Modbus.ZeroProgressStalls`); the marshallers themselves are not part
  of this model.
- The indicator LED: `serial.c` toggles the same pin that
  `misc_get_led` reads. The transport keeps it in its own `led` field,
  and the main loop does not merge it with the device's LED.

## Findings

| source | as written | input that shows it | evidently intended | confidence | as-written member | corrected member |
|---|---|---|---|---|---|---|
| avr/src/serial.c:213 | `end_of_frame` accepts a frame of exactly `SERIAL_RX_LEN` bytes, and `serial_get_message` then writes its NUL at index 80 of an 80-byte buffer | an 80-byte frame | buffers of `SERIAL_RX_LEN + 1` bytes, or a limit of `SERIAL_RX_LEN - 1` | high, not executed | Serial.NulOverrunsAsWritten | Serial.NulFitsWithSpareByte |
| juksutil/src/tz.c:86 | `p[skip + 4]` and the header counts are read with no check against the file's length | a file holding only a version-2 header with no counts set: the code reads byte 48 of a 44-byte mapping | refuse files too short for the header, the block and the second version byte | high, not executed | Tz.TruncatedReadsPast | Tz.FindVersion2Checked |
| juksutil/src/tz.c:80 | each version-1 leap-second record is skipped as 4 bytes, but it is two 4-byte values (section 3.2 of RFC 8536) | a file with one leap second: the walk returns offset 48 instead of 52 | `skip += 8 * tzh_leapcnt` | high, not executed | Tz.MissesSecondHeader | Tz.FindsSecondHeader |
| avr/src/juksautin.c:169 | `(a.sum << 16) / a.count` is returned as `uint16_t`, so a pump that pulled down on every sample reads 65536 truncated to 0 | sum equal to count | saturate at 65535 | high, not executed | Juksautin.FullDutyReadsZero | Juksautin.TakeRatioSaturating |
| avr/src/juksautin.c:92 | the rounding terms are swapped: setting adds `MV_DIV / 2` before dividing by `MV_MULT`, and reading adds `MV_MULT / 2` before dividing by `MV_DIV`, so neither conversion rounds to nearest (the round trip still stays within 1 mV) | setting 7 mV stores raw 6; raw 20 reads back as 22 mV | round to nearest both ways | medium, not executed | Juksautin.SetRoundingAsWrittenIsNotNearest | Juksautin.RawOfMillivolts |
| avr/src/interface_ascii.c:152-153 | after a prefix of 81 bytes or more, `SERIAL_TX_LEN - pos` wraps in the 16-bit `size_t`, and the scanner's message is written past `serial_tx` | a failed SET of a field whose name has 58 or more characters | no tail once the prefix has filled the buffer | low, not executed: it needs such a name in the table | AsciiLegacy.TailOverrunsAsWritten | AsciiLegacy.TailInside |

=== FILE: ascii.dfy ===
/** The text command engine of avr/src/interface/ascii.c. A request line
    is `GET name...`, `SET name=value...` or `HELP`; the reply is built in
    the 80-byte transmit buffer and ends at its first NUL. Errors point a
    caret at the byte offset of the offending token in the request line.

    The transmit buffer is modelled as the whole 80-character array, so
    every store into it is checked to stay inside it. Offsets into the
    request are `buflen_t`; the request itself is shorter than 256 bytes,
    so only the scanner's error offset can wrap. */
module Ascii {
  import opened Base
  import opened Search
  import opened Cmd

  /** The transmit buffer as the engine sees it. */
  predicate IsTx(tx: seq<char>)
  {
    |tx| == SERIAL_TX_LEN
  }

  /** Store `s` into `tx` from index `pos` on. */
  function Put(tx: seq<char>, pos: nat, s: string): (r: seq<char>)
    requires pos + |s| <= |tx|
    ensures |r| == |tx|
    ensures r[..pos] == tx[..pos] && r[pos..pos + |s|] == s && r[pos + |s|..] == tx[pos + |s|..]
  {
    tx[..pos] + s + tx[pos + |s|..]
  }

  /** `strcpy_P(serial_tx, s)`. */
  function PutLine(tx: seq<char>, s: string): (r: seq<char>)
    requires IsTx(tx) && |s| < SERIAL_TX_LEN && '\0' !in s
    ensures IsTx(r)
    ensures CString(r) == s
  {
    var r := Put(tx, 0, s + "\0");
    assert r[..|s|] == s && r[|s|] == '\0';
    CStringAt(r, |s|);
    r
  }

  /** `ascii_strip_line_ending(buf, len)`: false when byte `len-1` is not
      LF; otherwise that LF, and a CR just before it, become NUL. The C
      code reads `buf[len-1]` unconditionally, so `len` is at least 1. */
  function StripLineEnding(buf: string, len: nat): (r: (bool, string))
    requires 1 <= len <= |buf|
    ensures |r.1| == |buf|
    ensures r.0 <==> buf[len - 1] == '\n'
    ensures !r.0 ==> r.1 == buf
    ensures r.0 ==> r.1[len - 1] == '\0'
    ensures r.0 && len >= 2 && buf[len - 2] == '\r' ==> r.1[len - 2] == '\0'
    ensures forall i :: 0 <= i < len - 2 ==> r.1[i] == buf[i]
    ensures forall i :: len <= i < |buf| ==> r.1[i] == buf[i]
    ensures len >= 2 && buf[len - 2] != '\r' ==> r.1[len - 2] == buf[len - 2]
  {
    if buf[len - 1] != '\n' then (false, buf)
    else
      var b := buf[len - 1 := '\0'];
      if len >= 2 && b[len - 2] == '\r' then (true, b[len - 2 := '\0']) else (true, b)
  }

  /** Stripping a line that ends in LF or CRLF leaves exactly the text
      before the line ending as the C string. */
  lemma StripGivesLine(text: string, crlf: bool)
    requires '\0' !in text && '\n' !in text
    requires !crlf && |text| > 0 ==> text[|text| - 1] != '\r'
    ensures var buf := text + (if crlf then "\r\n" else "\n");
      StripLineEnding(buf, |buf|).0 && CString(StripLineEnding(buf, |buf|).1) == text
  {
    var buf := text + (if crlf then "\r\n" else "\n");
    var r := StripLineEnding(buf, |buf|).1;
    forall i | 0 <= i < |text|
      ensures r[i] == text[i]
    {
      assert buf[i] == text[i];
    }
    assert r[..|text|] == text;
    CStringAt(r, |text|);
  }

  /** `serial_pad(n)`: when there is room, `n` spaces, the caret and a
      space, so the caret sits under byte `n` of the request; otherwise
      the column as "At n: ". Returns the buffer and the pad length. */
  function SerialPad(tx: seq<char>, n: nat): (r: (seq<char>, nat))
    requires IsTx(tx) && n < 256
    ensures IsTx(r.0) && r.1 < SERIAL_TX_LEN
    ensures n + 2 < SERIAL_TX_LEN ==> r.1 == n + 2 && r.0[..r.1] == Spaces(n) + "^ "
    ensures n + 2 >= SERIAL_TX_LEN ==> r.0[..r.1] == "At " + Decimal(n) + ": "
  {
    if n + 2 < SERIAL_TX_LEN then
      var s := Spaces(n) + "^ ";
      var t := Put(tx, 0, s);
      assert |s| == n + 2 && t[0..|s|] == s;
      assert t[..n + 2] == t[0..n + 2];
      (t, n + 2)
    else
      var s := "At " + Decimal(n) + ": ";
      DecimalOfByte(n);
      var t := Put(tx, 0, s + "\0");
      assert t[..|s|] == s;
      (t, |s|)
  }

  lemma DecimalOfByte(n: nat)
    requires n < 256
    ensures |Decimal(n)| <= 3
  {
    if n >= 10 {
      assert Digits(n) == Digits(n / 10) + [('0' as int + n % 10) as char];
    }
  }

  /** `strlcpy_P(serial_tx + pad, msg, SERIAL_TX_LEN - pad)` and the
      equivalent `snprintf_P`: as much of the message as fits, then NUL. */
  function PutMsg(tx: seq<char>, pad: nat, msg: string): (r: seq<char>)
    requires IsTx(tx) && pad < SERIAL_TX_LEN
    ensures IsTx(r) && r[..pad] == tx[..pad]
    ensures r[pad..pad + |Take(msg, SERIAL_TX_LEN - 1 - pad)|] == Take(msg, SERIAL_TX_LEN - 1 - pad)
    ensures r[pad + |Take(msg, SERIAL_TX_LEN - 1 - pad)|] == '\0'
  {
    var m := Take(msg, SERIAL_TX_LEN - 1 - pad);
    var r := Put(tx, pad, m + "\0");
    assert r[pad..pad + |m|] == m;
    r
  }

  /** An error message after the pad for request offset `n`. */
  function ErrorAt(tx: seq<char>, n: nat, msg: string): (r: seq<char>)
    requires IsTx(tx) && n < 256
    ensures IsTx(r) && '\0' in r
  {
    var (t, pad) := SerialPad(tx, n);
    var r := PutMsg(t, pad, msg);
    assert r[pad + |Take(msg, SERIAL_TX_LEN - 1 - pad)|] == '\0';
    r
  }

  /** The reply to an error at offset `n` is the caret line followed by
      the message, so the caret sits under byte `n` of the request; a
      message too long for the buffer is cut to fit it. */
  lemma ErrorLine(tx: seq<char>, n: nat, msg: string)
    requires IsTx(tx) && n + 2 < SERIAL_TX_LEN && '\0' !in msg
    ensures CString(ErrorAt(tx, n, msg)) == Spaces(n) + "^ " + Take(msg, SERIAL_TX_LEN - 3 - n)
    ensures CString(ErrorAt(tx, n, msg))[n] == '^'
  {
    var (t, pad) := SerialPad(tx, n);
    var m := Take(msg, SERIAL_TX_LEN - 1 - pad);
    var r := PutMsg(t, pad, msg);
    var rest := r[pad + |m|..];
    assert r == (Spaces(n) + "^ ") + (m + rest) by {
      assert r == r[..pad] + r[pad..pad + |m|] + rest;
    }
    assert '\0' !in Spaces(n) + "^ ";
    CStringAppend(Spaces(n) + "^ ", m + rest);
    CStringAppend(m, rest);
    assert CString(rest) == [];
  }

  const FULL_MSG: string := "Serial buffer too short for this"

  /** `error_full(parse_pos)`: the 32-character message after the pad
      when it fits; otherwise in front of the caret and the space before
      it, which stay as the end of the line. The NUL always lands inside
      the buffer. */
  function ErrorFull(tx: seq<char>, parsePos: nat): (r: seq<char>)
    requires IsTx(tx) && parsePos < 256
    ensures IsTx(r) && '\0' in r
  {
    var (t, pad) := SerialPad(tx, parsePos);
    if pad + |FULL_MSG| < SERIAL_TX_LEN then
      Terminated(t, pad, FULL_MSG, 0)
    else if pad >= 3 + |FULL_MSG| then
      Terminated(t, pad - 3 - |FULL_MSG|, FULL_MSG, 2)
    else
      // A pad of 48 or more is always at least 35.
      assert false; t
  }

  /** `strncpy` of `m` to `p` and a NUL `tail` bytes after it; the bytes
      in between keep what they held. */
  function Terminated(t: seq<char>, p: nat, m: string, tail: nat): (r: seq<char>)
    requires p + |m| + tail < |t|
    ensures |r| == |t| && '\0' in r
    ensures r[..p] == t[..p] && r[p..p + |m|] == m
    ensures r[p + |m|..p + |m| + tail] == t[p + |m|..p + |m| + tail]
    ensures r[p + |m| + tail] == '\0'
  {
    var r := Put(t, p, m)[p + |m| + tail := '\0'];
    assert r[p + |m| + tail] == '\0';
    r
  }

  /** The line `Terminated` leaves when nothing before it is NUL. */
  lemma TerminatedLine(t: seq<char>, p: nat, m: string, tail: nat)
    requires p + |m| + tail < |t| && '\0' !in t[..p] + m + t[p + |m|..p + |m| + tail]
    ensures CString(Terminated(t, p, m, tail)) == t[..p] + m + t[p + |m|..p + |m| + tail]
  {
    var r := Terminated(t, p, m, tail);
    var k := p + |m| + tail;
    assert r[..k] == r[..p] + r[p..p + |m|] + r[p + |m|..k];
    CStringAt(r, k);
  }

  lemma FullMsgFacts()
    ensures |FULL_MSG| == 32 && '\0' !in FULL_MSG
  {
  }

  /** When the pad leaves room the message follows the caret. */
  lemma ErrorFullAfterCaret(tx: seq<char>, parsePos: nat)
    requires IsTx(tx) && parsePos + 2 + |FULL_MSG| < SERIAL_TX_LEN
    ensures CString(ErrorFull(tx, parsePos)) == Spaces(parsePos) + "^ " + FULL_MSG
  {
    var (t, pad) := SerialPad(tx, parsePos);
    FullMsgFacts();
    assert t[pad + |FULL_MSG|..pad + |FULL_MSG|] == [];
    TerminatedLine(t, pad, FULL_MSG, 0);
  }

  /** Otherwise the message moves before the caret and the line still
      ends in " ^", with the caret under the same column. */
  lemma ErrorFullBeforeCaret(tx: seq<char>, parsePos: nat)
    requires IsTx(tx) && parsePos + 2 + |FULL_MSG| >= SERIAL_TX_LEN > parsePos + 2
    ensures CString(ErrorFull(tx, parsePos)) == Spaces(parsePos - 1 - |FULL_MSG|) + FULL_MSG + " ^"
  {
    var (t, pad) := SerialPad(tx, parsePos);
    FullMsgFacts();
    BeforeCaretParts(tx, parsePos);
    var p := pad - 3 - |FULL_MSG|;
    assert '\0' !in t[..p] + FULL_MSG + t[p + |FULL_MSG|..p + |FULL_MSG| + 2];
    TerminatedLine(t, p, FULL_MSG, 2);
    assert ErrorFull(tx, parsePos) == Terminated(t, p, FULL_MSG, 2);
  }

  /** The padded line around the caret: spaces, then " ^" just before
      where the message would have gone. */
  lemma BeforeCaretParts(tx: seq<char>, parsePos: nat)
    requires IsTx(tx) && parsePos + 2 + |FULL_MSG| >= SERIAL_TX_LEN > parsePos + 2
    ensures var (t, pad) := SerialPad(tx, parsePos);
      && pad == parsePos + 2 && pad >= 3 + |FULL_MSG|
      && t[..pad - 3 - |FULL_MSG|] == Spaces(pad - 3 - |FULL_MSG|)
      && t[pad - 3..pad - 1] == " ^"
  {
    var (t, pad) := SerialPad(tx, parsePos);
    var p := pad - 3 - |FULL_MSG|;
    assert t[..p] == t[..pad][..p];
    var line := Spaces(parsePos) + "^ ";
    assert t[pad - 3..pad - 1] == [line[parsePos - 1], line[parsePos]];
  }

  // ---------------------------------------------------------------
  // GET

  const UNKNOWN_FIELD: string := "Unknown field"
  const NOT_READABLE: string := "Not readable"
  const NOT_WRITABLE: string := "Not writable"
  const EXPECTED_EQ: string := "Expected '='"

  /** In a strictly sorted table only one entry matches a name. */
  lemma FoundIsUnique<D(!new)>(t: seq<AsciiEntry<D>>, name: string, i: nat)
    requires AsciiTableValid(t) && i < |t| && CaseEq(t[i].name, name)
    ensures FindAscii(t, name) == Some(i)
  {
    var j := FindAscii(t, name).value;
    NameKeyCaseEq(t[i].name, name);
    NameKeyCaseEq(t[j].name, name);
    if i < j {
      LexIrreflexive(AsciiKeys(t)[i]);
    } else if j < i {
      LexIrreflexive(AsciiKeys(t)[j]);
    }
  }

  /** The room `process_read` gives the printer after `name=` at `out`. */
  function Room(out: nat, name: string): nat
  {
    if out + |name| + 1 < SERIAL_TX_LEN then SERIAL_TX_LEN - (out + |name| + 1) else 0
  }

  /** One field of a GET reply given what its printer did: the name as
      the request spelled it, `=`, and the printer's text, provided the
      printer reports that it left room for one more byte. */
  function Printed(out: nat, name: string, p: PrintOut): (r: Option<string>)
    requires p.wrote < Room(out, name) ==> |p.text| == p.wrote
    ensures r.Some? ==> out + |r.value| + 1 < SERIAL_TX_LEN
  {
    if out + |name| + 1 + p.wrote + 1 >= SERIAL_TX_LEN then None
    else Some(name + "=" + p.text)
  }

  /** One field of a GET reply, if the name is readable and fits. */
  function Field<D(!new)>(t: seq<AsciiEntry<D>>, d: D, out: nat, name: string): (r: Option<string>)
    requires AsciiTableValid(t)
    ensures r.Some? ==> out + |r.value| + 1 < SERIAL_TX_LEN
  {
    match FindAscii(t, name)
    case None => None
    case Some(i) =>
      if t[i].printer.None? || out + |name| + 1 >= SERIAL_TX_LEN then None
      else Printed(out, name, t[i].printer.value(d, Room(out, name)))
  }

  /** The whole GET reply from offset `out`, for any way `text` of
      rendering one field: the fields in request order separated by
      single spaces, or nothing if one of them fails. */
  function Replies(text: (nat, string) -> Option<string>, out: nat, line: string): Option<string>
    decreases |line|
  {
    var (name, rest) := Sep(line, ' ');
    match text(out, name)
    case None => None
    case Some(f) =>
      match rest
      case None => Some(f)
      case Some(more) =>
        match Replies(text, out + |f| + 1, more)
        case None => None
        case Some(s) => Some(f + " " + s)
  }

  /** `Field` of a fixed table and device. */
  function FieldText<D(!new)>(t: seq<AsciiEntry<D>>, d: D): (nat, string) -> Option<string>
    requires AsciiTableValid(t)
  {
    (out: nat, name: string) => Field(t, d, out, name)
  }

  /** The GET reply of a table and device. */
  function Reply<D(!new)>(t: seq<AsciiEntry<D>>, d: D, out: nat, line: string): Option<string>
    requires AsciiTableValid(t)
  {
    Replies(FieldText(t, d), out, line)
  }

  /** Why `process_read` stopped: the offset its error line points at,
      and the buffer as it was when the error was printed over it. */
  datatype ReadFailure = UnknownField | NotReadable | BufferFull
  datatype ReadError = ReadError(kind: ReadFailure, pos: nat, tx: seq<char>)

  datatype Step = Failed(e: ReadError) | Wrote(tx: seq<char>, out: nat)

  /** The error line `process_read` prints for `e`. */
  function ReadErrorLine(e: ReadError): (r: seq<char>)
    requires IsTx(e.tx) && e.pos < 256
    ensures IsTx(r) && '\0' in r
  {
    match e.kind
    case UnknownField => ErrorAt(e.tx, e.pos, UNKNOWN_FIELD)
    case NotReadable => ErrorAt(e.tx, e.pos, NOT_READABLE)
    case BufferFull => ErrorFull(e.tx, e.pos)
  }

  /** The stores of `process_read` once the printer has run: `name=`
      and the printer's text at `out`, or the full-buffer error. */
  function ReadPrinted(tx: seq<char>, out: nat, name: string, p: PrintOut, parsePos: nat): (r: Step)
    requires IsTx(tx) && out + |name| + 1 < SERIAL_TX_LEN
    requires |p.text| <= Room(out, name) && (p.wrote < Room(out, name) ==> |p.text| == p.wrote)
    ensures r.Failed? ==> r.e == ReadError(BufferFull, parsePos, r.e.tx) && IsTx(r.e.tx)
    ensures r.Wrote? <==> Printed(out, name, p).Some?
    ensures r.Wrote? ==> IsTx(r.tx) && r.out == out + |Printed(out, name, p).value|
    ensures r.Wrote? ==> r.tx[..out] == tx[..out] && r.tx[out..r.out] == Printed(out, name, p).value
  {
    // strlcpy's NUL after the name is at once replaced by '='.
    var tx3 := Put(tx, out, name + "=" + p.text);
    if out + |name| + 1 + p.wrote + 1 >= SERIAL_TX_LEN then Failed(ReadError(BufferFull, parsePos, tx3))
    else Wrote(tx3, out + |name| + 1 + p.wrote)
  }

  /** One name of `process_read`: look it up, copy the name and `=`,
      run the printer on the room that is left. */
  function ReadField<D(!new)>(t: seq<AsciiEntry<D>>, d: D, tx: seq<char>, out: nat, name: string, parsePos: nat)
    : (r: Step)
    requires AsciiTableValid(t) && IsTx(tx) && out < SERIAL_TX_LEN
    ensures r.Failed? ==> IsTx(r.e.tx) && r.e.pos == parsePos
    ensures r.Failed? && FindAscii(t, name).None? ==> r.e == ReadError(UnknownField, parsePos, tx)
    ensures r.Wrote? <==> Field(t, d, out, name).Some?
    ensures r.Wrote? ==> IsTx(r.tx) && r.out == out + |Field(t, d, out, name).value|
    ensures r.Wrote? ==> r.tx[..out] == tx[..out] && r.tx[out..r.out] == Field(t, d, out, name).value
  {
    match FindAscii(t, name)
    case None => Failed(ReadError(UnknownField, parsePos, tx))
    case Some(i) =>
      if t[i].printer.None? then Failed(ReadError(NotReadable, parsePos, tx))
      else if out + |name| + 1 >= SERIAL_TX_LEN then
        // strlcpy cut the name short; the buffer is full.
        Failed(ReadError(BufferFull, parsePos, Put(tx, out, Take(name, SERIAL_TX_LEN - out - 1) + "\0")))
      else
        ReadPrinted(tx, out, name, t[i].printer.value(d, Room(out, name)), parsePos)
  }

  /** The outcome of `process_read`: the finished buffer, or the error
      that is printed over the buffer as it then was. */
  datatype ReadResult = ReadDone(tx: seq<char>) | ReadFailed(e: ReadError)

  /** One name of a GET as the loop of `process_read` sees it: given the
      buffer, the output offset, the name and its offset in the request,
      either an error or the buffer with the field stored at `out`. */
  type FieldStep = (seq<char>, nat, string, nat) -> Step

  /** What the loop needs of a step to stay inside the buffer. */
  ghost predicate StepShape(step: FieldStep)
  {
    forall tx: seq<char>, out: nat, name: string, pos: nat :: IsTx(tx) && out < SERIAL_TX_LEN ==>
      && (step(tx, out, name, pos).Failed? ==>
            IsTx(step(tx, out, name, pos).e.tx) && step(tx, out, name, pos).e.pos == pos)
      && (step(tx, out, name, pos).Wrote? ==>
            IsTx(step(tx, out, name, pos).tx) && step(tx, out, name, pos).out + 1 < SERIAL_TX_LEN)
  }

  /** A step stores exactly the text `text` renders, after keeping the
      buffer before `out`, and fails exactly when `text` has nothing. */
  ghost predicate StepWrites(step: FieldStep, text: (nat, string) -> Option<string>)
  {
    forall tx: seq<char>, out: nat, name: string, pos: nat :: IsTx(tx) && out < SERIAL_TX_LEN ==>
      && (step(tx, out, name, pos).Wrote? <==> text(out, name).Some?)
      && (step(tx, out, name, pos).Wrote? ==>
            && step(tx, out, name, pos).out == out + |text(out, name).value|
            && step(tx, out, name, pos).out <= |step(tx, out, name, pos).tx|
            && step(tx, out, name, pos).tx[..out] == tx[..out]
            && step(tx, out, name, pos).tx[out..step(tx, out, name, pos).out] == text(out, name).value)
  }

  /** A rendered field holds no NUL unless its name does. */
  ghost predicate TextNulFree(text: (nat, string) -> Option<string>)
  {
    forall out: nat, name: string :: '\0' !in name && text(out, name).Some? ==> '\0' !in text(out, name).value
  }

  /** The loop of `process_read(buf, serial_out, parse_pos)`: the names
      of `line` one by one, each stored at `out` by `step`, separated by
      spaces and ended by NUL; the first name that fails stops it. */
  function ReadLoop(step: FieldStep, tx: seq<char>, out: nat, line: string, parsePos: nat): (r: ReadResult)
    requires StepShape(step) && IsTx(tx) && out < SERIAL_TX_LEN && parsePos + |line| < 256
    ensures r.ReadDone? ==> IsTx(r.tx) && '\0' in r.tx
    ensures r.ReadFailed? ==> IsTx(r.e.tx) && parsePos <= r.e.pos < 256
    decreases |line|
  {
    var (name, rest) := Sep(line, ' ');
    match step(tx, out, name, parsePos)
    case Failed(e) => ReadFailed(e)
    case Wrote(tx1, o) =>
      match rest
      case None =>
        assert tx1[o := '\0'][o] == '\0';
        ReadDone(tx1[o := '\0'])
      case Some(more) => ReadLoop(step, tx1[o := ' '], o + 1, more, parsePos + |name| + 1)
  }

  /** The last field ends the reply with NUL. */
  lemma ReadTail(tx: seq<char>, out: nat, o: nat)
    requires out <= o < |tx| && '\0' !in tx[out..o]
    ensures tx[o := '\0'][..out] == tx[..out]
    ensures CString(tx[o := '\0'][out..]) == tx[out..o]
  {
    var r := tx[o := '\0'];
    assert r[out..][..o - out] == tx[out..o];
    CStringAt(r[out..], o - out);
  }

  /** A field followed by a space and the rest of the reply. */
  lemma ReadJoin(tx: seq<char>, r: seq<char>, out: nat, o: nat, s: string)
    requires out <= o < |tx| == |r| && '\0' !in tx[out..o]
    requires r[..o + 1] == tx[o := ' '][..o + 1] && CString(r[o + 1..]) == s
    ensures r[..out] == tx[..out]
    ensures CString(r[out..]) == tx[out..o] + " " + s
  {
    assert r[..out] == r[..o + 1][..out];
    assert r[out..] == (tx[out..o] + " ") + r[o + 1..];
    CStringAppend(tx[out..o] + " ", r[o + 1..]);
  }

  /** What GET promises about the loop: success exactly when `Replies`
      exists, and then the reply at `out` is `Replies`, with the output
      before `out` kept. */
  ghost predicate LoopMeetsReplies(step: FieldStep, text: (nat, string) -> Option<string>,
                                   tx: seq<char>, out: nat, line: string, parsePos: nat)
    requires StepShape(step) && IsTx(tx) && out < SERIAL_TX_LEN && parsePos + |line| < 256
  {
    var r := ReadLoop(step, tx, out, line, parsePos);
    && (r.ReadDone? <==> Replies(text, out, line).Some?)
    && (r.ReadDone? ==> r.tx[..out] == tx[..out] && CString(r.tx[out..]) == Replies(text, out, line).value)
  }

  lemma {:induction false} LoopReply(step: FieldStep, text: (nat, string) -> Option<string>,
                                     tx: seq<char>, out: nat, line: string, parsePos: nat)
    requires StepShape(step) && StepWrites(step, text) && TextNulFree(text)
    requires IsTx(tx) && out < SERIAL_TX_LEN && parsePos + |line| < 256 && '\0' !in line
    ensures LoopMeetsReplies(step, text, tx, out, line, parsePos)
    decreases |line|
  {
    var name := Sep(line, ' ').0;
    var rest := Sep(line, ' ').1;
    var s := step(tx, out, name, parsePos);
    if s.Failed? {
      LoopFails(step, text, tx, out, line, parsePos);
    } else if rest.None? {
      LoopLast(step, text, tx, out, line, parsePos);
    } else {
      var more := rest.value;
      SepParts(line, ' ');
      assert '\0' !in more by {
        assert more == line[|name| + 1..];
      }
      LoopReply(step, text, s.tx[s.out := ' '], s.out + 1, more, parsePos + |name| + 1);
      LoopMore(step, text, tx, out, line, parsePos, name, more, s);
    }
  }

  lemma LoopFails(step: FieldStep, text: (nat, string) -> Option<string>,
                  tx: seq<char>, out: nat, line: string, parsePos: nat)
    requires StepShape(step) && StepWrites(step, text)
    requires IsTx(tx) && out < SERIAL_TX_LEN && parsePos + |line| < 256
    requires step(tx, out, Sep(line, ' ').0, parsePos).Failed?
    ensures LoopMeetsReplies(step, text, tx, out, line, parsePos)
  {
  }

  lemma LoopLast(step: FieldStep, text: (nat, string) -> Option<string>,
                 tx: seq<char>, out: nat, line: string, parsePos: nat)
    requires StepShape(step) && StepWrites(step, text) && TextNulFree(text)
    requires IsTx(tx) && out < SERIAL_TX_LEN && parsePos + |line| < 256 && '\0' !in line
    requires step(tx, out, Sep(line, ' ').0, parsePos).Wrote? && Sep(line, ' ').1.None?
    ensures LoopMeetsReplies(step, text, tx, out, line, parsePos)
  {
    var s := step(tx, out, line, parsePos);
    ReadTail(s.tx, out, s.out);
  }

  lemma LoopMore(step: FieldStep, text: (nat, string) -> Option<string>,
                 tx: seq<char>, out: nat, line: string, parsePos: nat, name: string, more: string, s: Step)
    requires StepShape(step) && StepWrites(step, text) && TextNulFree(text)
    requires IsTx(tx) && out < SERIAL_TX_LEN && parsePos + |line| < 256 && '\0' !in name
    requires Sep(line, ' ') == (name, Some(more))
    requires s == step(tx, out, name, parsePos) && s.Wrote?
    requires LoopMeetsReplies(step, text, s.tx[s.out := ' '], s.out + 1, more, parsePos + |name| + 1)
    ensures LoopMeetsReplies(step, text, tx, out, line, parsePos)
  {
    var r := ReadLoop(step, s.tx[s.out := ' '], s.out + 1, more, parsePos + |name| + 1);
    if r.ReadDone? {
      ReadJoin(s.tx, r.tx, out, s.out, Replies(text, s.out + 1, more).value);
    }
  }

  /** `ReadField` of a fixed table and device, as a step of the loop. */
  function ReadStep<D(!new)>(t: seq<AsciiEntry<D>>, d: D): FieldStep
    requires AsciiTableValid(t)
  {
    (tx: seq<char>, out: nat, name: string, pos: nat) =>
      if IsTx(tx) && out < SERIAL_TX_LEN then ReadField(t, d, tx, out, name, pos)
      else Failed(ReadError(UnknownField, pos, tx))
  }

  /** `ReadField` keeps to what the loop needs of a step. */
  lemma ReadStepFits<D(!new)>(t: seq<AsciiEntry<D>>, d: D)
    requires AsciiTableValid(t)
    ensures StepShape(ReadStep(t, d))
    ensures StepWrites(ReadStep(t, d), FieldText(t, d))
    ensures TextNulFree(FieldText(t, d))
  {
    forall out: nat, name: string | '\0' !in name && Field(t, d, out, name).Some?
      ensures '\0' !in Field(t, d, out, name).value
    {
      var i := FindAscii(t, name).value;
      assert Field(t, d, out, name).value == name + "=" + t[i].printer.value(d, Room(out, name)).text;
    }
  }

  /** `process_read(buf, serial_out, parse_pos)` on a table and device. */
  function ProcessRead<D(!new)>(t: seq<AsciiEntry<D>>, d: D, tx: seq<char>, out: nat, line: string, parsePos: nat)
    : (r: ReadResult)
    requires AsciiTableValid(t) && IsTx(tx) && out < SERIAL_TX_LEN && parsePos + |line| < 256
    ensures r.ReadDone? ==> IsTx(r.tx) && '\0' in r.tx
    ensures r.ReadFailed? ==> IsTx(r.e.tx) && parsePos <= r.e.pos < 256
  {
    ReadStepFits(t, d);
    ReadLoop(ReadStep(t, d), tx, out, line, parsePos)
  }

  /** GET succeeds exactly when every field is readable and fits, and then
      the reply at `out` is the fields in request order, space-separated,
      with the output before `out` kept. */
  lemma ReadReply<D(!new)>(t: seq<AsciiEntry<D>>, d: D, tx: seq<char>, out: nat, line: string, parsePos: nat)
    requires AsciiTableValid(t) && IsTx(tx) && out < SERIAL_TX_LEN && parsePos + |line| < 256
    requires '\0' !in line
    ensures ProcessRead(t, d, tx, out, line, parsePos).ReadDone? <==> Reply(t, d, out, line).Some?
    ensures ProcessRead(t, d, tx, out, line, parsePos).ReadDone? ==>
      && ProcessRead(t, d, tx, out, line, parsePos).tx[..out] == tx[..out]
      && CString(ProcessRead(t, d, tx, out, line, parsePos).tx[out..]) == Reply(t, d, out, line).value
  {
    ReadStepFits(t, d);
    LoopReply(ReadStep(t, d), FieldText(t, d), tx, out, line, parsePos);
  }

  /** An unknown name is answered with the error line under it, whatever
      came before it. */
  lemma ReadUnknown<D(!new)>(t: seq<AsciiEntry<D>>, d: D, tx: seq<char>, out: nat, line: string, parsePos: nat)
    requires AsciiTableValid(t) && IsTx(tx) && out < SERIAL_TX_LEN && parsePos + |line| < 256
    requires FindAscii(t, Sep(line, ' ').0).None?
    ensures ProcessRead(t, d, tx, out, line, parsePos) == ReadFailed(ReadError(UnknownField, parsePos, tx))
  {
  }

  // ---------------------------------------------------------------
  // SET

  /** The outcome of `process_write`: the state it leaves, and on failure
      the offset and text of the error line. */
  datatype WriteResult<D> = Written(state: D) | WriteFailed(state: D, pos: nat, msg: string)

  /** One pair of `process_write`: stop with a result, or go on with
      the rest of the line from its offset. */
  datatype WriteStep<D> = Stop(result: WriteResult<D>) | Continue(state: D, next: string, pos: nat)

  /** The first `name=value` pair of `line`: look the name up, scan the
      value through the entry's scanner into the state. */
  function WritePair<D(!new)>(t: seq<AsciiEntry<D>>, d: D, line: string, parsePos: nat): (r: WriteStep<D>)
    requires AsciiTableValid(t) && parsePos + |line| < 256
    ensures r.Stop? && r.result.WriteFailed? ==> r.result.pos < 256
    ensures r.Continue? ==> r.pos + |r.next| <= parsePos + |line| && |r.next| < |line|
  {
    var (name, rest) := Sep(line, '=');
    match FindAscii(t, name)
    case None => Stop(WriteFailed(d, parsePos, UNKNOWN_FIELD))
    case Some(i) =>
      if t[i].scanner.None? then Stop(WriteFailed(d, parsePos, NOT_WRITABLE))
      else match rest
        case None => Stop(WriteFailed(d, parsePos + |name|, EXPECTED_EQ))
        case Some(after) =>
          var (value, more) := Sep(after, ' ');
          var valPos := parsePos + |name| + 1;
          var (res, d1) := t[i].scanner.value(d, value);
          if !res.Success() then
            Stop(WriteFailed(d1, Buflen(valPos + res.errorPos), Format(res.errorMsg.value, res.arg)))
          else match more
            case None => Stop(Written(d1))
            case Some(next) => Continue(d1, next, valPos + |value| + 1)
  }

  /** `process_write(buf, parse_pos)`: `name=value` pairs one by one,
      each through its scanner into the device state. The first failure
      stops it, with the writes before it already done. */
  function ProcessWrite<D(!new)>(t: seq<AsciiEntry<D>>, d: D, line: string, parsePos: nat): (r: WriteResult<D>)
    requires AsciiTableValid(t) && parsePos + |line| < 256
    ensures r.WriteFailed? ==> r.pos < 256
    decreases |line|
  {
    match WritePair(t, d, line, parsePos)
    case Stop(r) => r
    case Continue(d1, next, pos) => ProcessWrite(t, d1, next, pos)
  }

  /** A single pair: the outcome is the scanner's; a scanner error is
      reported at the value's offset plus the scanner's error offset, with
      the scanner's message. */
  lemma WriteOnePair<D(!new)>(t: seq<AsciiEntry<D>>, d: D, name: string, value: string, parsePos: nat, i: nat)
    requires AsciiTableValid(t) && parsePos + |name| + 1 + |value| < 256
    requires '=' !in name && ' ' !in value
    requires i < |t| && CaseEq(t[i].name, name) && t[i].scanner.Some?
    ensures var r := ProcessWrite(t, d, name + "=" + value, parsePos);
      var s := t[i].scanner.value(d, value);
      && (r.Written? <==> s.0.Success())
      && r.state == s.1
      && (!s.0.Success() ==> r.pos == Buflen(parsePos + |name| + 1 + s.0.errorPos)
                             && r.msg == Format(s.0.errorMsg.value, s.0.arg))
  {
    SepSome(name, '=', value);
    SepNone(value, ' ');
    FoundIsUnique(t, name, i);
  }

  /** Later pairs run on the state the earlier ones left: once the
      first pair is written, what follows is processed from that state
      (`WriteContinues`), so a failure further on does not undo it. */
  lemma FirstPairAccepted<D(!new)>(t: seq<AsciiEntry<D>>, d: D, name: string, value: string, more: string,
                                   parsePos: nat, i: nat)
    requires AsciiTableValid(t) && parsePos + |name| + |value| + 2 + |more| < 256
    requires '=' !in name && ' ' !in value
    requires i < |t| && CaseEq(t[i].name, name) && t[i].scanner.Some?
    requires t[i].scanner.value(d, value).0.Success()
    ensures WritePair(t, d, name + "=" + value + " " + more, parsePos)
         == Continue(t[i].scanner.value(d, value).1, more, parsePos + |name| + |value| + 2)
  {
    assert name + "=" + value + " " + more == name + ['='] + (value + [' '] + more);
    SepSome(name, '=', value + [' '] + more);
    SepSome(value, ' ', more);
    FoundIsUnique(t, name, i);
  }

  /** `process_write` goes on from where its first pair left it. */
  lemma WriteContinues<D(!new)>(t: seq<AsciiEntry<D>>, d: D, line: string, parsePos: nat, d1: D, more: string, pos: nat)
    requires AsciiTableValid(t) && parsePos + |line| < 256
    requires WritePair(t, d, line, parsePos) == Continue(d1, more, pos)
    ensures ProcessWrite(t, d, line, parsePos) == ProcessWrite(t, d1, more, pos)
  {
  }

  /** A pair without `=` is refused right after the name. */
  lemma WriteWithoutValue<D(!new)>(t: seq<AsciiEntry<D>>, d: D, name: string, parsePos: nat, i: nat)
    requires AsciiTableValid(t) && parsePos + |name| < 256 && '=' !in name
    requires i < |t| && CaseEq(t[i].name, name) && t[i].scanner.Some?
    ensures ProcessWrite(t, d, name, parsePos) == WriteFailed(d, parsePos + |name|, EXPECTED_EQ)
  {
    SepNone(name, '=');
    FoundIsUnique(t, name, i);
  }

  // ---------------------------------------------------------------
  // Dispatch

  /** What `ascii_interface` leaves behind: a finished reply, or the
      help listing, which writes its own lines. */
  datatype AsciiReply<D> = Done(ok: bool, tx: seq<char>, state: D) | Help(state: D)

  const EXPECTING_ARGS: string := "   ^ Expecting arguments"
  const NO_ARGS: string := "    ^ No arguments expected"
  const EXPECTING_OP: string := "^ Expecting 'GET', 'SET', or 'HELP'"
  const OK: string := "OK"

  /** The operation words, compared without regard to case. */
  lemma OperationWords(op: string)
    ensures CaseEq(op, "get") <==> LowerStr(op) == "get"
    ensures CaseEq(op, "set") <==> LowerStr(op) == "set"
    ensures CaseEq(op, "help") <==> LowerStr(op) == "help"
  {
    assert LowerStr("get") == "get";
    assert LowerStr("set") == "set";
    assert LowerStr("help") == "help";
  }

  lemma HelpHasNoSpace(line: string)
    ensures CaseEq(line, "help") ==> Sep(line, ' ').1.None?
  {
    OperationWords(line);
    if CaseEq(line, "help") {
      assert forall k :: 0 <= k < |line| ==> Lower(line[k]) == "help"[k];
    }
  }

  /** The GET reply buffer. */
  function GetBuffer(r: ReadResult): (tx: seq<char>)
    requires r.ReadDone? ==> IsTx(r.tx) && '\0' in r.tx
    requires r.ReadFailed? ==> IsTx(r.e.tx) && r.e.pos < 256
    ensures IsTx(tx) && '\0' in tx
  {
    match r
    case ReadDone(tx) => tx
    case ReadFailed(e) => ReadErrorLine(e)
  }

  /** The SET reply buffer: "OK", or the error line over it. */
  function SetBuffer<D>(tx: seq<char>, w: WriteResult<D>): (r: seq<char>)
    requires IsTx(tx) && (w.WriteFailed? ==> w.pos < 256)
    ensures IsTx(r) && '\0' in r
  {
    var ok := PutLine(tx, OK);
    assert ok[2] == '\0' by {
      assert ok[..2] == OK;
    }
    match w
    case Written(_) => ok
    case WriteFailed(_, pos, msg) => ErrorAt(ok, pos, msg)
  }

  /** `GET`: the names after it, from offset `argPos` of the request. */
  function GetCommand<D(!new)>(t: seq<AsciiEntry<D>>, d: D, tx: seq<char>, args: Option<string>, argPos: nat)
    : (r: AsciiReply<D>)
    requires AsciiTableValid(t) && IsTx(tx) && (args.Some? ==> argPos + |args.value| < 256)
    ensures r.Done? && IsTx(r.tx) && '\0' in r.tx && r.state == d
  {
    match args
    case None => Done(false, PutLine(tx, EXPECTING_ARGS), d)
    case Some(names) =>
      var r := ProcessRead(t, d, tx, 0, names, argPos);
      Done(r.ReadDone?, GetBuffer(r), d)
  }

  /** `SET`: "OK" is in the buffer before the pairs are processed. */
  function SetCommand<D(!new)>(t: seq<AsciiEntry<D>>, d: D, tx: seq<char>, args: Option<string>, argPos: nat)
    : (r: AsciiReply<D>)
    requires AsciiTableValid(t) && IsTx(tx) && (args.Some? ==> argPos + |args.value| < 256)
    ensures r.Done? && IsTx(r.tx) && '\0' in r.tx
    ensures args.None? ==> r.state == d
  {
    match args
    case None => Done(false, PutLine(tx, EXPECTING_ARGS), d)
    case Some(pairs) =>
      var w := ProcessWrite(t, d, pairs, argPos);
      Done(w.Written?, SetBuffer(tx, w), w.state)
  }

  /** `HELP`, which takes no arguments. */
  function HelpCommand<D>(d: D, tx: seq<char>, args: Option<string>): (r: AsciiReply<D>)
    requires IsTx(tx)
    ensures r.Help? <==> args.None?
    ensures r.Done? ==> IsTx(r.tx) && '\0' in r.tx && r.state == d
  {
    if args.Some? then Done(false, PutLine(tx, NO_ARGS), d) else Help(d)
  }

  /** `ascii_interface(buf)` on the NUL-terminated request `line`: the
      first space-separated word picks the operation, case-insensitively. */
  function AsciiInterface<D(!new)>(t: seq<AsciiEntry<D>>, d: D, tx: seq<char>, line: string): (r: AsciiReply<D>)
    requires AsciiTableValid(t) && IsTx(tx) && |line| < 256
    ensures r.Done? ==> IsTx(r.tx) && '\0' in r.tx
    ensures r.Help? <==> CaseEq(line, "help")
  {
    var (op, rest) := Sep(line, ' ');
    OperationWords(op);
    HelpHasNoSpace(line);
    if CaseEq(op, "get") then GetCommand(t, d, tx, rest, |op| + 1)
    else if CaseEq(op, "set") then SetCommand(t, d, tx, rest, |op| + 1)
    else if CaseEq(op, "help") then HelpCommand(d, tx, rest)
    else Done(false, PutLine(tx, EXPECTING_OP), d)
  }

  /** `GET` followed by names: the reply is the fields joined by spaces
      when all of them fit, and the state is untouched. */
  lemma GetReply<D(!new)>(t: seq<AsciiEntry<D>>, d: D, tx: seq<char>, op: string, args: string)
    requires AsciiTableValid(t) && IsTx(tx) && |op| + 1 + |args| < 256
    requires CaseEq(op, "get") && ' ' !in op && '\0' !in args
    ensures var r := AsciiInterface(t, d, tx, op + " " + args);
      && r.Done? && r.state == d
      && (r.ok <==> Reply(t, d, 0, args).Some?)
      && (r.ok ==> CString(r.tx) == Reply(t, d, 0, args).value)
  {
    SepSome(op, ' ', args);
    OperationWords(op);
    ReadReply(t, d, tx, 0, args, |op| + 1);
  }

  /** `SET` followed by pairs answers "OK" exactly when every pair was
      written, and otherwise the error line under the offending byte. */
  lemma SetReply<D(!new)>(t: seq<AsciiEntry<D>>, d: D, tx: seq<char>, op: string, args: string)
    requires AsciiTableValid(t) && IsTx(tx) && |op| + 1 + |args| < 256
    requires CaseEq(op, "set") && ' ' !in op
    ensures var r := AsciiInterface(t, d, tx, op + " " + args);
      var w := ProcessWrite(t, d, args, |op| + 1);
      && r.Done? && r.state == w.state
      && (r.ok <==> w.Written?)
      && (r.ok ==> CString(r.tx) == OK)
      && (!r.ok ==> r.tx == ErrorAt(PutLine(tx, OK), w.pos, w.msg))
  {
    SetDispatch(t, d, tx, op, args);
    SetAnswers(t, d, tx, args, |op| + 1);
  }

  lemma SetDispatch<D(!new)>(t: seq<AsciiEntry<D>>, d: D, tx: seq<char>, op: string, args: string)
    requires AsciiTableValid(t) && IsTx(tx) && |op| + 1 + |args| < 256
    requires CaseEq(op, "set") && ' ' !in op
    ensures AsciiInterface(t, d, tx, op + " " + args) == SetCommand(t, d, tx, Some(args), |op| + 1)
  {
    SepSome(op, ' ', args);
    OperationWords(op);
  }

  lemma SetAnswers<D(!new)>(t: seq<AsciiEntry<D>>, d: D, tx: seq<char>, args: string, argPos: nat)
    requires AsciiTableValid(t) && IsTx(tx) && argPos + |args| < 256
    ensures var r := SetCommand(t, d, tx, Some(args), argPos);
      var w := ProcessWrite(t, d, args, argPos);
      && r.Done? && r.state == w.state
      && (r.ok <==> w.Written?)
      && (r.ok ==> CString(r.tx) == OK)
      && (!r.ok ==> r.tx == ErrorAt(PutLine(tx, OK), w.pos, w.msg))
  {
  }

  /** A bare `GET` or `SET`, and an unknown operation, are refused with
      the fixed messages. */
  lemma DispatchErrors<D(!new)>(t: seq<AsciiEntry<D>>, d: D, tx: seq<char>, line: string)
    requires AsciiTableValid(t) && IsTx(tx) && |line| < 256 && ' ' !in line
    ensures (CaseEq(line, "get") || CaseEq(line, "set"))
      ==> AsciiInterface(t, d, tx, line) == Done(false, PutLine(tx, EXPECTING_ARGS), d)
    ensures !CaseEq(line, "get") && !CaseEq(line, "set") && !CaseEq(line, "help")
      ==> AsciiInterface(t, d, tx, line) == Done(false, PutLine(tx, EXPECTING_OP), d)
  {
    SepNone(line, ' ');
  }

  /** `HELP` with anything after it is refused. */
  lemma HelpTakesNoArguments<D(!new)>(t: seq<AsciiEntry<D>>, d: D, tx: seq<char>, op: string, args: string)
    requires AsciiTableValid(t) && IsTx(tx) && |op| + 1 + |args| < 256
    requires CaseEq(op, "help") && ' ' !in op
    ensures AsciiInterface(t, d, tx, op + " " + args) == Done(false, PutLine(tx, NO_ARGS), d)
  {
    SepSome(op, ' ', args);
    OperationWords(op);
  }
}

=== FILE: ascii_legacy.dfy ===
/** The first generation of the text command engine, avr/src/interface_ascii.c.

    It answers `GET name ...` and `SET name=value ...` lines. Its errors
    are whole lines printed from the start of `serial_tx` with the
    field's name in quotes (no caret), so the model tracks the C string
    left in `serial_tx` rather than every byte of the buffer.

    Its registry entries (avr/src/cmd.h) differ from the newer ones: a
    binary reader first stores the raw value where the text goes, and the
    printer rewrites it as text; a scanner is handed the entry's binary
    writer and reports failure through the globals `cmd_parse_error`
    (a message template) and `cmd_parse_error_arg`. */
module AsciiLegacy {
  import opened Base
  import opened Search
  import opened Cmd
  import Ascii

  /** What a binary reader reports (a `buflen_t`) and the raw bytes it
      stored. */
  datatype Raw = Raw(wrote: nat, data: seq<char>)

  /** `cmd_write_t`: consumes raw input and changes the device. */
  type Writer<!D> = (D, seq<char>) -> (nat, D)

  /** What a scanner leaves: its verdict, the template it put in
      `cmd_parse_error` (none if it left the preset), the value it put
      in `cmd_parse_error_arg` (none if it left it), and the device as
      the writer left it. */
  datatype Scan<!D> = Scan(ok: bool, error: Option<string>, arg: Option<nat>, state: D)

  /** One `cmd_ascii_t` entry. The printer is given the raw bytes the
      reader stored (nothing when the entry has no reader). */
  datatype LegacyEntry<!D> = LegacyEntry(
    name: string,
    reader: Option<(D, nat) -> Raw>,
    writer: Option<Writer<D>>,
    printer: Option<(D, seq<char>, nat) -> PrintOut>,
    scanner: Option<(D, string, Option<Writer<D>>) -> Scan<D>>)

  /** A reader reports a `buflen_t` and stores at most `count` bytes. */
  ghost predicate RawReaderContract<D(!new)>(r: (D, nat) -> Raw)
  {
    forall d, count :: r(d, count).wrote < 256 && |r(d, count).data| <= count
  }

  /** A printer keeps the contract of the newer printers whatever raw
      bytes it is given. */
  ghost predicate RawPrinterContract<D(!new)>(p: (D, seq<char>, nat) -> PrintOut)
  {
    forall d, raw, count :: p(d, raw, count).wrote < 256 && |p(d, raw, count).text| <= count
      && '\0' !in p(d, raw, count).text
      && (p(d, raw, count).wrote < count ==> |p(d, raw, count).text| == p(d, raw, count).wrote)
  }

  /** Templates live in program memory as C strings. */
  ghost predicate ScanTemplateContract<D(!new)>(s: (D, string, Option<Writer<D>>) -> Scan<D>)
  {
    forall d, v, w :: s(d, v, w).error.Some? ==> '\0' !in s(d, v, w).error.value
  }

  /** `cmd_ascii` sorted by `strcasecmp`, and its functions keeping their
      contracts. */
  ghost predicate LegacyTableValid<D(!new)>(t: seq<LegacyEntry<D>>)
  {
    && StrictlySorted(AsciiKeys(Modern(t)))
    && (forall i :: 0 <= i < |t| && t[i].reader.Some? ==> RawReaderContract(t[i].reader.value))
    && (forall i :: 0 <= i < |t| && t[i].printer.Some? ==> RawPrinterContract(t[i].printer.value))
    && (forall i :: 0 <= i < |t| && t[i].scanner.Some? ==> ScanTemplateContract(t[i].scanner.value))
  }

  /** `find_cmd`: binary search with `strcasecmp`. */
  function FindLegacy<D(!new)>(t: seq<LegacyEntry<D>>, name: string): (r: Option<nat>)
    requires LegacyTableValid(t)
    ensures r.Some? ==> r.value < |t| && CaseEq(t[r.value].name, name)
    ensures r.None? <==> forall i :: 0 <= i < |t| ==> !CaseEq(t[i].name, name)
  {
    var r := Find(AsciiKeys(Modern(t)), NameKey(name));
    if r.Some? then
      NameKeyCaseEq(t[r.value].name, name);
      r
    else
      assert forall i :: 0 <= i < |t| ==> !CaseEq(t[i].name, name) by {
        forall i | 0 <= i < |t| ensures !CaseEq(t[i].name, name) {
          assert AsciiKeys(Modern(t))[i] != NameKey(name);
          NameKeyCaseEq(t[i].name, name);
        }
      }
      r
  }

  // ---------------------------------------------------------------
  // Messages

  const NOT_TERMINATED: string := "Message not terminated by newline"
  const EXPECTING_GET_SET: string := "^ Expecting 'GET' or 'SET'"
  const UNKNOWN_ERROR: string := "Unknown error"

  function Quoted(name: string): string
  {
    "\"" + name + "\""
  }

  function UnknownMsg(name: string): string { "Unknown field: " + Quoted(name) }
  function NotReadableMsg(name: string): string { "Field " + Quoted(name) + " is not readable" }
  function ReadableViaModbusMsg(name: string): string { "Field " + Quoted(name) + " is readable via Modbus only!" }
  function TooShortMsg(name: string): string { "Serial buffer too short for " + Quoted(name) }
  function NotWritableMsg(name: string): string { "Field " + Quoted(name) + " is not writable" }
  function WritableViaModbusMsg(name: string): string { "Field " + Quoted(name) + " is writable via Modbus only!" }
  function ValueNotSetMsg(name: string): string { "Field " + Quoted(name) + " value not set" }
  function WriteFailedPrefix(name: string): string { "Field " + Quoted(name) + " write failed: " }

  /** What the engine leaves: its return value, the C string in
      `serial_tx`, the device and `cmd_parse_error_arg`. */
  datatype Outcome<D> = Outcome(ok: bool, line: string, state: D, arg: nat)

  /** An error printed with `snprintf(serial_tx, SERIAL_TX_LEN, ...)`:
      the message cut to what fits before the NUL. */
  function Refusal<D>(msg: string, d: D, arg: nat): (r: Outcome<D>)
    ensures !r.ok && r.state == d && r.arg == arg
    ensures |r.line| < SERIAL_TX_LEN && r.line <= msg
    ensures |msg| < SERIAL_TX_LEN ==> r.line == msg
  {
    Outcome(false, Take(msg, SERIAL_TX_LEN - 1), d, arg)
  }

  // ---------------------------------------------------------------
  // GET

  /** One name of a GET: the stored text, or the error that replaces
      the whole line. */
  datatype FieldOut = Fits(text: string) | Refused(msg: string)

  /** A GET reply, or the message of the first name that failed. */
  datatype GetOut = Got(reply: string) | GetFailed(msg: string)

  /** The stores of one name at offset `out`: the name copied with
      `strlcpy`, `=`, the raw value from the reader (if any), and the
      printer's text over it; each step checks that one more byte fits. */
  function ReadName<D(!new)>(t: seq<LegacyEntry<D>>, d: D, out: nat, name: string): (r: FieldOut)
    requires LegacyTableValid(t)
    ensures r.Fits? ==> out + |r.text| + 1 < SERIAL_TX_LEN
  {
    match FindLegacy(t, name)
    case None => Refused(UnknownMsg(name))
    case Some(i) =>
      var e := t[i];
      if e.printer.None? then
        Refused(if e.reader.None? then NotReadableMsg(name) else ReadableViaModbusMsg(name))
      else if out + |name| + 1 >= SERIAL_TX_LEN then Refused(TooShortMsg(name))
      else
        var room := SERIAL_TX_LEN - (out + |name| + 1);
        if e.reader.Some? && e.reader.value(d, room).wrote > room then Refused(TooShortMsg(name))
        else
          var raw := if e.reader.Some? then e.reader.value(d, room).data else [];
          var p := e.printer.value(d, raw, room);
          if out + |name| + 1 + p.wrote + 1 >= SERIAL_TX_LEN then Refused(TooShortMsg(name))
          else Fits(name + "=" + p.text)
  }

  /** Every text a field step stores leaves room for the byte after it. */
  ghost predicate FieldsFit(field: (nat, string) -> FieldOut)
  {
    forall out: nat, name: string :: field(out, name).Fits? ==> out + |field(out, name).text| + 1 < SERIAL_TX_LEN
  }

  /** The recursion of `process_read(buf, serial_out)` for any field
      step: names in request order, joined by spaces, up to the first
      that fails. */
  function Fields(field: (nat, string) -> FieldOut, out: nat, line: string): (r: GetOut)
    requires FieldsFit(field)
    ensures r.Got? ==> out + |r.reply| + 1 < SERIAL_TX_LEN
    decreases |line|
  {
    var (name, rest) := Sep(line, ' ');
    match field(out, name)
    case Refused(m) => GetFailed(m)
    case Fits(f) =>
      match rest
      case None => Got(f)
      case Some(more) =>
        match Fields(field, out + |f| + 1, more)
        case GetFailed(m) => GetFailed(m)
        case Got(s) => Got(f + " " + s)
  }

  function NameText<D(!new)>(t: seq<LegacyEntry<D>>, d: D): (nat, string) -> FieldOut
    requires LegacyTableValid(t)
  {
    (out: nat, name: string) => ReadName(t, d, out, name)
  }

  /** `process_read(buf, serial_tx + out)` on a table and device. */
  function LegacyRead<D(!new)>(t: seq<LegacyEntry<D>>, d: D, out: nat, line: string): (r: GetOut)
    requires LegacyTableValid(t)
    ensures r.Got? ==> out + |r.reply| + 1 < SERIAL_TX_LEN
  {
    Fields(NameText(t, d), out, line)
  }

  // ---------------------------------------------------------------
  // The newer registry as a reference

  /** A legacy reader and printer seen as one newer printer: the raw
      value is fetched first, and a reader that overran its room is
      reported as a printer that overran it. */
  function ModernPrinter<D>(reader: Option<(D, nat) -> Raw>, printer: (D, seq<char>, nat) -> PrintOut)
    : (D, nat) -> PrintOut
  {
    (d: D, count: nat) =>
      match reader
      case None => printer(d, [], count)
      case Some(rd) =>
        if rd(d, count).wrote > count then PrintOut(rd(d, count).wrote, "")
        else printer(d, rd(d, count).data, count)
  }

  /** A legacy scanner seen as a newer one: failure exactly when it
      returned false. */
  function ModernScanner<D>(writer: Option<Writer<D>>, scanner: (D, string, Option<Writer<D>>) -> Scan<D>)
    : (D, string) -> (CmdResult, D)
  {
    (d: D, v: string) =>
      var s := scanner(d, v, writer);
      (CmdResult(0, if s.ok then None else Some(UNKNOWN_ERROR), 0), s.state)
  }

  function ModernEntry<D>(e: LegacyEntry<D>): AsciiEntry<D>
  {
    AsciiEntry(
      e.name,
      if e.printer.Some? then Some(ModernPrinter(e.reader, e.printer.value)) else None,
      if e.scanner.Some? then Some(ModernScanner(e.writer, e.scanner.value)) else None)
  }

  /** The legacy table written as a table of the newer engine. */
  function Modern<D>(t: seq<LegacyEntry<D>>): (m: seq<AsciiEntry<D>>)
    ensures |m| == |t|
    ensures forall i :: 0 <= i < |t| ==> m[i] == ModernEntry(t[i])
  {
    seq(|t|, i requires 0 <= i < |t| => ModernEntry(t[i]))
  }

  /** The converted table is a valid newer table, searched alike. */
  lemma ModernValid<D(!new)>(t: seq<LegacyEntry<D>>)
    requires LegacyTableValid(t)
    ensures AsciiTableValid(Modern(t))
    ensures forall name :: FindAscii(Modern(t), name) == FindLegacy(t, name)
  {
    forall i | 0 <= i < |t| && Modern(t)[i].printer.Some?
      ensures PrinterContract(Modern(t)[i].printer.value)
    {
      assert RawPrinterContract(t[i].printer.value);
      assert t[i].reader.Some? ==> RawReaderContract(t[i].reader.value);
    }
  }

  /** One name renders the same in both engines. */
  lemma FieldAgrees<D(!new)>(t: seq<LegacyEntry<D>>, d: D, out: nat, name: string)
    requires LegacyTableValid(t)
    ensures AsciiTableValid(Modern(t))
    ensures ReadName(t, d, out, name).Fits? <==> Ascii.Field(Modern(t), d, out, name).Some?
    ensures ReadName(t, d, out, name).Fits? ==>
      ReadName(t, d, out, name).text == Ascii.Field(Modern(t), d, out, name).value
  {
    ModernValid(t);
  }

  /** The field steps of the two engines agree on every name. */
  ghost predicate SameFields(field: (nat, string) -> FieldOut, text: (nat, string) -> Option<string>)
  {
    forall out: nat, name: string ::
      && (field(out, name).Fits? <==> text(out, name).Some?)
      && (field(out, name).Fits? ==> field(out, name).text == text(out, name).value)
  }

  /** Agreeing field steps give agreeing replies. */
  lemma {:induction false} FieldsMeetReplies(field: (nat, string) -> FieldOut,
                                             text: (nat, string) -> Option<string>, out: nat, line: string)
    requires FieldsFit(field) && SameFields(field, text)
    ensures Fields(field, out, line).Got? <==> Ascii.Replies(text, out, line).Some?
    ensures Fields(field, out, line).Got? ==> Fields(field, out, line).reply == Ascii.Replies(text, out, line).value
    decreases |line|
  {
    var name := Sep(line, ' ').0;
    var rest := Sep(line, ' ').1;
    if field(out, name).Fits? && rest.Some? {
      FieldsMeetReplies(field, text, out + |field(out, name).text| + 1, rest.value);
    }
  }

  /** GET of the first generation succeeds exactly when the newer engine
      would succeed on the same registry, with the same reply. */
  lemma ReadAgrees<D(!new)>(t: seq<LegacyEntry<D>>, d: D, out: nat, line: string)
    requires LegacyTableValid(t)
    ensures AsciiTableValid(Modern(t))
    ensures LegacyRead(t, d, out, line).Got? <==> Ascii.Reply(Modern(t), d, out, line).Some?
    ensures LegacyRead(t, d, out, line).Got? ==>
      LegacyRead(t, d, out, line).reply == Ascii.Reply(Modern(t), d, out, line).value
  {
    ModernValid(t);
    forall o: nat, name: string
      ensures && (NameText(t, d)(o, name).Fits? <==> Ascii.FieldText(Modern(t), d)(o, name).Some?)
              && (NameText(t, d)(o, name).Fits? ==>
                    NameText(t, d)(o, name).text == Ascii.FieldText(Modern(t), d)(o, name).value)
    {
      FieldAgrees(t, d, o, name);
    }
    FieldsMeetReplies(NameText(t, d), Ascii.FieldText(Modern(t), d), out, line);
  }

  // ---------------------------------------------------------------
  // SET

  /** The line the two `snprintf` calls of a failed write leave: the
      prefix printed from 0, then the scanner's message printed at the
      prefix's untruncated length `pos` with room `SERIAL_TX_LEN - pos`.
      This is the line with the corrected room `TailSize`: a prefix of
      80 characters or more is cut to 79 and gets no message, where the
      code as written would print the message past the buffer
      (`TailOverrunsAsWritten`). */
  function FailedWriteLine(prefix: string, msg: string): (r: string)
    ensures r == Take(prefix + msg, SERIAL_TX_LEN - 1)
  {
    var pos := |prefix|;
    if pos < SERIAL_TX_LEN then
      var r := prefix + Take(msg, SERIAL_TX_LEN - 1 - pos);
      assert |msg| > SERIAL_TX_LEN - 1 - pos ==> (prefix + msg)[..SERIAL_TX_LEN - 1] == r;
      r
    else
      assert (prefix + msg)[..SERIAL_TX_LEN - 1] == prefix[..SERIAL_TX_LEN - 1];
      Take(prefix, SERIAL_TX_LEN - 1)
  }

  /** One pair of `process_write`: stop with an outcome, or go on with
      the rest of the line. */
  datatype PairStep<D> = Finish(out: Outcome<D>) | Next(state: D, arg: nat, rest: string)

  /** The template a failed scanner leaves in `cmd_parse_error`, which is
      preset to "Unknown error". */
  function Template<D>(s: Scan<D>): string
  {
    if s.error.Some? then s.error.value else UNKNOWN_ERROR
  }

  /** `cmd_parse_error_arg` after a scanner. */
  function ArgAfter<D>(s: Scan<D>, arg: nat): nat
  {
    if s.arg.Some? then s.arg.value else arg
  }

  /** The first `name=value` pair of `line`. */
  function WritePair<D(!new)>(t: seq<LegacyEntry<D>>, d: D, arg: nat, line: string): (r: PairStep<D>)
    requires LegacyTableValid(t)
    ensures r.Next? ==> |r.rest| < |line|
    ensures r.Finish? ==> |r.out.line| < SERIAL_TX_LEN && (r.out.ok ==> r.out.line == Ascii.OK)
  {
    var (name, rest) := Sep(line, '=');
    match FindLegacy(t, name)
    case None => Finish(Refusal(UnknownMsg(name), d, arg))
    case Some(i) =>
      var e := t[i];
      if e.scanner.None? then
        Finish(Refusal(if e.writer.None? then NotWritableMsg(name) else WritableViaModbusMsg(name), d, arg))
      else match rest
        case None => Finish(Refusal(ValueNotSetMsg(name), d, arg))
        case Some(after) =>
          var (value, more) := Sep(after, ' ');
          var s := e.scanner.value(d, value, e.writer);
          var arg1 := ArgAfter(s, arg);
          if !s.ok then
            Finish(Outcome(false, FailedWriteLine(WriteFailedPrefix(name), Format(Template(s), arg1)), s.state, arg1))
          else match more
            case None => Finish(Outcome(true, Ascii.OK, s.state, arg1))
            case Some(next) => Next(s.state, arg1, next)
  }

  /** `process_write(buf)`: pairs left to right until one fails or the
      line ends; earlier writes stay done. */
  function LegacyWrite<D(!new)>(t: seq<LegacyEntry<D>>, d: D, arg: nat, line: string): (r: Outcome<D>)
    requires LegacyTableValid(t)
    ensures |r.line| < SERIAL_TX_LEN
    ensures r.ok ==> r.line == Ascii.OK
    decreases |line|
  {
    match WritePair(t, d, arg, line)
    case Finish(o) => o
    case Next(d1, a1, next) => LegacyWrite(t, d1, a1, next)
  }

  /** One pair steps alike in both engines: both go on, to the same
      state and the same rest, or both stop, succeeding together with
      the same state. */
  lemma PairAgrees<D(!new)>(t: seq<LegacyEntry<D>>, d: D, arg: nat, line: string, pos: nat)
    requires LegacyTableValid(t) && pos + |line| < 256
    ensures AsciiTableValid(Modern(t))
    ensures WritePair(t, d, arg, line).Next? <==> Ascii.WritePair(Modern(t), d, line, pos).Continue?
    ensures WritePair(t, d, arg, line).Next? ==>
      && WritePair(t, d, arg, line).state == Ascii.WritePair(Modern(t), d, line, pos).state
      && WritePair(t, d, arg, line).rest == Ascii.WritePair(Modern(t), d, line, pos).next
    ensures WritePair(t, d, arg, line).Finish? ==>
      && (WritePair(t, d, arg, line).out.ok <==> Ascii.WritePair(Modern(t), d, line, pos).result.Written?)
      && WritePair(t, d, arg, line).out.state == Ascii.WritePair(Modern(t), d, line, pos).result.state
  {
    ModernValid(t);
    var name := Sep(line, '=').0;
    var f := FindLegacy(t, name);
    if f.None? || t[f.value].scanner.None? || Sep(line, '=').1.None? {
      PairRefused(t, d, arg, line, pos);
    } else {
      PairScanned(t, d, arg, line, pos, f.value);
    }
  }

  /** A pair refused before its scanner runs is refused by both, with
      the device untouched. */
  lemma PairRefused<D(!new)>(t: seq<LegacyEntry<D>>, d: D, arg: nat, line: string, pos: nat)
    requires LegacyTableValid(t) && pos + |line| < 256
    requires var f := FindLegacy(t, Sep(line, '=').0);
      f.None? || t[f.value].scanner.None? || Sep(line, '=').1.None?
    ensures AsciiTableValid(Modern(t))
    ensures WritePair(t, d, arg, line).Finish? && !WritePair(t, d, arg, line).out.ok
    ensures WritePair(t, d, arg, line).out.state == d
    ensures Ascii.WritePair(Modern(t), d, line, pos).Stop?
    ensures Ascii.WritePair(Modern(t), d, line, pos).result.WriteFailed?
    ensures Ascii.WritePair(Modern(t), d, line, pos).result.state == d
  {
    ModernValid(t);
  }

  /** A pair whose scanner runs: both engines take the same scanner
      verdict and device. */
  lemma PairScanned<D(!new)>(t: seq<LegacyEntry<D>>, d: D, arg: nat, line: string, pos: nat, i: nat)
    requires LegacyTableValid(t) && pos + |line| < 256
    requires FindLegacy(t, Sep(line, '=').0) == Some(i)
    requires t[i].scanner.Some? && Sep(line, '=').1.Some?
    ensures AsciiTableValid(Modern(t))
    ensures WritePair(t, d, arg, line).Next? <==> Ascii.WritePair(Modern(t), d, line, pos).Continue?
    ensures WritePair(t, d, arg, line).Next? ==>
      && WritePair(t, d, arg, line).state == Ascii.WritePair(Modern(t), d, line, pos).state
      && WritePair(t, d, arg, line).rest == Ascii.WritePair(Modern(t), d, line, pos).next
    ensures WritePair(t, d, arg, line).Finish? ==>
      && (WritePair(t, d, arg, line).out.ok <==> Ascii.WritePair(Modern(t), d, line, pos).result.Written?)
      && WritePair(t, d, arg, line).out.state == Ascii.WritePair(Modern(t), d, line, pos).result.state
  {
    ModernValid(t);
    var value := Sep(Sep(line, '=').1.value, ' ').0;
    var s := t[i].scanner.value(d, value, t[i].writer);
    assert Modern(t)[i].scanner.value(d, value) == (CmdResult(0, if s.ok then None else Some(UNKNOWN_ERROR), 0), s.state);
  }

  /** SET of the first generation succeeds exactly when the newer engine
      would succeed on the same registry, and leaves the same device. */
  lemma {:induction false} WriteAgrees<D(!new)>(t: seq<LegacyEntry<D>>, d: D, arg: nat, line: string, pos: nat)
    requires LegacyTableValid(t) && pos + |line| < 256
    ensures AsciiTableValid(Modern(t))
    ensures LegacyWrite(t, d, arg, line).ok <==> Ascii.ProcessWrite(Modern(t), d, line, pos).Written?
    ensures LegacyWrite(t, d, arg, line).state == Ascii.ProcessWrite(Modern(t), d, line, pos).state
    decreases |line|
  {
    PairAgrees(t, d, arg, line, pos);
    var w := WritePair(t, d, arg, line);
    if w.Next? {
      var n := Ascii.WritePair(Modern(t), d, line, pos);
      WriteAgrees(t, w.state, w.arg, w.rest, n.pos);
    }
  }

  // ---------------------------------------------------------------
  // Dispatch

  /** `GET names`: the reply, or the first failure's message cut to the
      line; the device is untouched. */
  function GetCommand<D(!new)>(t: seq<LegacyEntry<D>>, d: D, arg: nat, names: string): (r: Outcome<D>)
    requires LegacyTableValid(t)
    ensures |r.line| < SERIAL_TX_LEN && r.state == d && r.arg == arg
    ensures r.ok <==> LegacyRead(t, d, 0, names).Got?
    ensures r.ok ==> r.line == LegacyRead(t, d, 0, names).reply
    ensures !r.ok ==> r.line == Take(LegacyRead(t, d, 0, names).msg, SERIAL_TX_LEN - 1)
  {
    match LegacyRead(t, d, 0, names)
    case Got(s) => Outcome(true, s, d, arg)
    case GetFailed(m) => Refusal(m, d, arg)
  }

  /** `interface_ascii` once the line ending is gone: `GET` or `SET`
      (any case) followed by arguments. */
  function Dispatch<D(!new)>(t: seq<LegacyEntry<D>>, d: D, arg: nat, line: string): (r: Outcome<D>)
    requires LegacyTableValid(t)
    ensures |r.line| < SERIAL_TX_LEN
    ensures r.ok ==> Sep(line, ' ').1.Some? && (CaseEq(Sep(line, ' ').0, "get") || CaseEq(Sep(line, ' ').0, "set"))
    ensures !CaseEq(Sep(line, ' ').0, "set") || Sep(line, ' ').1.None? ==> r.state == d && r.arg == arg
  {
    var (op, rest) := Sep(line, ' ');
    if CaseEq(op, "get") then
      match rest
      case None => Refusal(Ascii.EXPECTING_ARGS, d, arg)
      case Some(names) => GetCommand(t, d, arg, names)
    else if CaseEq(op, "set") then
      match rest
      case None => Refusal(Ascii.EXPECTING_ARGS, d, arg)
      case Some(pairs) => LegacyWrite(t, d, arg, pairs)
    else Refusal(EXPECTING_GET_SET, d, arg)
  }

  /** An operation word and its arguments reach GET or SET. */
  lemma DispatchArguments<D(!new)>(t: seq<LegacyEntry<D>>, d: D, arg: nat, op: string, args: string)
    requires LegacyTableValid(t) && ' ' !in op
    ensures CaseEq(op, "get") ==> Dispatch(t, d, arg, op + " " + args) == GetCommand(t, d, arg, args)
    ensures CaseEq(op, "set") ==> Dispatch(t, d, arg, op + " " + args) == LegacyWrite(t, d, arg, args)
  {
    SepSome(op, ' ', args);
    assert LowerStr("get") == "get" && LowerStr("set") == "set";
  }

  /** `interface_ascii(buf, len)`: strip the line ending, then dispatch
      on the C string that is left. */
  function InterfaceAscii<D(!new)>(t: seq<LegacyEntry<D>>, d: D, arg: nat, buf: string, len: nat): (r: Outcome<D>)
    requires LegacyTableValid(t) && 1 <= len <= |buf|
    ensures |r.line| < SERIAL_TX_LEN
    ensures buf[len - 1] != '\n' ==> !r.ok && r.line == NOT_TERMINATED && r.state == d
  {
    var (ok, b) := Ascii.StripLineEnding(buf, len);
    if !ok then Refusal(NOT_TERMINATED, d, arg) else Dispatch(t, d, arg, CString(b))
  }

  /** A line ended by LF or CRLF is dispatched as the text before it. */
  lemma TerminatedLine<D(!new)>(t: seq<LegacyEntry<D>>, d: D, arg: nat, text: string, crlf: bool)
    requires LegacyTableValid(t)
    requires '\0' !in text && '\n' !in text
    requires !crlf && |text| > 0 ==> text[|text| - 1] != '\r'
    ensures var buf := text + (if crlf then "\r\n" else "\n");
      InterfaceAscii(t, d, arg, buf, |buf|) == Dispatch(t, d, arg, text)
  {
    Ascii.StripGivesLine(text, crlf);
  }

  /** Only GET and SET are operations: HELP, or anything else, is
      refused, and so is an operation without arguments. */
  lemma OperationErrors<D(!new)>(t: seq<LegacyEntry<D>>, d: D, arg: nat, op: string)
    requires LegacyTableValid(t) && ' ' !in op
    ensures var r := Dispatch(t, d, arg, op);
      && !r.ok && r.state == d
      && (CaseEq(op, "get") || CaseEq(op, "set") ==> r.line == Ascii.EXPECTING_ARGS)
      && (!CaseEq(op, "get") && !CaseEq(op, "set") ==> r.line == EXPECTING_GET_SET)
    ensures Dispatch(t, d, arg, "help").line == EXPECTING_GET_SET
  {
    SepNone(op, ' ');
    assert LowerStr("help") == "help" && LowerStr("get") == "get" && LowerStr("set") == "set";
  }

  /** `GET names`: the reply of the newer engine on the converted
      registry, and the device untouched. */
  lemma GetAnswer<D(!new)>(t: seq<LegacyEntry<D>>, d: D, arg: nat, op: string, names: string)
    requires LegacyTableValid(t) && CaseEq(op, "get") && ' ' !in op
    ensures AsciiTableValid(Modern(t))
    ensures var r := Dispatch(t, d, arg, op + " " + names);
      && r.state == d && r.arg == arg
      && (r.ok <==> Ascii.Reply(Modern(t), d, 0, names).Some?)
      && (r.ok ==> r.line == Ascii.Reply(Modern(t), d, 0, names).value)
  {
    DispatchArguments(t, d, arg, op, names);
    ReadAgrees(t, d, 0, names);
  }

  /** The errors of the first name of a GET. */
  lemma GetFirstName<D(!new)>(t: seq<LegacyEntry<D>>, d: D, name: string, more: Option<string>)
    requires LegacyTableValid(t) && ' ' !in name
    ensures var line := if more.Some? then name + " " + more.value else name;
      var r := LegacyRead(t, d, 0, line);
      && (FindLegacy(t, name).None? ==> r == GetFailed(UnknownMsg(name)))
      && (FindLegacy(t, name).Some? && t[FindLegacy(t, name).value].printer.None? ==>
            r == GetFailed(if t[FindLegacy(t, name).value].reader.None? then NotReadableMsg(name)
                           else ReadableViaModbusMsg(name)))
      && (FindLegacy(t, name).Some? && t[FindLegacy(t, name).value].printer.Some? && |name| + 1 >= SERIAL_TX_LEN ==>
            r == GetFailed(TooShortMsg(name)))
  {
    if more.Some? {
      SepSome(name, ' ', more.value);
    } else {
      SepNone(name, ' ');
    }
  }

  /** `SET pairs`: succeeds, with "OK", exactly when the newer engine
      would on the converted registry, and leaves the same device. */
  lemma SetAnswer<D(!new)>(t: seq<LegacyEntry<D>>, d: D, arg: nat, op: string, pairs: string)
    requires LegacyTableValid(t) && CaseEq(op, "set") && ' ' !in op && |op| + 1 + |pairs| < 256
    ensures AsciiTableValid(Modern(t))
    ensures var r := Dispatch(t, d, arg, op + " " + pairs);
      var w := Ascii.ProcessWrite(Modern(t), d, pairs, |op| + 1);
      && (r.ok <==> w.Written?)
      && (r.ok ==> r.line == Ascii.OK)
      && r.state == w.state
  {
    DispatchArguments(t, d, arg, op, pairs);
    WriteAgrees(t, d, arg, pairs, |op| + 1);
  }

  /** The errors of a single pair: unknown name, no scanner, no value,
      and a failing scanner, whose state stays as its writer left it. */
  lemma SetOnePair<D(!new)>(t: seq<LegacyEntry<D>>, d: D, arg: nat, name: string, value: Option<string>)
    requires LegacyTableValid(t) && '=' !in name && (value.Some? ==> ' ' !in value.value)
    ensures var line := if value.Some? then name + "=" + value.value else name;
      var r := LegacyWrite(t, d, arg, line);
      && (FindLegacy(t, name).None? ==> r == Refusal(UnknownMsg(name), d, arg))
      && (FindLegacy(t, name).Some? ==>
          var e := t[FindLegacy(t, name).value];
          && (e.scanner.None? ==>
                r == Refusal(if e.writer.None? then NotWritableMsg(name) else WritableViaModbusMsg(name), d, arg))
          && (e.scanner.Some? && value.None? ==> r == Refusal(ValueNotSetMsg(name), d, arg))
          && (e.scanner.Some? && value.Some? ==>
                var s := e.scanner.value(d, value.value, e.writer);
                && (r.ok <==> s.ok)
                && r.state == s.state
                && r.arg == ArgAfter(s, arg)
                && (!s.ok ==> r.line == Take(WriteFailedPrefix(name) + Format(Template(s), ArgAfter(s, arg)),
                                             SERIAL_TX_LEN - 1))))
  {
    if value.Some? {
      SepSome(name, '=', value.value);
      SepNone(value.value, ' ');
    } else {
      SepNone(name, '=');
    }
  }

  /** A pair that succeeds and is followed by more hands its device on:
      earlier writes are not undone by a later failure. */
  lemma SetContinues<D(!new)>(t: seq<LegacyEntry<D>>, d: D, arg: nat, line: string)
    requires LegacyTableValid(t) && WritePair(t, d, arg, line).Next?
    ensures var n := WritePair(t, d, arg, line);
      LegacyWrite(t, d, arg, line) == LegacyWrite(t, n.state, n.arg, n.rest)
  {
  }

  // ---------------------------------------------------------------
  // The second `snprintf` of a failed write

  /** The size argument `SERIAL_TX_LEN - pos` of the second `snprintf`
      as written: a negative `int` converted to the 16-bit `size_t`. */
  function TailSizeAsWritten(pos: nat): (r: nat)
    ensures pos <= SERIAL_TX_LEN ==> r == SERIAL_TX_LEN - pos
    ensures SERIAL_TX_LEN < pos < 0x1_0000 ==> r == 0x1_0000 + SERIAL_TX_LEN - pos
  {
    (SERIAL_TX_LEN - pos) % 0x1_0000
  }

  /** The size evidently intended: what is left of the buffer, none once
      the prefix has filled it. */
  function TailSize(pos: nat): (r: nat)
    ensures pos + r <= SERIAL_TX_LEN || r == 0
  {
    if pos < SERIAL_TX_LEN then SERIAL_TX_LEN - pos else 0
  }

  /** Index of the NUL `snprintf(serial_tx + pos, size, ...)` stores for
      `msg`, the last byte it touches; none when `size` is 0. */
  function TailEnd(pos: nat, size: nat, msg: string): (r: Option<nat>)
    ensures r.Some? ==> pos <= r.value < pos + size
  {
    if size == 0 then None else Some(pos + |Take(msg, size - 1)|)
  }

  /** As written, a failed write to a field whose name has 58 or more
      characters stores the scanner's message past the end of
      `serial_tx`: the prefix alone is 81 bytes or more, and the size
      wraps around to nearly 64 KiB. */
  lemma TailOverrunsAsWritten(name: string, msg: string)
    requires 58 <= |name| < 0x1_0000 - 100
    ensures |WriteFailedPrefix(name)| == |name| + 23 > SERIAL_TX_LEN
    ensures TailEnd(|WriteFailedPrefix(name)|, TailSizeAsWritten(|WriteFailedPrefix(name)|), msg).Some?
    ensures TailEnd(|WriteFailedPrefix(name)|, TailSizeAsWritten(|WriteFailedPrefix(name)|), msg).value
      >= SERIAL_TX_LEN
  {
  }

  /** With the intended size nothing is stored outside `serial_tx`, and
      the line is what the two writes leave: the prefix cut to the
      buffer, then as much of the message as the intended size lets the
      second write store. */
  lemma TailInside(name: string, msg: string)
    ensures var pos := |WriteFailedPrefix(name)|;
      TailEnd(pos, TailSize(pos), msg).Some? ==> TailEnd(pos, TailSize(pos), msg).value < SERIAL_TX_LEN
    ensures var prefix := WriteFailedPrefix(name);
      var size := TailSize(|prefix|);
      FailedWriteLine(prefix, msg)
        == Take(prefix, SERIAL_TX_LEN - 1) + (if size == 0 then "" else Take(msg, size - 1))
  {
  }
}

=== FILE: base.dfy ===
/** Shared vocabulary of the firmware model: bytes, the buffer-size
    constants of the serial layer, C-string helpers and the small pieces
    of libc (tolower, isalpha, decimal printing) the engines rely on. */
module Base {

  /** One octet on the wire. */
  type byte = x: int | 0 <= x < 256

  /** Receive and transmit buffer capacities of the serial layer. */
  const SERIAL_RX_LEN: nat := 80
  const SERIAL_TX_LEN: nat := 80

  /** All-ones value of the 8-bit `buflen_t`, used as "does not fit". */
  const BUFLEN_MAX: nat := 255

  datatype Option<+T> = None | Some(value: T)

  /** Conversion of a non-negative C int to the 8-bit `buflen_t`. */
  function Buflen(n: nat): (r: nat)
    ensures r < 256
    ensures n < 256 ==> r == n
  {
    n % 256
  }

  /** `x++` on a `uint16_t`: all ones wraps to zero. */
  function Inc16(x: nat): (r: nat)
    requires x < 0x1_0000
    ensures r < 0x1_0000
    ensures x < 0xFFFF ==> r == x + 1
    ensures x == 0xFFFF ==> r == 0
  {
    (x + 1) % 0x1_0000
  }

  /** Big-endian 16-bit value of two wire bytes. */
  function Be16(hi: byte, lo: byte): (r: nat)
    ensures r < 0x1_0000
    ensures r / 256 == hi as nat && r % 256 == lo as nat
  {
    hi as nat * 256 + lo as nat
  }

  /** Little-endian 16-bit value of two wire bytes (how an AVR reads
      `*(uint16_t*)p`). */
  function Le16(lo: byte, hi: byte): (r: nat)
    ensures r < 0x1_0000
    ensures r % 256 == lo as nat && r / 256 == hi as nat
  {
    hi as nat * 256 + lo as nat
  }

  function LowByte(x: nat): (b: byte)
    requires x < 0x1_0000
    ensures b as nat == x % 256
  {
    x % 256
  }

  function HighByte(x: nat): (b: byte)
    requires x < 0x1_0000
    ensures b as nat == x / 256
  {
    x / 256
  }

  /** Storing a 16-bit value low byte first and reading it back. */
  lemma Le16OfBytes(x: nat)
    requires x < 0x1_0000
    ensures Le16(LowByte(x), HighByte(x)) == x
  {
  }

  /** The 16-bit value of bytes `s[i]`, `s[i+1]` in big-endian order. */
  function Be16At(s: seq<byte>, i: nat): (r: nat)
    requires i + 2 <= |s|
    ensures r < 0x1_0000
  {
    Be16(s[i], s[i + 1])
  }

  /** Big-endian 32-bit value of four bytes starting at `i` (`be32toh`). */
  function Be32At(s: seq<byte>, i: nat): (r: nat)
    requires i + 4 <= |s|
    ensures r < 0x1_0000_0000
  {
    ((s[i] as nat * 256 + s[i + 1] as nat) * 256 + s[i + 2] as nat) * 256 + s[i + 3] as nat
  }

  /** Two's complement truncation to `int16_t`. */
  function Int16(v: int): (r: int)
    ensures -0x8000 <= r < 0x8000
    ensures (r - v) % 0x1_0000 == 0
  {
    var u := v % 0x1_0000;
    if u >= 0x8000 then u - 0x1_0000 else u
  }

  /** Two's complement truncation to `int32_t`. */
  function Int32(v: int): (r: int)
    ensures -0x8000_0000 <= r < 0x8000_0000
    ensures (r - v) % 0x1_0000_0000 == 0
  {
    var u := v % 0x1_0000_0000;
    if u >= 0x8000_0000 then u - 0x1_0000_0000 else u
  }

  lemma Int16Id(v: int)
    requires -0x8000 <= v < 0x8000
    ensures Int16(v) == v
  {
  }

  lemma Int32Id(v: int)
    requires -0x8000_0000 <= v < 0x8000_0000
    ensures Int32(v) == v
  {
  }

  lemma MulMono(a: nat, b: nat, c: nat)
    requires a <= b
    ensures a * c <= b * c
  {
  }

  /** A quotient is below `k` when the dividend is below `k` divisors. */
  lemma DivUpper(x: nat, c: nat, k: nat)
    requires c > 0 && x < c * k
    ensures x / c < k
  {
    if x / c >= k {
      MulMono(k, x / c, c);
    }
  }

  lemma DivLe(x: nat, c: nat, k: nat)
    requires c > 0 && x <= c * k
    ensures x / c <= k
  {
    DivUpper(x, c, k + 1);
  }

  lemma DivExact(c: nat, k: nat)
    requires c > 0
    ensures (c * k) / c == k
  {
    var q := (c * k) / c;
    if q < k {
      MulMono(q + 1, k, c);
    }
    if q > k {
      MulMono(k + 1, q, c);
    }
  }

  lemma ModSmall(x: nat, m: nat)
    requires x < m
    ensures x % m == x
  {
  }

  /** The octets of a byte sequence seen as characters. */
  function TextOf(bs: seq<byte>): (s: string)
    ensures |s| == |bs|
    ensures forall i :: 0 <= i < |bs| ==> s[i] as int == bs[i]
  {
    seq(|bs|, i requires 0 <= i < |bs| => bs[i] as char)
  }

  /** Characters stored into 8-bit C `char` cells. */
  function BytesOf(s: string): (bs: seq<byte>)
    ensures |bs| == |s|
    ensures forall i :: 0 <= i < |s| ==> bs[i] == s[i] as int % 256
  {
    seq(|s|, i requires 0 <= i < |s| => (s[i] as int) % 256)
  }

  /** A prefix one longer is the prefix plus the next element. */
  lemma PrefixSnoc<T>(s: seq<T>, i: nat)
    requires i < |s|
    ensures s[..i + 1] == s[..i] + [s[i]]
  {
  }

  /** Changing an element inside a prefix changes the prefix there. */
  lemma PrefixUpdate<T>(s: seq<T>, i: nat, x: T, k: nat)
    requires i < k <= |s|
    ensures s[i := x][..k] == s[..k][i := x]
  {
  }

  /** Index of the first occurrence of `c` in `s`, if any. */
  function IndexOf(s: string, c: char): (r: Option<nat>)
    ensures r.Some? ==> r.value < |s| && s[r.value] == c && c !in s[..r.value]
    ensures r.None? ==> c !in s
  {
    if |s| == 0 then None
    else if s[0] == c then Some(0)
    else match IndexOf(s[1..], c)
      case None => None
      case Some(k) => assert s[1..][..k] == s[1..k + 1]; Some(k + 1)
  }

  /** Contents of a NUL-terminated buffer: everything before the first
      NUL, or the whole buffer when there is none. */
  function CString(s: string): (r: string)
    ensures r <= s
    ensures '\0' !in r
    ensures |r| < |s| ==> s[|r|] == '\0'
  {
    match IndexOf(s, '\0')
    case None => s
    case Some(k) => s[..k]
  }

  /** A NUL at `k` with none before it ends the C string there. */
  lemma CStringAt(s: string, k: nat)
    requires k < |s| && s[k] == '\0' && '\0' !in s[..k]
    ensures CString(s) == s[..k]
  {
  }

  /** A NUL-free prefix belongs to the C string. */
  lemma CStringAppend(a: string, b: string)
    requires '\0' !in a
    ensures CString(a + b) == a + CString(b)
  {
    var c := CString(b);
    if |c| < |b| {
      assert (a + b)[..|a| + |c|] == a + c;
      CStringAt(a + b, |a| + |c|);
    } else {
      assert c == b;
    }
  }

  /** `strsep(&p, d)` with a one-character delimiter set on a non-NULL
      `p`: the token before the first `d`, and what follows it, or no
      remainder (`p` becomes NULL) when `d` does not occur. */
  function Sep(s: string, d: char): (r: (string, Option<string>))
    ensures d !in r.0
    ensures r.1.None? ==> r.0 == s
    ensures r.1.Some? ==> |r.0| + 1 + |r.1.value| == |s|
  {
    match IndexOf(s, d)
    case None => (s, None)
    case Some(k) => (s[..k], Some(s[k + 1..]))
  }

  /** The token, the delimiter and the remainder make up the input. */
  lemma SepParts(s: string, d: char)
    requires Sep(s, d).1.Some?
    ensures s == Sep(s, d).0 + [d] + Sep(s, d).1.value
  {
    var k := IndexOf(s, d).value;
    assert s == s[..k] + [d] + s[k + 1..];
  }

  /** `strsep` on a token that is followed by the delimiter. */
  lemma SepSome(a: string, d: char, b: string)
    requires d !in a
    ensures Sep(a + [d] + b, d) == (a, Some(b))
  {
    var s := a + [d] + b;
    assert s[..|a|] == a;
    assert s[|a|] == d;
    assert s[|a| + 1..] == b;
  }

  /** `strsep` on the last token. */
  lemma SepNone(a: string, d: char)
    requires d !in a
    ensures Sep(a, d) == (a, None)
  {
  }

  /** `tolower` of the C locale. */
  function Lower(c: char): char
  {
    if 'A' <= c <= 'Z' then (c as int + 32) as char else c
  }

  function LowerStr(s: string): (r: string)
    ensures |r| == |s|
    ensures forall i :: 0 <= i < |s| ==> r[i] == Lower(s[i])
  {
    seq(|s|, i requires 0 <= i < |s| => Lower(s[i]))
  }

  /** `strcasecmp(a, b) == 0`. */
  predicate CaseEq(a: string, b: string)
  {
    LowerStr(a) == LowerStr(b)
  }

  /** `isalpha` of the C locale. */
  predicate IsAlpha(c: char)
  {
    'A' <= c <= 'Z' || 'a' <= c <= 'z'
  }

  predicate IsDigit(c: char)
  {
    '0' <= c <= '9'
  }

  function Spaces(n: nat): (r: string)
    ensures |r| == n
    ensures forall i :: 0 <= i < n ==> r[i] == ' '
  {
    seq(n, i => ' ')
  }

  /** The first `n` characters of `s`, or all of it when shorter. */
  function Take(s: string, n: nat): (r: string)
    ensures r <= s
    ensures |r| == if |s| < n then |s| else n
  {
    if |s| <= n then s else s[..n]
  }

  /** Decimal digits of a natural number, most significant first. */
  function Digits(n: nat): (r: string)
    ensures |r| > 0
    ensures forall i :: 0 <= i < |r| ==> IsDigit(r[i])
    ensures n > 0 ==> r[0] != '0'
    decreases n
  {
    if n < 10 then [('0' as int + n) as char]
    else Digits(n / 10) + [('0' as int + n % 10) as char]
  }

  /** `printf("%d", n)`. */
  function Decimal(n: int): (r: string)
    ensures |r| > 0
  {
    if n < 0 then "-" + Digits(-n) else Digits(n)
  }

  /** A numeral holds no NUL. */
  lemma DecimalHasNoNul(n: int)
    ensures '\0' !in Decimal(n)
  {
  }

  /** `printf(t, arg)` for the message templates of this firmware, which
      use at most the `%d` conversion. */
  function Format(t: string, arg: int): string
    decreases |t|
  {
    if |t| < 2 then t
    else if t[0] == '%' && t[1] == 'd' then Decimal(arg) + t[2..]
    else [t[0]] + Format(t[1..], arg)
  }

  /** A template without a conversion prints as itself. */
  lemma {:induction false} FormatPlain(t: string, arg: int)
    requires '%' !in t
    ensures Format(t, arg) == t
    decreases |t|
  {
    if |t| >= 2 {
      FormatPlain(t[1..], arg);
      assert [t[0]] + t[1..] == t;
    }
  }

  /** The first `%d` of a template is replaced by the argument's digits
      and the rest of the template is kept verbatim. */
  lemma {:induction false} FormatFirst(p: string, q: string, arg: int)
    requires '%' !in p
    ensures Format(p + "%d" + q, arg) == p + Decimal(arg) + q
    decreases |p|
  {
    var t := p + "%d" + q;
    var dec := Decimal(arg);
    if |p| == 0 {
      assert t == "%d" + q;
      assert t[2..] == q;
      assert Format(t, arg) == dec + q;
    } else {
      assert t[0] == p[0] && |t| >= 2;
      assert Format(t, arg) == [p[0]] + Format(t[1..], arg);
      assert t[1..] == p[1..] + "%d" + q;
      FormatFirst(p[1..], q, arg);
      assert [p[0]] + (p[1..] + dec + q) == p + dec + q;
    }
  }
}

=== FILE: cmd.dfy ===
/** The command registry contract of avr/src/interface/cmd.h: result
    records, the abstract contracts of value printers, scanners and
    binary marshallers, and the two sorted tables with their lookups.

    Getters and setters act on a device state `D`. An entry's printer,
    scanner, reader and writer are modelled as functions that already
    hold the entry's getter or setter (`action.read` / `action.write`),
    which is how the C code pairs them at the call. */
module Cmd {
  import opened Base
  import opened ModbusTypes
  import opened Search

  /** Outcome of a text scanner: success exactly when there is no
      message; `errorPos` counts from the start of the scanned token. */
  datatype CmdResult = CmdResult(errorPos: nat, errorMsg: Option<string>, arg: int)
  {
    predicate Success() { errorMsg.None? }
  }

  /** What a printer reports (a `buflen_t`) and the text it stored. */
  datatype PrintOut = PrintOut(wrote: nat, text: string)

  /** Outcome of a binary reader: status, bytes produced, and those bytes
      (big-endian on the wire). */
  datatype ReadOut = ReadOut(code: Status, consumed: nat, data: seq<byte>)

  /** Outcome of a binary writer: status and input bytes consumed. */
  datatype WriteOut = WriteOut(code: Status, consumed: nat)

  /** A text-protocol entry. No printer: not readable over text; no
      scanner: not writable over text. */
  datatype AsciiEntry<!D> = AsciiEntry(
    name: string,
    printer: Option<(D, nat) -> PrintOut>,
    scanner: Option<(D, string) -> (CmdResult, D)>)

  /** A Modbus entry keyed by (kind, 16-bit address). */
  datatype ModbusEntry<!D> = ModbusEntry(
    kind: ObjectKind,
    addr: nat,
    reader: Option<(D, nat) -> ReadOut>,
    writer: Option<(D, seq<byte>) -> (WriteOut, D)>)

  /** A printer given `count` bytes of room stores at most that many
      characters and reports a `buflen_t`; when that is below `count` it
      stored exactly that many characters. */
  ghost predicate PrinterContract<D(!new)>(p: (D, nat) -> PrintOut)
  {
    forall d, count :: p(d, count).wrote < 256 && |p(d, count).text| <= count
      && '\0' !in p(d, count).text
      && (p(d, count).wrote < count ==> |p(d, count).text| == p(d, count).wrote)
  }

  /** A reader that reports success produced between one and `count`
      bytes (`count` is the room left in the reply). */
  ghost predicate ReaderContract<D(!new)>(r: (D, nat) -> ReadOut)
  {
    forall d, count :: r(d, count).code == Ok
      ==> 0 < r(d, count).consumed <= count && |r(d, count).data| == r(d, count).consumed
  }

  /** A writer that reports success consumed between one and all of its
      input bytes. */
  ghost predicate WriterContract<D(!new)>(w: (D, seq<byte>) -> (WriteOut, D))
  {
    forall d, input :: w(d, input).0.code == Ok ==> 0 < w(d, input).0.consumed <= |input|
  }

  /** The `strcasecmp` key of a name: its lower-cased character codes. */
  function NameKey(name: string): (k: seq<int>)
    ensures |k| == |name|
  {
    seq(|name|, i requires 0 <= i < |name| => Lower(name[i]) as int)
  }

  lemma NameKeyCaseEq(a: string, b: string)
    ensures NameKey(a) == NameKey(b) <==> CaseEq(a, b)
  {
    if NameKey(a) == NameKey(b) {
      assert forall i :: 0 <= i < |a| ==> LowerStr(a)[i] == LowerStr(b)[i] by {
        forall i | 0 <= i < |a| ensures LowerStr(a)[i] == LowerStr(b)[i] {
          assert NameKey(a)[i] == NameKey(b)[i];
        }
      }
    }
  }

  /** The `memcmp` key of a Modbus entry: the memory image of
      `{type, addr}` on the little-endian AVR, so the low address byte
      is compared before the high one. (With a 16-bit enum there is an
      extra zero byte after the tag on both sides; it never decides.) */
  function ModbusKey(kind: ObjectKind, addr: nat): (k: seq<int>)
    requires addr < 0x1_0000
    ensures |k| == 3 && k[0] == Tag(kind)
  {
    [Tag(kind), LowByte(addr), HighByte(addr)]
  }

  function AsciiKeys<D>(t: seq<AsciiEntry<D>>): (ks: seq<seq<int>>)
    ensures |ks| == |t|
    ensures forall i :: 0 <= i < |t| ==> ks[i] == NameKey(t[i].name)
  {
    seq(|t|, i requires 0 <= i < |t| => NameKey(t[i].name))
  }

  function ModbusKeys<D>(t: seq<ModbusEntry<D>>): (ks: seq<seq<int>>)
    requires forall i :: 0 <= i < |t| ==> t[i].addr < 0x1_0000
    ensures |ks| == |t|
    ensures forall i :: 0 <= i < |t| ==> ks[i] == ModbusKey(t[i].kind, t[i].addr)
  {
    seq(|t|, i requires 0 <= i < |t| => ModbusKey(t[i].kind, t[i].addr))
  }

  /** `cmd_ascii` is sorted by name with the case-insensitive comparator,
      and every printer keeps its contract. */
  ghost predicate AsciiTableValid<D(!new)>(t: seq<AsciiEntry<D>>)
  {
    && StrictlySorted(AsciiKeys(t))
    && forall i :: 0 <= i < |t| && t[i].printer.Some? ==> PrinterContract(t[i].printer.value)
  }

  /** `cmd_modbus` is sorted by (type, addr) with the `memcmp`
      comparator, and every marshaller keeps its contract. */
  ghost predicate ModbusTableValid<D(!new)>(t: seq<ModbusEntry<D>>)
  {
    && (forall i :: 0 <= i < |t| ==> t[i].addr < 0x1_0000)
    && StrictlySorted(ModbusKeys(t))
    && (forall i :: 0 <= i < |t| && t[i].reader.Some? ==> ReaderContract(t[i].reader.value))
    && (forall i :: 0 <= i < |t| && t[i].writer.Some? ==> WriterContract(t[i].writer.value))
  }

  /** `find_cmd` of the text engines: the entry whose name equals `name`
      ignoring case, or none when no entry does. */
  function FindAscii<D(!new)>(t: seq<AsciiEntry<D>>, name: string): (r: Option<nat>)
    requires AsciiTableValid(t)
    ensures r.Some? ==> r.value < |t| && CaseEq(t[r.value].name, name)
    ensures r.None? <==> forall i :: 0 <= i < |t| ==> !CaseEq(t[i].name, name)
  {
    var r := Find(AsciiKeys(t), NameKey(name));
    if r.Some? then
      NameKeyCaseEq(t[r.value].name, name);
      r
    else
      assert forall i :: 0 <= i < |t| ==> !CaseEq(t[i].name, name) by {
        forall i | 0 <= i < |t| ensures !CaseEq(t[i].name, name) {
          assert AsciiKeys(t)[i] != NameKey(name);
          NameKeyCaseEq(t[i].name, name);
        }
      }
      r
  }

  /** `find_cmd` of the Modbus engine: the entry of that kind and address,
      or none when the table has no such entry. */
  function FindModbus<D(!new)>(t: seq<ModbusEntry<D>>, kind: ObjectKind, addr: nat): (r: Option<nat>)
    requires ModbusTableValid(t) && addr < 0x1_0000
    ensures r.Some? ==> r.value < |t| && t[r.value].kind == kind && t[r.value].addr == addr
    ensures r.None? <==> forall i :: 0 <= i < |t| ==> !(t[i].kind == kind && t[i].addr == addr)
  {
    var r := Find(ModbusKeys(t), ModbusKey(kind, addr));
    if r.Some? then
      ModbusKeyInjective(t[r.value].kind, t[r.value].addr, kind, addr);
      r
    else
      assert forall i :: 0 <= i < |t| ==> !(t[i].kind == kind && t[i].addr == addr) by {
        forall i | 0 <= i < |t| ensures !(t[i].kind == kind && t[i].addr == addr) {
          assert ModbusKeys(t)[i] != ModbusKey(kind, addr);
        }
      }
      r
  }

  lemma ModbusKeyInjective(k1: ObjectKind, a1: nat, k2: ObjectKind, a2: nat)
    requires a1 < 0x1_0000 && a2 < 0x1_0000
    ensures ModbusKey(k1, a1) == ModbusKey(k2, a2) <==> k1 == k2 && a1 == a2
  {
    TagOrder();
    if ModbusKey(k1, a1) == ModbusKey(k2, a2) {
      assert LowByte(a1) == LowByte(a2) && HighByte(a1) == HighByte(a2);
    }
  }

  /** The table order is not numeric: address 0x0100 sorts before 0x0001
      because the low byte is compared first; below 256 the two agree. */
  lemma ModbusOrderIsByteWise(k: ObjectKind, a: nat, b: nat)
    requires a < b < 256
    ensures LexLess(ModbusKey(k, a), ModbusKey(k, b))
    ensures LexLess(ModbusKey(k, 0x0100), ModbusKey(k, 0x0001))
  {
  }
}

=== FILE: cmd_functions.dfy ===
/** The value scanners and printers of avr/src/cmd_functions.c: the text
    side of a registry entry. A scanner parses one already tokenised
    value and hands it to the entry's setter; a printer asks the getter
    and writes the value into the room left in the output buffer.

    Setters and getters act on the device state `D`; a setter reports a
    Modbus status together with the state it leaves behind. */
module CmdFunctions {
  import opened Base
  import opened ModbusTypes
  import opened Cmd

  /** The `buflen_t` a printer returns when the value does not fit. */
  const OUT_OF_BUFFER: nat := 255

  /** `cmd_scan_success`: no error, at position 0, no argument. */
  const SCAN_SUCCESS: CmdResult := CmdResult(0, None, 0)

  const ALLOWED_BOOLS: string := "Allowed values: 0, 1, ON, or OFF"
  const NOT_A_DIGIT: string := "Not a digit"

  /** `modbus_strerror`: the message template shown for a setter status,
      none for success. Only the default template has a `%d`, which
      receives the status code. */
  function ModbusStrerror(s: Status): (r: Option<string>)
    ensures r.None? <==> s == Ok
    ensures r.Some? ==> |r.value| > 0
  {
    match s
    case Ok => None
    case IllegalDataValue => Some("Illegal data value")
    case SlaveOrServerFailure => Some("Unrecoverable error")
    case _ => Some("Modbus error %d")
  }

  /** The tail every scanner shares: success when the setter says OK,
      otherwise an error at position 0 naming the status. */
  function SetterOutcome<D>(o: (Status, D)): (r: (CmdResult, D))
    ensures r.1 == o.1
    ensures r.0.Success() <==> o.0 == Ok
    ensures o.0 == Ok ==> r.0 == SCAN_SUCCESS
    ensures o.0 != Ok ==> r.0.errorPos == 0 && r.0.arg == Code(o.0) as int
  {
    if o.0 == Ok then (SCAN_SUCCESS, o.1)
    else (CmdResult(0, ModbusStrerror(o.0), Code(o.0)), o.1)
  }

  /** The message of a failed setter names its status: the two known
      statuses by name, every other one by number. */
  lemma StrerrorMessage(s: Status)
    requires s != Ok
    ensures s == IllegalDataValue ==> Format(ModbusStrerror(s).value, Code(s)) == "Illegal data value"
    ensures s == SlaveOrServerFailure ==> Format(ModbusStrerror(s).value, Code(s)) == "Unrecoverable error"
    ensures s != IllegalDataValue && s != SlaveOrServerFailure
      ==> Format(ModbusStrerror(s).value, Code(s)) == "Modbus error " + Decimal(Code(s))
  {
    if s == IllegalDataValue {
      FormatPlain("Illegal data value", Code(s));
    } else if s == SlaveOrServerFailure {
      FormatPlain("Unrecoverable error", Code(s));
    } else {
      FormatFirst("Modbus error ", "", Code(s));
      assert "Modbus error " + "%d" + "" == "Modbus error %d";
      assert "Modbus error " + Decimal(Code(s)) + "" == "Modbus error " + Decimal(Code(s));
    }
  }

  // ---------------------------------------------------------------
  // Booleans

  /** The value `cmd_scan_bool` reads from a token: "on"/"off" in any
      case, "1"/"0" exactly, nothing otherwise. */
  function BoolToken(token: string): Option<bool>
  {
    if CaseEq(token, "on") then Some(true)
    else if CaseEq(token, "off") then Some(false)
    else if token == "1" then Some(true)
    else if token == "0" then Some(false)
    else None
  }

  /** `cmd_scan_bool`: the setter runs only on an accepted token; a
      rejected token leaves the state as it was. */
  function ScanBool<D>(d: D, token: string, setter: (D, bool) -> (Status, D)): (r: (CmdResult, D))
    ensures r.0.Success() <==> BoolToken(token).Some? && setter(d, BoolToken(token).value).0 == Ok
    ensures BoolToken(token).None? ==> r.1 == d && r.0 == CmdResult(0, Some(ALLOWED_BOOLS), 0)
    ensures BoolToken(token).Some? ==> r.1 == setter(d, BoolToken(token).value).1
    ensures !r.0.Success() ==> r.0.errorPos == 0
  {
    match BoolToken(token)
    case None => (CmdResult(0, Some(ALLOWED_BOOLS), 0), d)
    case Some(v) => SetterOutcome(setter(d, v))
  }

  /** `tolower(c) == x` for a lower-case letter `x` holds for exactly
      `x` and its upper-case form. */
  lemma LowerIs(c: char, x: char)
    requires 'a' <= x <= 'z'
    ensures Lower(c) == x <==> c == x || c as int == x as int - 32
  {
  }

  lemma CaseEqTwo(t: string, a: char, b: char)
    requires 'a' <= a <= 'z' && 'a' <= b <= 'z'
    ensures CaseEq(t, [a, b]) <==> |t| == 2 && (t[0] == a || t[0] as int == a as int - 32)
                                           && (t[1] == b || t[1] as int == b as int - 32)
  {
    if |t| == 2 {
      LowerIs(t[0], a);
      LowerIs(t[1], b);
      if Lower(t[0]) == a && Lower(t[1]) == b {
        assert LowerStr(t) == [a, b];
      }
      assert LowerStr(t)[0] == Lower(t[0]) && LowerStr(t)[1] == Lower(t[1]);
    }
  }

  lemma CaseEqThree(t: string, a: char, b: char, c: char)
    requires 'a' <= a <= 'z' && 'a' <= b <= 'z' && 'a' <= c <= 'z'
    ensures CaseEq(t, [a, b, c]) <==> |t| == 3 && (t[0] == a || t[0] as int == a as int - 32)
                                              && (t[1] == b || t[1] as int == b as int - 32)
                                              && (t[2] == c || t[2] as int == c as int - 32)
  {
    if |t| == 3 {
      LowerIs(t[0], a);
      LowerIs(t[1], b);
      LowerIs(t[2], c);
      if Lower(t[0]) == a && Lower(t[1]) == b && Lower(t[2]) == c {
        assert LowerStr(t) == [a, b, c];
      }
      assert LowerStr(t)[0] == Lower(t[0]) && LowerStr(t)[1] == Lower(t[1]);
      assert LowerStr(t)[2] == Lower(t[2]);
    }
  }

  /** The accepted tokens, listed: five spellings of true and ten of
      false, so "On" and "oFf" are accepted but "01", "true" and " 1"
      are not. */
  lemma BoolTokensListed(t: string)
    ensures BoolToken(t) == Some(true) <==> t in {"1", "on", "oN", "On", "ON"}
    ensures BoolToken(t) == Some(false)
      <==> t in {"0", "off", "ofF", "oFf", "oFF", "Off", "OfF", "OFf", "OFF"}
  {
    CaseEqTwo(t, 'o', 'n');
    CaseEqThree(t, 'o', 'f', 'f');
    if |t| == 2 {
      assert t == [t[0], t[1]];
    } else if |t| == 3 {
      assert t == [t[0], t[1], t[2]];
    }
  }

  /** `cmd_print_bool`: one character, '1' or '0', when there is room. */
  function PrintBool<D>(d: D, count: nat, getter: D -> bool): (r: PrintOut)
    ensures count < 1 ==> r.wrote == OUT_OF_BUFFER && r.text == ""
    ensures count >= 1 ==> r.wrote == 1 && |r.text| == 1 && BoolToken(r.text) == Some(getter(d))
  {
    if count < 1 then PrintOut(OUT_OF_BUFFER, "")
    else PrintOut(1, if getter(d) then "1" else "0")
  }

  /** What the boolean printer writes, the boolean scanner reads back:
      the setter receives the value the getter reported. */
  lemma BoolRoundTrip<D>(d: D, count: nat, getter: D -> bool, e: D, setter: (D, bool) -> (Status, D))
    requires count >= 1
    ensures ScanBool(e, PrintBool(d, count, getter).text, setter) == SetterOutcome(setter(e, getter(d)))
  {
  }

  lemma PrintBoolKeepsContract<D(!new)>(getter: D -> bool)
    ensures PrinterContract((d: D, count: nat) => PrintBool(d, count, getter))
  {
  }

  // ---------------------------------------------------------------
  // Integers

  /** C `isspace`. */
  predicate IsSpace(c: char)
  {
    c == ' ' || c == '\t' || c == '\n' || c == 11 as char || c == 12 as char || c == '\r'
  }

  /** Value of a digit character in bases up to 16; 16 for anything else. */
  function DigitValue(c: char): (v: nat)
    ensures v <= 16
    ensures IsDigit(c) ==> v == c as int - '0' as int
  {
    if '0' <= c <= '9' then c as int - '0' as int
    else if 'a' <= c <= 'f' then c as int - 'a' as int + 10
    else if 'A' <= c <= 'F' then c as int - 'A' as int + 10
    else 16
  }

  predicate IsDigitIn(c: char, base: nat)
  {
    DigitValue(c) < base
  }

  /** Length of the run of leading white space. */
  function SpaceRun(s: string): (n: nat)
    ensures n <= |s|
    ensures forall i :: 0 <= i < n ==> IsSpace(s[i])
    ensures n < |s| ==> !IsSpace(s[n])
  {
    if |s| == 0 || !IsSpace(s[0]) then 0 else 1 + SpaceRun(s[1..])
  }

  /** Length of the run of leading digits of the base. */
  function DigitRun(s: string, base: nat): (n: nat)
    ensures n <= |s|
    ensures forall i :: 0 <= i < n ==> IsDigitIn(s[i], base)
    ensures n < |s| ==> !IsDigitIn(s[n], base)
  {
    if |s| == 0 || !IsDigitIn(s[0], base) then 0 else 1 + DigitRun(s[1..], base)
  }

  /** Positional value of a digit string, most significant digit first. */
  function ValueOf(s: string, base: nat): nat
    decreases |s|
  {
    if |s| == 0 then 0 else ValueOf(s[..|s| - 1], base) * base + DigitValue(s[|s| - 1])
  }

  datatype Scanned = Scanned(value: int, read: nat)

  /** Whether `u` starts with the hexadecimal prefix "0x" or "0X". */
  predicate HexPrefix(u: string)
  {
    |u| >= 2 && u[0] == '0' && (u[1] == 'x' || u[1] == 'X')
  }

  /** The unsigned part of `%i`: a hexadecimal number after "0x"/"0X",
      an octal one after a leading "0", a decimal one otherwise. As in
      avr-libc's `conv_int`, the prefix is taken even when no hexadecimal
      digit follows it: the number is then 0 and both characters are read. */
  function ScanMagnitude(u: string): (r: Option<Scanned>)
    ensures r.Some? ==> 0 < r.value.read <= |u| && r.value.value >= 0
    ensures r.None? <==> |u| == 0 || !IsDigit(u[0])
    ensures HexPrefix(u) ==> r.Some? && r.value.read >= 2
    ensures HexPrefix(u) && r.Some? ==> forall i :: 2 <= i < r.value.read ==> IsDigitIn(u[i], 16)
    ensures HexPrefix(u) && r.Some? && r.value.read < |u| ==> !IsDigitIn(u[r.value.read], 16)
  {
    if HexPrefix(u) then
      var n := DigitRun(u[2..], 16);
      Some(Scanned(ValueOf(u[2..2 + n], 16), 2 + n))
    else
      var base := if |u| > 0 && u[0] == '0' then 8 else 10;
      var n := DigitRun(u, base);
      if n == 0 then None else Some(Scanned(ValueOf(u[..n], base), n))
  }

  /** `sscanf(s, "%i%n", ...)`: white space, an optional sign, then the
      magnitude. `read` counts every character taken; no result means no
      conversion, and then `%n` is never stored. */
  function ScanI(s: string): (r: Option<Scanned>)
    ensures r.Some? ==> 0 < r.value.read <= |s|
  {
    var w := SpaceRun(s);
    var t := s[w..];
    var k := if |t| > 0 && (t[0] == '-' || t[0] == '+') then 1 else 0;
    match ScanMagnitude(t[k..])
    case None => None
    case Some(m) =>
      var v := if k == 1 && t[0] == '-' then -m.value else m.value;
      Some(Scanned(v, w + k + m.read))
  }

  /** Whether `%i%n` converted exactly one number that ends the token. */
  predicate WholeNumber(token: string)
  {
    ScanI(token).Some? && ScanI(token).value.read == |token|
  }

  /** `cmd_scan_int16` and `cmd_scan_int32`, which differ only in the
      width `narrow` truncates to. */
  function ScanInt<D>(d: D, token: string, narrow: int -> int, setter: (D, int) -> (Status, D)): (r: (CmdResult, D))
    ensures r.0.Success() <==> WholeNumber(token) && setter(d, narrow(ScanI(token).value.value)).0 == Ok
    ensures !WholeNumber(token) ==> r.1 == d && r.0.errorMsg == Some(NOT_A_DIGIT) && r.0.arg == 0
    ensures !WholeNumber(token) ==> r.0.errorPos == Buflen(if ScanI(token).Some? then ScanI(token).value.read else 0)
    ensures WholeNumber(token) ==> r.1 == setter(d, narrow(ScanI(token).value.value)).1
  {
    var sc := ScanI(token);
    var read := if sc.Some? then sc.value.read else 0;
    if sc.None? || read != |token| then (CmdResult(Buflen(read), Some(NOT_A_DIGIT), 0), d)
    else SetterOutcome(setter(d, narrow(sc.value.value)))
  }

  function ScanInt16<D>(d: D, token: string, setter: (D, int) -> (Status, D)): (r: (CmdResult, D))
    ensures r.0.Success() <==> WholeNumber(token) && setter(d, Int16(ScanI(token).value.value)).0 == Ok
    ensures !WholeNumber(token) ==> r.1 == d && r.0.errorMsg == Some(NOT_A_DIGIT)
  {
    ScanInt(d, token, Int16, setter)
  }

  function ScanInt32<D>(d: D, token: string, setter: (D, int) -> (Status, D)): (r: (CmdResult, D))
    ensures r.0.Success() <==> WholeNumber(token) && setter(d, Int32(ScanI(token).value.value)).0 == Ok
    ensures !WholeNumber(token) ==> r.1 == d && r.0.errorMsg == Some(NOT_A_DIGIT)
  {
    ScanInt(d, token, Int32, setter)
  }

  /** `snprintf(buf, count, "%d", v)`: the full length of the numeral,
      truncated to `buflen_t`, and as much of it as fits before the NUL. */
  function PrintInt<D>(d: D, count: nat, getter: D -> int): (r: PrintOut)
    ensures r.wrote < 256
    ensures r.text <= Decimal(getter(d))
    ensures |Decimal(getter(d))| < 256 ==> r.wrote == |Decimal(getter(d))|
    ensures |Decimal(getter(d))| < count ==> r.text == Decimal(getter(d))
    ensures count > 0 ==> |r.text| == if |Decimal(getter(d))| < count then |Decimal(getter(d))| else count - 1
  {
    var s := Decimal(getter(d));
    PrintOut(Buflen(|s|), if count == 0 then "" else Take(s, count - 1))
  }

  lemma PrintIntKeepsContract<D(!new)>(getter: D -> int)
    requires forall d :: -0x8000_0000 <= getter(d) < 0x8000_0000
    ensures PrinterContract((d: D, count: nat) => PrintInt(d, count, getter))
  {
    forall d, count: nat
      ensures PrintInt(d, count, getter).wrote < count ==> |PrintInt(d, count, getter).text| == PrintInt(d, count, getter).wrote
    {
      DecimalLength32(getter(d));
      DecimalHasNoNul(getter(d));
    }
  }

  /** A 32-bit value prints in at most 11 characters. */
  lemma DecimalLength32(v: int)
    requires -0x8000_0000 <= v < 0x8000_0000
    ensures |Decimal(v)| <= 11
  {
    if v < 0 {
      DigitsLength(-v, 10);
    } else {
      DigitsLength(v, 10);
    }
  }

  lemma {:induction false} DigitsLength(n: nat, k: nat)
    requires n < Pow10(k)
    ensures |Digits(n)| <= if k == 0 then 1 else k
    decreases k
  {
    if n >= 10 {
      assert k > 1;
      DigitsLength(n / 10, k - 1);
    }
  }

  function Pow10(k: nat): (r: nat)
    ensures r >= 1
  {
    if k == 0 then 1 else 10 * Pow10(k - 1)
  }

  /** Every character of a numeral is a decimal digit. */
  lemma AllDigitsRun(s: string, base: nat)
    requires base >= 10
    requires forall i :: 0 <= i < |s| ==> IsDigit(s[i])
    ensures DigitRun(s, base) == |s|
  {
  }

  /** Reading back the digits of `n` in base 10 gives `n`. */
  lemma {:induction false} ValueOfDigits(n: nat)
    ensures ValueOf(Digits(n), 10) == n
    decreases n
  {
    var s := Digits(n);
    if n >= 10 {
      ValueOfDigits(n / 10);
      assert s[..|s| - 1] == Digits(n / 10);
    }
  }

  /** The digits of `n` read back as a whole decimal (or, for "0",
      octal) number of value `n`. */
  lemma MagnitudeOfDigits(n: nat)
    ensures ScanMagnitude(Digits(n)) == Some(Scanned(n, |Digits(n)|))
  {
    var ds := Digits(n);
    ValueOfDigits(n);
    if n == 0 {
      assert ds == "0";
      assert ds[0..] == ds;
      assert DigitRun(ds, 8) == 1;
      assert ds[0..1] == ds;
      assert ValueOf("0", 8) == 0 by {
        assert "0"[..0] == "";
      }
    } else {
      assert ds[0..] == ds;
      AllDigitsRun(ds, 10);
      assert ds[0..|ds|] == ds;
    }
  }

  /** `%i` reads back what `%d` prints: the whole numeral, and its value. */
  lemma DecimalScansBack(v: int)
    ensures ScanI(Decimal(v)) == Some(Scanned(v, |Decimal(v)|))
  {
    if v < 0 {
      NegativeScansBack(v);
    } else {
      var s := Decimal(v);
      assert SpaceRun(s) == 0;
      assert s[0..] == s == Digits(v);
      MagnitudeOfDigits(v);
    }
  }

  lemma NegativeScansBack(v: int)
    requires v < 0
    ensures ScanI(Decimal(v)) == Some(Scanned(v, |Decimal(v)|))
  {
    var s := Decimal(v);
    assert SpaceRun(s) == 0;
    assert s[0..] == s;
    assert s[1..] == Digits(-v);
    MagnitudeOfDigits(-v);
  }

  /** What the 16-bit printer writes, the 16-bit scanner reads back: the
      setter receives exactly the value the getter reported. */
  lemma Int16RoundTrip<D>(d: D, count: nat, getter: D -> int, e: D, setter: (D, int) -> (Status, D))
    requires -0x8000 <= getter(d) < 0x8000
    requires |Decimal(getter(d))| < count
    ensures ScanInt16(e, PrintInt(d, count, getter).text, setter) == SetterOutcome(setter(e, getter(d)))
  {
    DecimalScansBack(getter(d));
    Int16Id(getter(d));
  }

  /** The same round trip for the 32-bit printer and scanner. */
  lemma Int32RoundTrip<D>(d: D, count: nat, getter: D -> int, e: D, setter: (D, int) -> (Status, D))
    requires -0x8000_0000 <= getter(d) < 0x8000_0000
    requires |Decimal(getter(d))| < count
    ensures ScanInt32(e, PrintInt(d, count, getter).text, setter) == SetterOutcome(setter(e, getter(d)))
  {
    DecimalScansBack(getter(d));
    Int32Id(getter(d));
  }

  /** Without white space or sign in front, `%i` reads the magnitude. */
  lemma ScanIUnsigned(s: string)
    requires |s| > 0 && IsDigit(s[0])
    ensures ScanI(s) == ScanMagnitude(s)
  {
    assert SpaceRun(s) == 0;
    assert s[0..] == s;
  }

  lemma HexDigits()
    ensures DigitRun("1F", 16) == 2 && ValueOf("1F", 16) == 31
  {
    assert IsDigitIn('F', 16) && IsDigitIn('1', 16);
    assert DigitRun("", 16) == 0;
    assert "F"[1..] == "" && DigitRun("F", 16) == 1;
    assert "1F"[1..] == "F" && DigitRun("1F", 16) == 2;
    assert DigitValue('1') == 1 && DigitValue('F') == 15;
    assert "1"[..0] == "" && ValueOf("1", 16) == 1;
    assert "1F"[..1] == "1" && ValueOf("1F", 16) == 31;
  }

  /** `%i` reads a "0x" prefix as hexadecimal. */
  lemma ScanHexExample()
    ensures ScanI("0x1F") == Some(Scanned(31, 4))
  {
    ScanIUnsigned("0x1F");
    HexMagnitude();
  }

  lemma HexMagnitude()
    ensures ScanMagnitude("0x1F") == Some(Scanned(31, 4))
  {
    var s := "0x1F";
    HexDigits();
    assert s[2..] == "1F" && s[2..4] == "1F";
    assert IsDigitIn(s[2], 16);
  }

  /** A bare "0x" is a whole number: `%i` stores 0 and reads both
      characters. */
  lemma BarePrefixExample<D>(d: D, setter: (D, int) -> (Status, D))
    ensures ScanMagnitude("0x") == Some(Scanned(0, 2))
    ensures ScanI("0x") == Some(Scanned(0, 2)) && WholeNumber("0x")
    ensures ScanInt16(d, "0x", setter) == SetterOutcome(setter(d, 0))
  {
    var s := "0x";
    assert HexPrefix(s) && s[2..] == "" && s[2..2] == "";
    assert DigitRun("", 16) == 0;
    ScanIUnsigned(s);
    Int16Id(0);
  }

  /** After "0x" a letter beyond 'f' stops the number at offset 2. */
  lemma BarePrefixStopsExample<D>(d: D, setter: (D, int) -> (Status, D))
    ensures ScanI("0xg") == Some(Scanned(0, 2))
    ensures ScanInt16(d, "0xg", setter) == (CmdResult(2, Some(NOT_A_DIGIT), 0), d)
  {
    var s := "0xg";
    assert HexPrefix(s) && s[2..] == "g" && s[2..2] == "";
    assert !IsDigitIn('g', 16) && DigitRun("g", 16) == 0;
    ScanIUnsigned(s);
  }

  lemma OctalDigits()
    ensures DigitRun("017", 8) == 3 && ValueOf("017", 8) == 15
  {
    assert IsDigitIn('0', 8) && IsDigitIn('1', 8) && IsDigitIn('7', 8);
    assert DigitRun("", 8) == 0;
    assert "7"[1..] == "" && DigitRun("7", 8) == 1;
    assert "17"[1..] == "7" && DigitRun("17", 8) == 2;
    assert "017"[1..] == "17" && DigitRun("017", 8) == 3;
    assert DigitValue('0') == 0 && DigitValue('1') == 1 && DigitValue('7') == 7;
    assert "0"[..0] == "" && ValueOf("0", 8) == 0;
    assert "01"[..1] == "0" && ValueOf("01", 8) == 1;
    assert "017"[..2] == "01" && ValueOf("017", 8) == 15;
  }

  /** `%i` reads a leading "0" as octal, after the sign. */
  lemma ScanOctalExample()
    ensures ScanI("-017") == Some(Scanned(-15, 4))
  {
    var s := "-017";
    OctalDigits();
    assert SpaceRun(s) == 0;
    assert s[0..] == s;
    assert s[1..] == "017";
    assert "017"[0..] == "017" && "017"[0..3] == "017";
    assert ScanMagnitude("017") == Some(Scanned(15, 3));
  }

  /** A trailing letter stops the number; the integer scanners then
      report "Not a digit" at the letter's position. */
  lemma ScanTrailingExample<D>(d: D, setter: (D, int) -> (Status, D))
    ensures ScanI("12a") == Some(Scanned(12, 2))
    ensures ScanInt16(d, "12a", setter) == (CmdResult(2, Some(NOT_A_DIGIT), 0), d)
  {
    ScanIUnsigned("12a");
    TrailingMagnitude();
  }

  lemma TrailingMagnitude()
    ensures ScanMagnitude("12a") == Some(Scanned(12, 2))
  {
    var s := "12a";
    assert s[0..] == s;
    assert !IsDigitIn('a', 10) && IsDigitIn('1', 10) && IsDigitIn('2', 10);
    assert DigitRun("a", 10) == 0;
    assert "2a"[1..] == "a" && DigitRun("2a", 10) == 1;
    assert s[1..] == "2a" && DigitRun(s, 10) == 2;
    assert s[0..2] == "12";
    assert "1"[..0] == "" && ValueOf("1", 10) == 1;
    assert "12"[..1] == "1" && ValueOf("12", 10) == 12;
  }

  /** `cmd_print_pong`: "PONG" when four characters fit. */
  function PrintPong(count: nat): (r: PrintOut)
    ensures count < 4 <==> r.wrote == OUT_OF_BUFFER
    ensures count >= 4 ==> r.wrote == |r.text| == 4 && r.text == "PONG"
  {
    if count < 4 then PrintOut(OUT_OF_BUFFER, "") else PrintOut(4, "PONG")
  }

  lemma PrintPongKeepsContract<D(!new)>()
    ensures PrinterContract((d: D, count: nat) => PrintPong(count))
  {
  }
}

=== FILE: crc16.dfy ===
/** CRC-16/MODBUS as computed byte by byte by avr-libc `_crc16_update`:
    initial value 0xFFFF, reflected polynomial 0xA001, no final xor
    (section 2.5.1.2 and Appendix B of the Modbus over Serial Line
    Specification V1.02). The 16-bit register is a sequence of bits,
    least significant first, so shifts and exclusive-or are sequence
    operations. */
module Crc16 {
  import opened Base

  /** The register: bit `i` is the coefficient of 2^i. */
  type Reg = r: seq<bool> | |r| == 16 witness [false, false, false, false, false, false, false, false,
           false, false, false, false, false, false, false, false]

  function Pow2(n: nat): (r: nat)
    ensures r >= 1
  {
    if n == 0 then 1 else 2 * Pow2(n - 1)
  }

  lemma Pow2Sixteen()
    ensures Pow2(8) == 256 && Pow2(16) == 0x1_0000
  {
    assert Pow2(4) == 16;
    assert Pow2(12) == 4096;
  }

  /** The low `n` bits of `x`, least significant first. */
  function NatBits(x: nat, n: nat): (r: seq<bool>)
    ensures |r| == n
    decreases n
  {
    if n == 0 then [] else [x % 2 == 1] + NatBits(x / 2, n - 1)
  }

  /** The number a bit sequence denotes. */
  function Value(r: seq<bool>): nat
    decreases |r|
  {
    if |r| == 0 then 0 else (if r[0] then 1 else 0) + 2 * Value(r[1..])
  }

  lemma {:induction false} ValueBound(r: seq<bool>)
    ensures Value(r) < Pow2(|r|)
    decreases |r|
  {
    if |r| > 0 {
      ValueBound(r[1..]);
    }
  }

  /** Bits and numbers correspond one to one below 2^n. */
  lemma {:induction false} ValueOfNatBits(x: nat, n: nat)
    requires x < Pow2(n)
    ensures Value(NatBits(x, n)) == x
    decreases n
  {
    if n > 0 {
      var r := NatBits(x, n);
      assert r[1..] == NatBits(x / 2, n - 1);
      ValueOfNatBits(x / 2, n - 1);
    }
  }

  lemma {:induction false} ValueInjective(a: seq<bool>, b: seq<bool>)
    requires |a| == |b| && Value(a) == Value(b)
    ensures a == b
    decreases |a|
  {
    if |a| > 0 {
      ValueInjective(a[1..], b[1..]);
      assert a == [a[0]] + a[1..] && b == [b[0]] + b[1..];
    }
  }

  const INIT: Reg := NatBits(0xFFFF, 16)
  const POLY: Reg := NatBits(0xA001, 16)

  /** A number with its top bit set has the top bit of its sequence set. */
  lemma {:induction false} NatBitsTop(x: nat, n: nat)
    requires n >= 1 && Pow2(n - 1) <= x < Pow2(n)
    ensures NatBits(x, n)[n - 1]
    decreases n
  {
    if n > 1 {
      NatBitsTop(x / 2, n - 1);
    }
  }

  /** Bitwise exclusive-or of two registers. */
  function Xor(a: Reg, b: Reg): (r: Reg)
    ensures forall i :: 0 <= i < 16 ==> r[i] == (a[i] != b[i])
  {
    seq(16, i requires 0 <= i < 16 => a[i] != b[i])
  }

  /** A byte widened to the register: its bits, then eight zeros. */
  function Widen(b: byte): Reg
  {
    NatBits(b, 16)
  }

  /** One shift of the reflected register: drop bit 0, shift in a zero at
      the top, and apply the polynomial when the dropped bit was set. */
  function Shift(c: Reg): Reg
  {
    var d := c[1..] + [false];
    if c[0] then Xor(d, POLY) else d
  }

  /** `n` shifts in a row. */
  function Shifts(c: Reg, n: nat): Reg
    decreases n
  {
    if n == 0 then c else Shifts(Shift(c), n - 1)
  }

  /** `_crc16_update(crc, b)`: fold one byte into the register. */
  function Update(crc: Reg, b: byte): Reg
  {
    Shifts(Xor(crc, Widen(b)), 8)
  }

  /** The register after feeding `s` starting from `c`. */
  function CrcFrom(c: Reg, s: seq<byte>): Reg
    decreases |s|
  {
    if |s| == 0 then c else CrcFrom(Update(c, s[0]), s[1..])
  }

  /** CRC-16/MODBUS of a byte sequence, as a number. */
  function Crc(s: seq<byte>): (r: nat)
    ensures r < 0x1_0000
  {
    ValueBound(CrcFrom(INIT, s));
    Pow2Sixteen();
    Value(CrcFrom(INIT, s))
  }

  /** The register starts at 0xFFFF and the polynomial is 0xA001. */
  lemma Constants()
    ensures Value(INIT) == 0xFFFF && Value(POLY) == 0xA001
    ensures POLY[15]
  {
    Pow2Sixteen();
    assert Pow2(15) == 0x8000;
    ValueOfNatBits(0xFFFF, 16);
    ValueOfNatBits(0xA001, 16);
    NatBitsTop(0xA001, 16);
  }

  lemma {:induction false} CrcFromAppend(c: Reg, p: seq<byte>, q: seq<byte>)
    ensures CrcFrom(c, p + q) == CrcFrom(CrcFrom(c, p), q)
    decreases |p|
  {
    if |p| == 0 {
      assert p + q == q;
    } else {
      assert (p + q)[0] == p[0];
      assert (p + q)[1..] == p[1..] + q;
      CrcFromAppend(Update(c, p[0]), p[1..], q);
    }
  }

  /** Feeding one more byte is one more update. */
  lemma CrcFromSnoc(c: Reg, p: seq<byte>, b: byte)
    ensures CrcFrom(c, p + [b]) == Update(CrcFrom(c, p), b)
  {
    CrcFromAppend(c, p, [b]);
    var r := CrcFrom(c, p);
    assert CrcFrom(r, [b]) == CrcFrom(Update(r, b), []);
  }

  /** `modbus_crc`: the loop over the first `len` bytes computes the CRC
      of exactly that prefix. */
  method ModbusCrc(buf: seq<byte>, len: nat) returns (crc: nat)
    requires len <= |buf|
    ensures crc == Crc(buf[..len])
  {
    var reg := INIT;
    var i := 0;
    assert buf[..0] == [];
    while i < len
      invariant i <= len
      invariant reg == CrcFrom(INIT, buf[..i])
    {
      PrefixSnoc(buf, i);
      CrcFromSnoc(INIT, buf[..i], buf[i]);
      reg := Update(reg, buf[i]);
      i := i + 1;
    }
    crc := Value(reg);
  }

  /** Xor with a fixed mask loses nothing. */
  lemma XorInjective(a: Reg, b: Reg, m: Reg)
    requires Xor(a, m) == Xor(b, m)
    ensures a == b
  {
    forall i | 0 <= i < 16 ensures a[i] == b[i] {
      assert Xor(a, m)[i] == Xor(b, m)[i];
    }
  }

  /** Xor with a fixed value tells the masks apart. */
  lemma XorMaskInjective(c: Reg, m1: Reg, m2: Reg)
    requires Xor(c, m1) == Xor(c, m2)
    ensures m1 == m2
  {
    forall i | 0 <= i < 16 ensures m1[i] == m2[i] {
      assert Xor(c, m1)[i] == Xor(c, m2)[i];
    }
  }

  /** The shifted-out bit reappears as the top bit of the result, because
      the polynomial has its top bit set and the shift brings in a zero. */
  lemma ShiftTop(x: Reg)
    ensures Shift(x)[15] == x[0]
  {
    Constants();
  }

  /** A shift loses nothing: the top bit of the result tells whether the
      polynomial was applied, and the polynomial can be taken off again. */
  lemma ShiftInjective(x: Reg, y: Reg)
    requires Shift(x) == Shift(y)
    ensures x == y
  {
    ShiftTop(x);
    ShiftTop(y);
    var dx, dy := x[1..] + [false], y[1..] + [false];
    if x[0] {
      XorInjective(dx, dy, POLY);
    }
    assert x == [x[0]] + dx[..15] && y == [y[0]] + dy[..15];
  }

  /** A run of shifts loses nothing. */
  lemma {:induction false} ShiftsInjective(x: Reg, y: Reg, n: nat)
    requires Shifts(x, n) == Shifts(y, n)
    ensures x == y
    decreases n
  {
    if n > 0 {
      ShiftsInjective(Shift(x), Shift(y), n - 1);
      ShiftInjective(x, y);
    }
  }

  /** Distinct bytes widen to distinct registers. */
  lemma WidenInjective(a: byte, b: byte)
    ensures Widen(a) == Widen(b) ==> a == b
  {
    Pow2Sixteen();
    ValueOfNatBits(a, 16);
    ValueOfNatBits(b, 16);
  }

  /** The register update loses nothing: with the same register,
      different bytes give different results, and with the same byte,
      different registers do. */
  lemma UpdateInjective(c1: Reg, b1: byte, c2: Reg, b2: byte)
    requires Update(c1, b1) == Update(c2, b2)
    ensures c1 == c2 ==> b1 == b2
    ensures b1 == b2 ==> c1 == c2
  {
    var x1, x2 := Xor(c1, Widen(b1)), Xor(c2, Widen(b2));
    ShiftsInjective(x1, x2, 8);
    if c1 == c2 {
      XorMaskInjective(c1, Widen(b1), Widen(b2));
      WidenInjective(b1, b2);
    }
    if b1 == b2 {
      assert forall i :: 0 <= i < 16 ==> c1[i] == c2[i] by {
        forall i | 0 <= i < 16 ensures c1[i] == c2[i] {
          assert x1[i] == x2[i];
        }
      }
    }
  }

  lemma {:induction false} CrcFromInjective(c1: Reg, c2: Reg, q: seq<byte>)
    requires CrcFrom(c1, q) == CrcFrom(c2, q)
    ensures c1 == c2
    decreases |q|
  {
    if |q| > 0 {
      CrcFromInjective(Update(c1, q[0]), Update(c2, q[0]), q[1..]);
      UpdateInjective(c1, q[0], c2, q[0]);
    }
  }

  /** Feeding `p`, then `b`, then `q`. */
  lemma CrcFromSplit(c: Reg, p: seq<byte>, b: byte, q: seq<byte>)
    ensures CrcFrom(c, p + [b] + q) == CrcFrom(Update(CrcFrom(c, p), b), q)
  {
    CrcFromAppend(c, p + [b], q);
    CrcFromSnoc(c, p, b);
  }

  /** Altering one byte of the input alters the register. */
  lemma RegisterSeesByteError(s: seq<byte>, i: nat, x: byte)
    requires i < |s| && x != s[i]
    ensures CrcFrom(INIT, s[i := x]) != CrcFrom(INIT, s)
  {
    var p, q := s[..i], s[i + 1..];
    assert s == p + [s[i]] + q;
    assert s[i := x] == p + [x] + q;
    var r := CrcFrom(INIT, p);
    CrcFromSplit(INIT, p, s[i], q);
    CrcFromSplit(INIT, p, x, q);
    if CrcFrom(Update(r, x), q) == CrcFrom(Update(r, s[i]), q) {
      CrcFromInjective(Update(r, x), Update(r, s[i]), q);
      UpdateInjective(r, x, r, s[i]);
    }
  }

  /** Every error confined to one byte, in particular every single-bit
      error, changes the CRC. */
  lemma SingleByteErrorDetected(s: seq<byte>, i: nat, x: byte)
    requires i < |s| && x != s[i]
    ensures Crc(s[i := x]) != Crc(s)
  {
    RegisterSeesByteError(s, i, x);
    if Crc(s[i := x]) == Crc(s) {
      ValueInjective(CrcFrom(INIT, s[i := x]), CrcFrom(INIT, s));
    }
  }

  /** A frame whose last two bytes are the little-endian CRC of the rest. */
  predicate CrcValid(f: seq<byte>)
  {
    |f| >= 2 && Crc(f[..|f| - 2]) == Le16(f[|f| - 2], f[|f| - 1])
  }

  /** Appending the CRC low byte first makes a frame pass the check. */
  lemma AppendCrcValid(body: seq<byte>)
    ensures CrcValid(body + [LowByte(Crc(body)), HighByte(Crc(body))])
  {
    var c := Crc(body);
    var f := body + [LowByte(c), HighByte(c)];
    assert f[..|f| - 2] == body;
    assert f[|f| - 2] == LowByte(c) && f[|f| - 1] == HighByte(c);
    Le16OfBytes(c);
  }

  /** A frame fails the check when its CRC field differs from the CRC of
      its checked region. */
  lemma FieldMismatch(g: seq<byte>, body: seq<byte>, field: nat)
    requires |g| >= 2 && g[..|g| - 2] == body
    requires field == Le16(g[|g| - 2], g[|g| - 1]) && Crc(body) != field
    ensures !CrcValid(g)
  {
  }

  /** A valid frame with one byte of its checked region altered fails
      the check. */
  lemma CorruptedFrameRejected(f: seq<byte>, i: nat, x: byte)
    requires CrcValid(f) && i < |f| - 2 && x != f[i]
    ensures !CrcValid(f[i := x])
  {
    var body := f[..|f| - 2];
    PrefixUpdate(f, i, x, |f| - 2);
    SingleByteErrorDetected(body, i, x);
    FieldMismatch(f[i := x], body[i := x], Le16(f[|f| - 2], f[|f| - 1]));
  }

  // ---------------------------------------------------------------
  // The arithmetic form of `_crc16_update`

  /** Bitwise exclusive-or of the low `n` bits of two numbers. */
  function XorNat(a: nat, b: nat, n: nat): (x: nat)
    ensures x < Pow2(n)
    decreases n
  {
    if n == 0 then 0
    else (if a % 2 != b % 2 then 1 else 0) + 2 * XorNat(a / 2, b / 2, n - 1)
  }

  /** One shift of the register held as a number: halve, and apply the
      polynomial when the bit shifted out was set. */
  function ShiftNat(x: nat): nat
  {
    if x % 2 == 1 then XorNat(x / 2, 0xA001, 16) else x / 2
  }

  function ShiftsNat(x: nat, n: nat): nat
    decreases n
  {
    if n == 0 then x else ShiftsNat(ShiftNat(x), n - 1)
  }

  /** The equivalent C code that avr-libc documents for `_crc16_update`:
      `crc ^= a`, then eight conditional shifts. */
  function UpdateNat(crc: nat, b: byte): nat
  {
    ShiftsNat(XorNat(crc, b, 16), 8)
  }

  /** The register after feeding `s` to the arithmetic update. */
  function CrcNatFrom(crc: nat, s: seq<byte>): nat
    decreases |s|
  {
    if |s| == 0 then crc else CrcNatFrom(UpdateNat(crc, s[0]), s[1..])
  }

  /** Bitwise exclusive-or of two bit sequences of equal length. */
  function XorBits(a: seq<bool>, b: seq<bool>): (r: seq<bool>)
    requires |a| == |b|
    ensures |r| == |a|
    decreases |a|
  {
    if |a| == 0 then [] else [a[0] != b[0]] + XorBits(a[1..], b[1..])
  }

  lemma {:induction false} XorBitsAt(a: seq<bool>, b: seq<bool>)
    requires |a| == |b|
    ensures forall i :: 0 <= i < |a| ==> XorBits(a, b)[i] == (a[i] != b[i])
    decreases |a|
  {
    if |a| > 0 {
      XorBitsAt(a[1..], b[1..]);
    }
  }

  lemma XorIsXorBits(x: Reg, y: Reg)
    ensures Xor(x, y) == XorBits(x, y)
  {
    XorBitsAt(x, y);
  }

  /** The bits of an exclusive-or are the exclusive-or of the bits. */
  lemma {:induction false} NatBitsXor(a: nat, b: nat, n: nat)
    ensures NatBits(XorNat(a, b, n), n) == XorBits(NatBits(a, n), NatBits(b, n))
    decreases n
  {
    if n > 0 {
      var lo := if a % 2 != b % 2 then 1 else 0;
      var rest := XorNat(a / 2, b / 2, n - 1);
      Halve(lo, rest);
      NatBitsXor(a / 2, b / 2, n - 1);
      var na, nb := NatBits(a, n), NatBits(b, n);
      assert na[1..] == NatBits(a / 2, n - 1) && nb[1..] == NatBits(b / 2, n - 1);
      assert XorBits(na, nb) == [na[0] != nb[0]] + XorBits(na[1..], nb[1..]);
    }
  }

  lemma Halve(lo: nat, rest: nat)
    requires lo < 2
    ensures (lo + 2 * rest) % 2 == lo && (lo + 2 * rest) / 2 == rest
  {
  }

  /** A number below 2^n has a zero bit n. */
  lemma {:induction false} NatBitsPad(y: nat, n: nat)
    requires y < Pow2(n)
    ensures NatBits(y, n + 1) == NatBits(y, n) + [false]
    decreases n
  {
    if n > 0 {
      NatBitsPad(y / 2, n - 1);
    }
  }

  lemma XorReg(a: nat, b: nat)
    ensures Xor(NatBits(a, 16), NatBits(b, 16)) == NatBits(XorNat(a, b, 16), 16)
  {
    NatBitsXor(a, b, 16);
    XorIsXorBits(NatBits(a, 16), NatBits(b, 16));
  }

  lemma ShiftReg(x: nat)
    requires x < 0x1_0000
    ensures ShiftNat(x) < 0x1_0000
    ensures Shift(NatBits(x, 16)) == NatBits(ShiftNat(x), 16)
  {
    Pow2Sixteen();
    assert Pow2(16) == 2 * Pow2(15);
    var c := NatBits(x, 16);
    assert c[1..] == NatBits(x / 2, 15);
    NatBitsPad(x / 2, 15);
    if x % 2 == 1 {
      XorReg(x / 2, 0xA001);
    }
  }

  lemma {:induction false} ShiftsReg(x: nat, n: nat)
    requires x < 0x1_0000
    ensures ShiftsNat(x, n) < 0x1_0000
    ensures Shifts(NatBits(x, 16), n) == NatBits(ShiftsNat(x, n), 16)
    decreases n
  {
    if n > 0 {
      ShiftReg(x);
      ShiftsReg(ShiftNat(x), n - 1);
    }
  }

  /** The bit-sequence update and the arithmetic one agree. */
  lemma UpdateReg(crc: nat, b: byte)
    requires crc < 0x1_0000
    ensures UpdateNat(crc, b) < 0x1_0000
    ensures Update(NatBits(crc, 16), b) == NatBits(UpdateNat(crc, b), 16)
  {
    Pow2Sixteen();
    XorReg(crc, b);
    ShiftsReg(XorNat(crc, b, 16), 8);
  }

  lemma {:induction false} CrcFromReg(crc: nat, s: seq<byte>)
    requires crc < 0x1_0000
    ensures CrcNatFrom(crc, s) < 0x1_0000
    ensures CrcFrom(NatBits(crc, 16), s) == NatBits(CrcNatFrom(crc, s), 16)
    decreases |s|
  {
    if |s| > 0 {
      UpdateReg(crc, s[0]);
      CrcFromReg(UpdateNat(crc, s[0]), s[1..]);
    }
  }

  /** The CRC of the bit-sequence register is the one the arithmetic loop
      computes from 0xFFFF, on every input. */
  lemma CrcIsArithmetic(s: seq<byte>)
    ensures Crc(s) == CrcNatFrom(0xFFFF, s)
  {
    CrcFromReg(0xFFFF, s);
    Pow2Sixteen();
    ValueOfNatBits(CrcNatFrom(0xFFFF, s), 16);
  }
}

=== FILE: juksautin.dfy ===
/** The fixed-point measurement arithmetic of avr/src/juksautin.c: the
    millivolt/raw conversions of the target voltage, the sample
    accumulators with their overflow-avoiding halving, the mean and
    duty-ratio readouts, the ADC channel schedule, and the ISR handlers
    that feed them. C integer widths are written out: `uint32_t`
    arithmetic reduces modulo 2^32, a `uint16_t` result modulo 2^16. */
module Juksautin {
  import opened Base
  import opened ModbusTypes

  /** 1.1 V reference over 1024 steps: one step is 275/256 mV. */
  const MV_MULT: nat := 275
  const MV_DIV: nat := 256

  const U16: nat := 0x1_0000
  const U32: nat := 0x1_0000_0000

  /** Largest 10-bit ADC sample. */
  const ADC_MAX: nat := 1023

  /** `accu_mv_sum_max`: headroom for `sum * MV_MULT` in 32 bits, less
      room for one more 10-bit sample. */
  const ACCU_MV_SUM_MAX: nat := (U32 - 1) / MV_MULT - 1024

  /** `accu_bool_sum_max`: headroom for `sum << 16` in 32 bits. */
  const ACCU_BOOL_SUM_MAX: nat := 65534

  lemma SumMaxValues()
    ensures ACCU_MV_SUM_MAX == 15617038
    ensures (ACCU_MV_SUM_MAX + ADC_MAX) * MV_MULT < U32
    ensures (ACCU_BOOL_SUM_MAX + 1) * U16 < U32
  {
  }

  // ---------------------------------------------------------------
  // Target voltage conversions

  /** The stored raw target for a millivolt value, as written: the
      rounding term is `MV_DIV / 2` although the divisor is `MV_MULT`. */
  function RawOfMillivoltsAsWritten(mv: nat): (raw: nat)
    requires mv < U16
    ensures raw <= 61007
    ensures raw * MV_MULT <= mv * MV_DIV + MV_DIV / 2 < raw * MV_MULT + MV_MULT
  {
    (mv * MV_DIV + MV_DIV / 2) / MV_MULT
  }

  /** The millivolt value of a raw target, as written: the rounding term
      is `MV_MULT / 2` although the divisor is `MV_DIV`, and the 32-bit
      quotient is returned as `uint16_t`. */
  function MillivoltsOfRawAsWritten(raw: nat): (mv: nat)
    requires raw < U16
    ensures mv < U16
    ensures raw <= 61007 ==> mv * MV_DIV <= raw * MV_MULT + MV_MULT / 2 < mv * MV_DIV + MV_DIV
  {
    ((raw * MV_MULT + MV_MULT / 2) / MV_DIV) % U16
  }

  /** Round-to-nearest conversion to a raw target: half the divisor added
      before dividing. */
  function RawOfMillivolts(mv: nat): (raw: nat)
    requires mv < U16
    ensures raw <= 61007
    ensures 2 * (raw * MV_MULT) <= 2 * (mv * MV_DIV) + MV_MULT
    ensures 2 * (mv * MV_DIV) < 2 * (raw * MV_MULT) + MV_MULT
  {
    (mv * MV_DIV + MV_MULT / 2) / MV_MULT
  }

  /** Round-to-nearest conversion back to millivolts, as a `uint16_t`. */
  function MillivoltsOfRaw(raw: nat): (mv: nat)
    requires raw < U16
    ensures mv < U16
    ensures raw <= 61007 ==> 2 * (mv * MV_DIV) <= 2 * (raw * MV_MULT) + MV_DIV
    ensures raw <= 61007 ==> 2 * (raw * MV_MULT) < 2 * (mv * MV_DIV) + MV_DIV
  {
    ((raw * MV_MULT + MV_DIV / 2) / MV_DIV) % U16
  }

  /** As written, `juksautin_set_target(7)` stores 6 although 7 raw steps
      (7.52 mV) are nearer to 7 mV than 6 steps (6.45 mV). */
  lemma SetRoundingAsWrittenIsNotNearest()
    ensures RawOfMillivoltsAsWritten(7) == 6 && RawOfMillivolts(7) == 7
    ensures 7 * MV_DIV - 6 * MV_MULT > 7 * MV_MULT - 7 * MV_DIV
  {
  }

  /** As written, `juksautin_get_target` reports 22 mV for 20 raw steps,
      which are 21.48 mV: nearer to 21. */
  lemma GetRoundingAsWrittenIsNotNearest()
    ensures MillivoltsOfRawAsWritten(20) == 22 && MillivoltsOfRaw(20) == 21
    ensures 22 * MV_DIV - 20 * MV_MULT > 20 * MV_MULT - 21 * MV_DIV
  {
  }

  /** Raw targets above 61007 make the as-written getter wrap: the true
      quotient is 65536 or more and only its low 16 bits are returned. */
  lemma GetWrapsAboveRange(raw: nat)
    requires 61008 <= raw < U16
    ensures MillivoltsOfRawAsWritten(raw) == (raw * MV_MULT + MV_MULT / 2) / MV_DIV - U16
  {
  }

  /** As written, setting a target and reading it back loses at most
      1 mV: the two misplaced rounding terms, 128/275 and 137/256 of a
      step, never add up to a whole millivolt either way. */
  lemma {:induction false} TargetRoundTripAsWritten(mv: nat)
    requires mv < U16
    ensures var back := MillivoltsOfRawAsWritten(RawOfMillivoltsAsWritten(mv));
      mv - 1 <= back <= mv + 1
  {
    var raw := RawOfMillivoltsAsWritten(mv);
    var back := MillivoltsOfRawAsWritten(raw);
    assert back * MV_DIV <= mv * MV_DIV + 265;
    assert mv * MV_DIV < back * MV_DIV + 394;
  }

  /** With round-to-nearest both ways the round trip also loses at most
      1 mV. */
  lemma {:induction false} TargetRoundTrip(mv: nat)
    requires mv < U16
    ensures var back := MillivoltsOfRaw(RawOfMillivolts(mv));
      mv - 1 <= back <= mv + 1
  {
    var raw := RawOfMillivolts(mv);
    var x := raw * MV_MULT + MV_DIV / 2;
    assert x < 256 * U16;
    var q := x / MV_DIV;
    assert q * MV_DIV <= x < q * MV_DIV + MV_DIV;
    assert MillivoltsOfRaw(raw) == q;
  }

  // ---------------------------------------------------------------
  // Accumulators

  /** `accu_t`: a 32-bit sample sum and a 16-bit sample count. */
  datatype Accu = Accu(sum: nat, count: nat)

  predicate Fits(a: Accu)
  {
    a.sum < U32 && a.count < U16
  }

  /** What `store` keeps true for samples of at most `vmax`: the sum is
      at most `max` whenever the count is even and at most `max + vmax`
      otherwise, and it never exceeds `vmax` per counted sample. */
  predicate Headroom(a: Accu, max: nat, vmax: nat)
  {
    && a.count < U16
    && a.sum <= max + vmax
    && (a.count % 2 == 0 ==> a.sum <= max)
    && a.sum <= a.count * vmax
  }

  /** `store`: add the sample; when the count wraps to zero halve the
      sum and restart the count at 2^15; when the count is even and the
      sum is above `max`, halve both. */
  function Store(a: Accu, val: nat, max: nat): (r: Accu)
    requires Fits(a) && val < U16
    ensures Fits(r)
    ensures r.count != 0
  {
    var sum := (a.sum + val) % U32;
    var count := (a.count + 1) % U16;
    if count == 0 then Accu(sum / 2, 0x8000)
    else if count % 2 == 0 && sum > max then Accu(sum / 2, count / 2)
    else Accu(sum, count)
  }

  lemma MulStep(c: nat, v: nat)
    ensures (c + 1) * v == c * v + v
  {
  }

  lemma HalfMul(h: nat, v: nat, s: nat)
    requires s <= (2 * h) * v
    ensures s / 2 <= h * v
  {
  }

  /** A halved sum that was at most `max + 2 * vmax`, stored with half
      of an even count, keeps the invariant. */
  lemma HalvedKeeps(s1: nat, c: nat, max: nat, vmax: nat)
    requires c < U16 && 2 * vmax <= max
    requires s1 <= max + 2 * vmax && s1 <= (2 * c) * vmax
    ensures Headroom(Accu(s1 / 2, c), max, vmax)
  {
    HalfMul(c, vmax, s1);
  }

  /** The sum and count `store` computes before any halving stay within
      32 bits and within `vmax` per sample. */
  lemma StoreSums(a: Accu, val: nat, max: nat, vmax: nat)
    requires Headroom(a, max, vmax) && val <= vmax && max + 2 * vmax < U32
    ensures (a.sum + val) % U32 == a.sum + val
    ensures a.sum + val <= (a.count + 1) * vmax
    ensures a.sum + val <= max + 2 * vmax
    ensures a.count % 2 == 0 ==> a.sum + val <= max + vmax
  {
    ModSmall(a.sum + val, U32);
    MulStep(a.count, vmax);
  }

  /** `store` keeps the headroom invariant, so the sum never wraps. */
  lemma StoreKeepsHeadroom(a: Accu, val: nat, max: nat, vmax: nat)
    requires Headroom(a, max, vmax) && val <= vmax
    requires vmax < U16 && 2 * vmax <= max && max + 2 * vmax < U32
    ensures Headroom(Store(a, val, max), max, vmax)
    ensures Store(a, val, max).sum <= max + vmax
  {
    StoreSums(a, val, max, vmax);
    if a.count + 1 == U16 {
      StoreWraps(a, val, max, vmax);
    } else {
      StoreCounts(a, val, max, vmax);
    }
  }

  /** The count wraps: the sum is halved and the count restarts at 2^15. */
  lemma StoreWraps(a: Accu, val: nat, max: nat, vmax: nat)
    requires Fits(a) && val < U16
    requires a.count + 1 == U16 && a.sum + val < U32 && 2 * vmax <= max
    requires a.sum + val <= (a.count + 1) * vmax && a.sum + val <= max + 2 * vmax
    ensures Headroom(Store(a, val, max), max, vmax)
    ensures Store(a, val, max).sum <= max + vmax
  {
    var s1 := a.sum + val;
    ModSmall(s1, U32);
    assert Store(a, val, max) == Accu(s1 / 2, 0x8000);
    HalvedKeeps(s1, 0x8000, max, vmax);
  }

  /** The count does not wrap: halve both on an even count with a sum
      above `max`, keep both otherwise. */
  lemma StoreCounts(a: Accu, val: nat, max: nat, vmax: nat)
    requires Fits(a) && val < U16
    requires a.count + 1 < U16 && a.sum + val < U32 && 2 * vmax <= max
    requires a.sum + val <= (a.count + 1) * vmax && a.sum + val <= max + 2 * vmax
    requires a.count % 2 == 0 ==> a.sum + val <= max + vmax
    ensures Headroom(Store(a, val, max), max, vmax)
    ensures Store(a, val, max).sum <= max + vmax
  {
    ModSmall(a.sum + val, U32);
    ModSmall(a.count + 1, U16);
    if (a.count + 1) % 2 == 0 && a.sum + val > max {
      StoreHalves(a, val, max, vmax);
    } else {
      StoreKeeps(a, val, max, vmax);
    }
  }

  lemma StoreHalves(a: Accu, val: nat, max: nat, vmax: nat)
    requires Fits(a) && val < U16
    requires (a.sum + val) % U32 == a.sum + val && (a.count + 1) % U16 == a.count + 1
    requires a.count + 1 < U16 && 2 * vmax <= max
    requires a.sum + val <= (a.count + 1) * vmax && a.sum + val <= max + 2 * vmax
    requires (a.count + 1) % 2 == 0 && a.sum + val > max
    ensures Headroom(Store(a, val, max), max, vmax)
    ensures Store(a, val, max).sum <= max + vmax
  {
    var s1 := a.sum + val;
    var c1 := a.count + 1;
    assert Store(a, val, max) == Accu(s1 / 2, c1 / 2);
    HalvedKeeps(s1, c1 / 2, max, vmax);
  }

  lemma StoreKeeps(a: Accu, val: nat, max: nat, vmax: nat)
    requires Fits(a) && val < U16
    requires (a.sum + val) % U32 == a.sum + val && (a.count + 1) % U16 == a.count + 1
    requires a.count + 1 < U16
    requires a.sum + val <= (a.count + 1) * vmax && a.sum + val <= max + 2 * vmax
    requires a.count % 2 == 0 ==> a.sum + val <= max + vmax
    requires !((a.count + 1) % 2 == 0 && a.sum + val > max)
    ensures Headroom(Store(a, val, max), max, vmax)
    ensures Store(a, val, max).sum <= max + vmax
  {
    assert Store(a, val, max) == Accu(a.sum + val, a.count + 1);
  }

  /** `take_accu`: the accumulator as it was, and an empty one in its
      place. */
  function TakeAccu(a: Accu): (r: (Accu, Accu))
    ensures r.0 == a
    ensures r.1.count == 0 && r.1.sum == 0
    ensures forall max: nat, vmax: nat :: Headroom(r.1, max, vmax)
  {
    (a, Accu(0, 0))
  }

  /** `to_millivolts`: mean sample times 275/256, in 32-bit arithmetic
      returned as `uint16_t`. The C code divides by the count
      unconditionally, so an empty accumulator is outside its domain. */
  function ToMillivolts(a: Accu): (mv: nat)
    requires Fits(a) && a.count > 0
    ensures mv < U16
  {
    ((a.sum * MV_MULT) % U32 / a.count / MV_DIV) % U16
  }

  /** Within the millivolt headroom `sum * 275` fits in 32 bits and is
      at most 275 * 1023 per sample. */
  lemma MillivoltProduct(a: Accu)
    requires Fits(a) && a.count > 0 && Headroom(a, ACCU_MV_SUM_MAX, ADC_MAX)
    ensures (a.sum * MV_MULT) % U32 == a.sum * MV_MULT
    ensures a.sum * MV_MULT / a.count <= ADC_MAX * MV_MULT
  {
    SumMaxValues();
    var x := a.sum * MV_MULT;
    assert x <= (ACCU_MV_SUM_MAX + ADC_MAX) * MV_MULT;
    ModSmall(x, U32);
    assert x <= a.count * (ADC_MAX * MV_MULT);
    DivLe(x, a.count, ADC_MAX * MV_MULT);
  }

  /** Within the headroom nothing wraps: the readout is the exact mean
      sample in millivolts, rounded down, and at most the full-scale
      1098 mV. */
  lemma MillivoltsExact(a: Accu)
    requires Fits(a) && a.count > 0 && Headroom(a, ACCU_MV_SUM_MAX, ADC_MAX)
    ensures ToMillivolts(a) == a.sum * MV_MULT / a.count / MV_DIV
    ensures ToMillivolts(a) <= 1098
  {
    MillivoltProduct(a);
    var q := a.sum * MV_MULT / a.count;
    assert q / MV_DIV <= 1098;
    ModSmall(q / MV_DIV, U16);
  }

  /** `to_ratio16`, as written: `(sum << 16) / count` returned as
      `uint16_t`. */
  function ToRatio16AsWritten(a: Accu): (r: nat)
    requires Fits(a) && a.count > 0
    ensures r < U16
  {
    ((a.sum * U16) % U32 / a.count) % U16
  }

  /** Within the headroom of the 0/1 accumulator the shift does not wrap
      and the quotient is at most 2^16, reached exactly at full duty. */
  lemma RatioQuotient(a: Accu)
    requires Fits(a) && a.count > 0 && Headroom(a, ACCU_BOOL_SUM_MAX, 1)
    ensures (a.sum * U16) % U32 == a.sum * U16
    ensures a.sum == a.count ==> a.sum * U16 / a.count == U16
    ensures a.sum < a.count ==> a.sum * U16 / a.count < U16
  {
    var x := a.sum * U16;
    assert x <= (ACCU_BOOL_SUM_MAX + 1) * U16;
    ModSmall(x, U32);
    if a.sum == a.count {
      DivExact(a.count, U16);
    } else {
      assert x < a.count * U16;
      DivUpper(x, a.count, U16);
    }
  }

  /** When every sample of the 0/1 accumulator was 1 the true ratio is
      exactly 2^16, which the 16-bit result turns into 0: full duty reads
      as no duty at all. */
  lemma FullDutyReadsZero(a: Accu)
    requires Fits(a) && a.count > 0 && a.sum == a.count
    ensures ToRatio16AsWritten(a) == 0
  {
    RatioQuotient(a);
  }

  /** `to_ratio16` with the intended saturation: the duty ratio scaled to
      the full 16-bit range, full duty reading as 0xFFFF. */
  function ToRatio16(a: Accu): (r: nat)
    requires Fits(a) && a.count > 0
    ensures r < U16
  {
    var q := (a.sum * U16) % U32 / a.count;
    if q >= U16 then U16 - 1 else q
  }

  /** The saturating readout is the duty ratio scaled to 2^16 below full
      duty and 0xFFFF at full duty; the as-written readout agrees with it
      except at full duty, where it reads 0. */
  lemma RatioReadouts(a: Accu)
    requires Fits(a) && a.count > 0 && Headroom(a, ACCU_BOOL_SUM_MAX, 1)
    ensures a.sum < a.count ==> ToRatio16(a) == a.sum * U16 / a.count == ToRatio16AsWritten(a)
    ensures a.sum == a.count ==> ToRatio16(a) == U16 - 1 && ToRatio16AsWritten(a) == 0
  {
    RatioQuotient(a);
    if a.sum < a.count {
      ModSmall(a.sum * U16 / a.count, U16);
    }
  }

  // ---------------------------------------------------------------
  // ISR state

  /** The measurement state of the ISRs: the five accumulators, the
      error maximum (`int16_t`), the target, whether the pump pulls down
      at the moment, and the position in the 16-step ADC cycle. */
  datatype State = State(
    k5Raw: Accu, intTemp: Accu, outsideTemp: Accu, accumulatorTemp: Accu,
    ratio: Accu, err: int, target: nat, juksautus: bool, cycle: nat)

  /** The state the ISRs keep: everything in its C width, the sample
      accumulators within their headroom for 10-bit samples and the 0/1
      accumulator within its headroom for 1-bit samples. */
  predicate Valid(s: State)
  {
    && Headroom(s.k5Raw, ACCU_MV_SUM_MAX, ADC_MAX)
    && Headroom(s.intTemp, ACCU_MV_SUM_MAX, ADC_MAX)
    && Headroom(s.outsideTemp, ACCU_MV_SUM_MAX, ADC_MAX)
    && Headroom(s.accumulatorTemp, ACCU_MV_SUM_MAX, ADC_MAX)
    && Headroom(s.ratio, ACCU_BOOL_SUM_MAX, 1)
    && -0x8000 <= s.err < 0x8000
    && s.target < U16
    && s.cycle < 16
  }

  /** `juksautin_set_target`, with the conversion as written: always OK,
      only the target changes, and it reads back within 1 mV. */
  function SetTarget(s: State, mv: nat): (r: (Status, State))
    requires mv < U16
    ensures r.0 == Ok
    ensures r.1 == s.(target := r.1.target) && r.1.target <= 61007
    ensures mv - 1 <= GetTarget(r.1) <= mv + 1
  {
    TargetRoundTripAsWritten(mv);
    (Ok, s.(target := RawOfMillivoltsAsWritten(mv)))
  }

  /** `juksautin_get_target`, with the conversion as written: for every
      target `SetTarget` can store, the readback is within a millivolt of
      the target's true value, raw × 275 / 256. */
  function GetTarget(s: State): (mv: nat)
    requires s.target < U16
    ensures mv < U16
    ensures s.target <= 61007 ==> s.target * MV_MULT < (mv + 1) * MV_DIV
    ensures s.target <= 61007 ==> (mv - 1) * MV_DIV < s.target * MV_MULT
  {
    MillivoltsOfRawAsWritten(s.target)
  }

  /** The channel the ADC samples at a cycle position: internal
      temperature, error LED, outside and tank thermistors once each at
      positions 0, 4, 8, 12, the pump's NTC at every other position. */
  function ChannelAt(cycle: nat): (ch: nat)
    requires cycle < 16
    ensures ch == 0 <==> cycle % 4 != 0
  {
    if cycle == 0 then 8
    else if cycle == 4 then 2
    else if cycle == 8 then 3
    else if cycle == 12 then 4
    else 0
  }

  /** `adc_channel_selection`: record the pump state in the 0/1
      accumulator, advance the cycle, and pick its channel. */
  function AdcChannelSelection(s: State): (r: (nat, State))
    requires Valid(s)
    ensures Valid(r.1)
    ensures r.1.cycle == (s.cycle + 1) % 16 && r.0 == ChannelAt(r.1.cycle)
    ensures r.1.ratio.count != 0
    ensures r.1 == s.(ratio := r.1.ratio, cycle := r.1.cycle)
  {
    StoreKeepsHeadroom(s.ratio, if s.juksautus then 1 else 0, ACCU_BOOL_SUM_MAX, 1);
    var ratio := Store(s.ratio, if s.juksautus then 1 else 0, ACCU_BOOL_SUM_MAX);
    var cycle := (s.cycle + 1) % 16;
    (ChannelAt(cycle), s.(ratio := ratio, cycle := cycle))
  }

  /** The cycle position after `c`: `(c + 1) & 0b1111`. */
  function Next(c: nat): (n: nat)
    requires c < 16
    ensures n < 16 && n == (c + 1) % 16
  {
    if c == 15 then 0 else c + 1
  }

  /** The channels of `n` successive selections from cycle position `c`. */
  function Schedule(c: nat, n: nat): (chs: seq<nat>)
    requires c < 16
    ensures |chs| == n
    decreases n
  {
    if n == 0 then [] else [ChannelAt(Next(c))] + Schedule(Next(c), n - 1)
  }

  /** The position reached after `m` selections from `c`. */
  function After(c: nat, m: nat): (p: nat)
    requires c < 16
    ensures p < 16
    decreases m
  {
    if m == 0 then c else After(Next(c), m - 1)
  }

  /** The channels of one cycle, from position 0. */
  const CYCLE: seq<nat> := [8, 0, 0, 0, 2, 0, 0, 0, 3, 0, 0, 0, 4, 0, 0, 0]

  lemma CycleCounts()
    ensures forall ch :: ch in {8, 2, 3, 4} ==> multiset(CYCLE)[ch] == 1
    ensures multiset(CYCLE)[0] == 12
  {
  }

  lemma CycleIsChannelAt(j: nat)
    requires j < 16
    ensures CYCLE[j] == ChannelAt(j)
  {
  }

  lemma RotationMultiset<T>(s: seq<T>, k: nat)
    requires k <= |s|
    ensures multiset(s[k..] + s[..k]) == multiset(s)
  {
    assert s == s[..k] + s[k..];
  }

  /** Selections run through consecutive cycle entries until the end of
      the cycle. */
  lemma {:induction false} ScheduleSlice(c: nat, n: nat)
    requires c < 16 && Next(c) + n <= 16
    ensures Schedule(c, n) == CYCLE[Next(c)..Next(c) + n]
    ensures n > 0 ==> After(c, n) == Next(c) + n - 1
    decreases n
  {
    if n > 0 {
      var k := Next(c);
      CycleIsChannelAt(k);
      if n > 1 {
        ScheduleSlice(k, n - 1);
      }
      assert CYCLE[k..k + n] == [CYCLE[k]] + CYCLE[k + 1..k + n];
    }
  }

  /** `m + n` selections are `m` selections followed by `n` more from
      where those ended. */
  lemma {:induction false} ScheduleSplit(c: nat, m: nat, n: nat)
    requires c < 16
    ensures Schedule(c, m + n) == Schedule(c, m) + Schedule(After(c, m), n)
    decreases m
  {
    if m > 0 {
      ScheduleSplit(Next(c), m - 1, n);
      assert m + n - 1 == (m - 1) + n;
    }
  }

  /** A full cycle of selections ending at the last position reads the
      cycle from its start. */
  lemma FullScheduleFromLast(n: nat)
    requires n == |CYCLE|
    ensures Schedule(15, n) == CYCLE
  {
    ScheduleSlice(15, n);
    assert CYCLE[0..n] == CYCLE;
  }

  /** A full cycle of selections from any other position reads the rest
      of the cycle, then its beginning. */
  lemma FullScheduleFrom(c: nat, n: nat)
    requires c < 15 && n == |CYCLE|
    ensures Schedule(c, n) == CYCLE[c + 1..] + CYCLE[..c + 1]
  {
    var k := c + 1;
    var m := n - k;
    ScheduleSplit(c, m, k);
    ScheduleSlice(c, m);
    var p := After(c, m);
    assert p == 15;
    ScheduleSlice(p, k);
    assert Schedule(c, m) == CYCLE[k..];
    assert Schedule(p, k) == CYCLE[..k];
  }

  /** Sixteen successive selections from any position visit the cycle
      once, starting one position on. */
  lemma ScheduleIsRotation(c: nat)
    requires c < 16
    ensures Schedule(c, 16) == CYCLE[Next(c)..] + CYCLE[..Next(c)]
  {
    if c == 15 {
      FullScheduleFromLast(16);
      assert CYCLE == CYCLE[0..] + CYCLE[..0];
    } else {
      FullScheduleFrom(c, 16);
    }
  }

  /** In any 16 successive selections each of the four auxiliary channels
      comes up exactly once and the other twelve are channel 0. */
  lemma SixteenStepCycle(c: nat)
    requires c < 16
    ensures forall ch :: ch in {8, 2, 3, 4} ==> multiset(Schedule(c, 16))[ch] == 1
    ensures multiset(Schedule(c, 16))[0] == 12
  {
    ScheduleIsRotation(c);
    RotationMultiset(CYCLE, Next(c));
    CycleCounts();
  }

  /** `handle_juksautus`: pull down exactly when the sample is above the
      target, and accumulate the sample. */
  function HandleJuksautus(s: State, val: nat): (r: State)
    requires Valid(s) && val <= ADC_MAX
    ensures Valid(r)
    ensures r.juksautus <==> val > s.target
    ensures r.k5Raw.count != 0
    ensures r == s.(juksautus := r.juksautus, k5Raw := r.k5Raw)
  {
    StoreKeepsHeadroom(s.k5Raw, val, ACCU_MV_SUM_MAX, ADC_MAX);
    s.(juksautus := val > s.target, k5Raw := Store(s.k5Raw, val, ACCU_MV_SUM_MAX))
  }

  /** `handle_err`: keep the running maximum of the error LED samples in
      the `int16_t` field. With a 16-bit `int` the `uint16_t` sample makes
      the comparison unsigned, so the field is compared, and keeps its
      maximum, as the 16-bit pattern `err mod 2^16`. */
  function HandleErr(s: State, val: nat): (r: State)
    requires Valid(s) && val < U16
    ensures Valid(r)
    ensures r.err % U16 >= s.err % U16 && r.err % U16 >= val
    ensures r.err % U16 == val || r == s
    ensures r == s.(err := r.err)
  {
    if s.err % U16 >= val then s
    else
      Int16Pattern(val);
      s.(err := Int16(val))
  }

  /** A `uint16_t` stored in an `int16_t` keeps its bit pattern. */
  lemma Int16Pattern(val: nat)
    requires val < U16
    ensures Int16(val) % U16 == val
  {
  }

  /** `juksautin_take_error`: the maximum as a `uint16_t`, and zero in its
      place. */
  function TakeError(s: State): (r: (nat, State))
    requires Valid(s)
    ensures Valid(r.1)
    ensures r.1 == s.(err := 0)
    ensures r.0 < U16 && (r.0 - s.err) % U16 == 0
    ensures 0 <= s.err ==> r.0 == s.err
  {
    (s.err % U16, s.(err := 0))
  }

  /** Taking the error returns the largest of the value the field held
      and the samples handed to `handle_err` since then, all read as
      unsigned 16-bit values. */
  lemma {:induction false} ErrorIsRunningMax(s: State, vals: seq<nat>)
    requires Valid(s)
    requires forall i :: 0 <= i < |vals| ==> vals[i] < U16
    ensures Valid(HandleErrs(s, vals))
    ensures s.err % U16 <= TakeError(HandleErrs(s, vals)).0
    ensures forall i :: 0 <= i < |vals| ==> vals[i] <= TakeError(HandleErrs(s, vals)).0
    ensures TakeError(HandleErrs(s, vals)).0 == s.err % U16 || TakeError(HandleErrs(s, vals)).0 in vals
    decreases |vals|
  {
    if |vals| > 0 {
      var init := vals[..|vals| - 1];
      assert forall i :: 0 <= i < |init| ==> init[i] == vals[i];
      ErrorIsRunningMax(s, init);
    }
  }

  /** `handle_err` applied to samples in order. */
  function HandleErrs(s: State, vals: seq<nat>): (r: State)
    requires Valid(s)
    requires forall i :: 0 <= i < |vals| ==> vals[i] < U16
    ensures Valid(r) && r == s.(err := r.err)
    decreases |vals|
  {
    if |vals| == 0 then s
    else HandleErr(HandleErrs(s, vals[..|vals| - 1]), vals[|vals| - 1])
  }

  /** `juksautin_take_ratio`, with the readout as written: `None` when no
      sample has been accumulated, which the C code would divide by;
      otherwise the duty ratio scaled to 2^16, which reads 0 at full
      duty. */
  function TakeRatio(s: State): (r: (Option<nat>, State))
    requires Valid(s)
    ensures Valid(r.1) && r.1 == s.(ratio := Accu(0, 0))
    ensures r.0.None? <==> s.ratio.count == 0
    ensures r.0.Some? && s.ratio.sum < s.ratio.count ==> r.0.value == s.ratio.sum * U16 / s.ratio.count
    ensures r.0.Some? && s.ratio.sum == s.ratio.count ==> r.0.value == 0
  {
    var (a, empty) := TakeAccu(s.ratio);
    if a.count == 0 then (None, s.(ratio := empty))
    else
      RatioReadouts(a);
      (Some(ToRatio16AsWritten(a)), s.(ratio := empty))
  }

  /** `juksautin_take_ratio` with the saturating readout: full duty reads
      0xFFFF. */
  function TakeRatioSaturating(s: State): (r: (Option<nat>, State))
    requires Valid(s)
    ensures Valid(r.1) && r.1 == s.(ratio := Accu(0, 0))
    ensures r.0.None? <==> s.ratio.count == 0
    ensures r.0.Some? && s.ratio.sum < s.ratio.count ==> r.0.value == s.ratio.sum * U16 / s.ratio.count
    ensures r.0.Some? && s.ratio.sum == s.ratio.count ==> r.0.value == U16 - 1
  {
    var (a, empty) := TakeAccu(s.ratio);
    if a.count == 0 then (None, s.(ratio := empty))
    else
      RatioReadouts(a);
      (Some(ToRatio16(a)), s.(ratio := empty))
  }
}

=== FILE: main_loop.dfy ===
/** The main loop of the firmware, avr/src/main.c lines 65-109: take the
    front frame from the transport, hand it to the text or the Modbus
    engine according to its second byte, release it, and queue the answer. */

module MainLoop {
  import opened Base
  import opened Cmd
  import opened Serial
  import Ascii
  import Modbus

  /** The build switches `WITH_ASCII` and `WITH_MODBUS`. */
  datatype Build = Build(withAscii: bool, withModbus: bool)

  /** The firmware between two calls of `loop`: the transport, the device
      the register tables act on, and the static frame counter `i`. */
  datatype Node<D> = Node(port: Transport, device: D, counter: nat)

  /** `static uint16_t i = ~0`: the first frame makes it 0. */
  const COUNTER_START: nat := 0xFFFF

  /** The node after `main` has initialised the transport, with buffers
      of `size` bytes: idle, with no frame, and the first frame counted
      as number 0. */
  function Boot<D>(size: nat, d: D): (n: Node<D>)
    requires size >= SERIAL_RX_LEN
    ensures n.port.Valid() && NulFits(n.port) && !n.port.txState && n.port.front.None?
    ensures n.counter < 0x1_0000 && Inc16(n.counter) == 0
  {
    Node(Init(size), d, COUNTER_START)
  }

  /** The answer to a frame that does not fit the receive buffer:
      `"Incoming message longer than %d bytes"` with `SERIAL_RX_LEN`. */
  const OVERFLOW_TEMPLATE: string := "Incoming message longer than " + "%d" + " bytes"
  const OVERFLOW_MSG: string := "Incoming message longer than " + "80" + " bytes"

  /** The overflow answer is the template printed with the buffer size. */
  lemma OverflowText()
    ensures Format(OVERFLOW_TEMPLATE, SERIAL_RX_LEN) == OVERFLOW_MSG
  {
    FormatFirst("Incoming message longer than ", " bytes", SERIAL_RX_LEN);
    assert Digits(80) == Digits(8) + ['0'];
  }

  lemma OverflowFits()
    ensures '\0' !in OVERFLOW_MSG && |OVERFLOW_MSG| < SERIAL_TX_LEN
  {
    assert '\0' !in "Incoming message longer than ";
  }

  /** The last lines `process_help` leaves in `serial_tx`, which the
      loop then sends. */
  const USAGE: string := "\nUsage:\n\n" + "  GET [REGISTER]...\n" + "  SET [REGISTER=VALUE]...\n"

  lemma UsageFits()
    ensures '\0' !in USAGE && |USAGE| < SERIAL_TX_LEN
  {
    assert '\0' !in "\nUsage:\n\n";
    assert '\0' !in "  GET [REGISTER]...\n";
    assert '\0' !in "  SET [REGISTER=VALUE]...\n";
  }

  /** `strncpy(serial_tx, s, SERIAL_TX_LEN)`: the text, then NUL up to
      the end of the buffer. */
  function Strncpy(s: string): (r: seq<char>)
    requires |s| < SERIAL_TX_LEN && '\0' !in s
    ensures |r| == SERIAL_TX_LEN && r[..|s|] == s
    ensures forall k :: |s| <= k < SERIAL_TX_LEN ==> r[k] == '\0'
    ensures CString(r) == s
  {
    var r := s + seq(SERIAL_TX_LEN - |s|, _ => '\0');
    assert r[..|s|] == s;
    CStringAt(r, |s|);
    r
  }

  /** A Modbus answer copied to the front of `serial_tx`. */
  function Place(tx: seq<char>, reply: seq<byte>): (r: seq<char>)
    requires |tx| == SERIAL_TX_LEN && |reply| <= SERIAL_TX_LEN
    ensures |r| == SERIAL_TX_LEN && r[..|reply|] == TextOf(reply) && r[|reply|..] == tx[|reply|..]
  {
    TextOf(reply) + tx[|reply|..]
  }

  // ---------------------------------------------------------------
  // Routing

  /** `len >= 2 && isalpha(rx_buf[1])`: a frame whose second byte is a
      letter is text, since no Modbus function code served here is one. */
  predicate IsText(buf: seq<byte>, len: nat)
    requires len <= |buf|
  {
    len >= 2 && IsAlpha(buf[1] as char)
  }

  /** `ascii_allowed`. */
  predicate AsciiAllowed(b: Build, buf: seq<byte>, len: nat)
    requires len <= |buf|
  {
    b.withAscii && (!b.withModbus || IsText(buf, len))
  }

  /** The four branches of `loop`. */
  datatype Route = Overflow | Text | Binary | Drop

  function RouteOf(b: Build, buf: seq<byte>, len: nat): (r: Route)
    requires len <= |buf|
    ensures r == Overflow <==> len > SERIAL_RX_LEN
    ensures r == Text ==> b.withAscii
    ensures r == Binary ==> b.withModbus
    ensures r == Drop ==> !b.withAscii && !b.withModbus && len <= SERIAL_RX_LEN
  {
    if len > SERIAL_RX_LEN then Overflow
    else if AsciiAllowed(b, buf, len) then Text
    else if b.withModbus then Binary
    else Drop
  }

  /** With both engines built, a frame that fits goes to the text engine
      exactly when its second byte is a letter, and otherwise to Modbus. */
  lemma DualRouting(buf: seq<byte>, len: nat)
    requires len <= |buf| && len <= SERIAL_RX_LEN
    ensures RouteOf(Build(true, true), buf, len) == Text <==> len >= 2 && IsAlpha(buf[1] as char)
    ensures RouteOf(Build(true, true), buf, len) == Binary <==> !(len >= 2 && IsAlpha(buf[1] as char))
  {
  }

  /** With one engine built, every frame that fits goes to it. */
  lemma SingleRouting(buf: seq<byte>, len: nat)
    requires len <= |buf| && len <= SERIAL_RX_LEN
    ensures RouteOf(Build(true, false), buf, len) == Text
    ensures RouteOf(Build(false, true), buf, len) == Binary
  {
  }

  /** The function codes the Modbus engine serves are not letters, so in
      a build with both engines every request for them reaches Modbus. */
  lemma ModbusRequestsReachModbus(buf: seq<byte>, len: nat)
    requires 2 <= len <= |buf| && len <= SERIAL_RX_LEN && buf[1] in Modbus.HANDLER_CODES
    ensures RouteOf(Build(true, true), buf, len) == Binary
  {
  }

  /** A request line of the text protocol starts with an operation word,
      so its second character is a letter and it reaches the text engine. */
  lemma OperationsReachText(buf: seq<byte>, len: nat, op: string)
    requires len <= |buf| && len <= SERIAL_RX_LEN
    requires op in ["GET", "SET", "HELP", "get", "set", "help"]
    requires |op| <= len && TextOf(buf)[..|op|] == op
    ensures RouteOf(Build(true, true), buf, len) == Text
  {
    assert TextOf(buf)[1] == op[1];
  }

  // ---------------------------------------------------------------
  // One frame

  /** The request line the text engine sees: `ascii_interface(rx_buf)`
      parses the buffer up to its first NUL, which is at `len` or
      before; no line ending is stripped on this path. */
  function RequestLine(buf: seq<byte>, len: nat): (line: string)
    requires len < |buf| && buf[len] == 0
    ensures |line| <= len && line == TextOf(buf)[..|line|] && '\0' !in line
  {
    var text := TextOf(buf);
    assert text[len] == '\0';
    CString(text)
  }

  /** The text branch: the engine's reply (or the usage text after a
      help listing) is sent as a line after the frame is released. */
  function HandleText<D(!new)>(at: seq<AsciiEntry<D>>, s: Transport, d: D, buf: seq<byte>, len: nat)
    : (r: (Transport, D))
    requires AsciiTableValid(at) && s.Valid() && !s.txState
    requires len < |buf| && buf[len] == 0 && len < 256
    ensures r.0.Valid() && r.0.front.None?
  {
    match Ascii.AsciiInterface(at, d, s.tx, RequestLine(buf, len))
    case Done(_, tx, d1) => (TxLine(FreeMessage(SetTx(s, tx))), d1)
    case Help(d1) =>
      UsageFits();
      (TxLine(FreeMessage(SetTx(s, Strncpy(USAGE)))), d1)
  }

  /** The Modbus branch: the frame's first `len` bytes go to the engine;
      a non-empty answer is sent as binary after the frame is released. */
  function HandleBinary<D(!new)>(mt: seq<ModbusEntry<D>>, s: Transport, d: D, buf: seq<byte>, len: nat)
    : (r: (Transport, D))
    requires ModbusTableValid(mt) && s.Valid() && !s.txState && len <= |buf|
    ensures r.0.Valid() && r.0.front.None?
  {
    var (reply, d1) := Modbus.ModbusInterface(mt, d, buf[..len]);
    var s1 := FreeMessage(s);
    if reply == [] then (s1, d1)
    else (TxBin(SetTx(s1, Place(s1.tx, reply)), |reply|), d1)
  }

  /** The overflow branch: the frame is released, and the overflow
      message is sent only when a text answer is allowed. */
  function HandleOverflow(allowed: bool, s: Transport): (r: Transport)
    requires s.Valid() && !s.txState
    ensures r.Valid() && r.front.None?
    ensures !allowed ==> r == FreeMessage(s)
    ensures allowed ==> r.txState && r.tx[..r.txLen] == OVERFLOW_MSG + "\n"
  {
    var s1 := FreeMessage(s);
    if allowed then
      OverflowFits();
      var s2 := SetTx(s1, Ascii.PutLine(s1.tx, OVERFLOW_MSG));
      LineQueued(s2);
      TxLine(s2)
    else s1
  }

  /** Lines 80-108 of `loop` for the frame `buf` of `len` bytes, with the
      NUL `serial_get_message` stored after it. */
  function Handle<D(!new)>(b: Build, at: seq<AsciiEntry<D>>, mt: seq<ModbusEntry<D>>,
                           s: Transport, d: D, buf: seq<byte>, len: nat): (r: (Transport, D))
    requires AsciiTableValid(at) && ModbusTableValid(mt) && s.Valid() && !s.txState
    requires len < |buf| && buf[len] == 0 && len < 256
    ensures r.0.Valid() && r.0.front.None?
    ensures RouteOf(b, buf, len) == Drop ==> r == (FreeMessage(s), d)
  {
    match RouteOf(b, buf, len)
    case Overflow => (HandleOverflow(AsciiAllowed(b, buf, len), s), d)
    case Text => HandleText(at, s, d, buf, len)
    case Binary => HandleBinary(mt, s, d, buf, len)
    case Drop => (FreeMessage(s), d)
  }

  /** `loop`: nothing while transmitting or without a frame; otherwise
      the frame is counted, handled and released. */
  function Loop<D(!new)>(b: Build, at: seq<AsciiEntry<D>>, mt: seq<ModbusEntry<D>>, n: Node<D>): (r: Node<D>)
    requires AsciiTableValid(at) && ModbusTableValid(mt)
    requires n.port.Valid() && NulFits(n.port) && n.counter < 0x1_0000
    ensures r.port.Valid() && r.counter < 0x1_0000
    ensures n.port.txState || n.port.front.None? ==> r == n
    ensures !n.port.txState && n.port.front.Some? ==>
      r.port.front.None? && r.counter == Inc16(n.counter)
  {
    if n.port.txState then n
    else
      var (s1, frame, len) := GetMessage(n.port);
      match frame
      case None => n
      case Some(buf) =>
        var (s2, d2) := Handle(b, at, mt, s1, n.device, buf, len);
        Node(s2, d2, Inc16(n.counter))
  }

  // ---------------------------------------------------------------
  // What a frame gets

  /** The transport never hands over a frame longer than its buffer, so
      the overflow branch of the loop is never taken. */
  lemma NoOverflowFromTransport(b: Build, s: Transport)
    requires s.Valid() && NulFits(s) && s.front.Some?
    ensures var (_, frame, len) := GetMessage(s);
      frame.Some? && len < |frame.value| && RouteOf(b, frame.value, len) != Overflow
  {
  }

  /** A reply left in `serial_tx` is sent as one line once the frame
      is released. */
  lemma LineSent(s: Transport, tx: seq<char>)
    requires s.Valid() && !s.txState && |tx| == SERIAL_TX_LEN && '\0' in tx
    ensures var r := TxLine(FreeMessage(SetTx(s, tx)));
      && r.txState && r.txLen == |CString(tx)| + 1
      && (|CString(tx)| + 1 < SERIAL_TX_LEN ==> r.tx[..r.txLen] == CString(tx) + "\n")
  {
    LineQueued(FreeMessage(SetTx(s, tx)));
  }

  /** A text frame is answered with the text engine's reply line, or the
      usage text after a help listing, and the device is left as the
      engine left it. */
  lemma TextAnswer<D(!new)>(b: Build, at: seq<AsciiEntry<D>>, mt: seq<ModbusEntry<D>>,
                            s: Transport, d: D, buf: seq<byte>, len: nat)
    requires AsciiTableValid(at) && ModbusTableValid(mt) && s.Valid() && !s.txState
    requires len < |buf| && buf[len] == 0 && len < 256 && RouteOf(b, buf, len) == Text
    ensures var e := Ascii.AsciiInterface(at, d, s.tx, RequestLine(buf, len));
      var r := Handle(b, at, mt, s, d, buf, len);
      var line := if e.Done? then CString(e.tx) else USAGE;
      && r.1 == e.state
      && r.0.txState && r.0.txLen == |line| + 1
      && (|line| + 1 < SERIAL_TX_LEN ==> r.0.tx[..r.0.txLen] == line + "\n")
  {
    var e := Ascii.AsciiInterface(at, d, s.tx, RequestLine(buf, len));
    if e.Done? {
      LineSent(s, e.tx);
    } else {
      UsageFits();
      assert Strncpy(USAGE)[|USAGE|] == '\0';
      LineSent(s, Strncpy(USAGE));
    }
  }

  /** A binary frame is answered with exactly the Modbus engine's reply
      bytes when it has one, and otherwise nothing is sent. */
  lemma BinaryAnswer<D(!new)>(b: Build, at: seq<AsciiEntry<D>>, mt: seq<ModbusEntry<D>>,
                              s: Transport, d: D, buf: seq<byte>, len: nat)
    requires AsciiTableValid(at) && ModbusTableValid(mt) && s.Valid() && !s.txState
    requires len < |buf| && buf[len] == 0 && len < 256 && RouteOf(b, buf, len) == Binary
    ensures var e := Modbus.ModbusInterface(mt, d, buf[..len]);
      var r := Handle(b, at, mt, s, d, buf, len);
      && r.1 == e.1
      && (e.0 == [] ==> !r.0.txState && r.0 == FreeMessage(s))
      && (e.0 != [] ==> r.0.txState && r.0.txLen == |e.0| && r.0.tx[..r.0.txLen] == TextOf(e.0))
  {
  }

  /** A frame that is not a Modbus request for this station, on the
      binary route, is never answered: the station stays off the bus. */
  lemma SilentOnForeignFrames<D(!new)>(b: Build, at: seq<AsciiEntry<D>>, mt: seq<ModbusEntry<D>>,
                                       s: Transport, d: D, buf: seq<byte>, len: nat)
    requires AsciiTableValid(at) && ModbusTableValid(mt) && s.Valid() && !s.txState
    requires len < |buf| && buf[len] == 0 && len < 256 && RouteOf(b, buf, len) == Binary
    requires !Modbus.Accepted(buf[..len])
    ensures Handle(b, at, mt, s, d, buf, len) == (FreeMessage(s), d)
  {
    BinaryAnswer(b, at, mt, s, d, buf, len);
  }
}

=== FILE: misc.dfy ===
/** The miscellaneous registry actions of avr/src/misc.c: the version
    string, PONG, the indicator LED and a dummy coil. The LED pin and the
    coil are the two bits of device state these actions touch. */
module Misc {
  import opened Base
  import opened ModbusTypes
  import opened Cmd
  import opened CmdFunctions

  datatype Misc = Misc(led: bool, dummyCoil: bool)

  /** `dummy_coil` starts cleared; the LED pin starts low. */
  const INITIAL: Misc := Misc(false, false)

  /** `strlcpy(buf, version, count)`: the whole length of the version
      (as a `buflen_t`), and as much of it as fits before the NUL. */
  function MiscVersion(version: string, count: nat): (r: PrintOut)
    ensures r.text <= version
    ensures count > 0 ==> |r.text| == if |version| < count then |version| else count - 1
    ensures |version| < 256 ==> r.wrote == |version|
  {
    PrintOut(Buflen(|version|), if count == 0 then "" else Take(version, count - 1))
  }

  /** The version printer reports the full length even when the copy is
      cut short, so a caller sees the truncation as `wrote >= count`. */
  lemma VersionTruncationVisible(version: string, count: nat)
    requires 0 < count <= |version| < 256
    ensures MiscVersion(version, count).wrote >= count
    ensures |MiscVersion(version, count).text| == count - 1
  {
  }

  lemma VersionKeepsContract<D(!new)>(version: string)
    requires |version| < 256 && '\0' !in version
    ensures PrinterContract((d: D, count: nat) => MiscVersion(version, count))
  {
  }

  /** `misc_pong`: "PONG" when four characters fit, `BUFLEN_MAX` otherwise. */
  function MiscPong(count: nat): (r: PrintOut)
    ensures count < 4 ==> r.wrote == BUFLEN_MAX
    ensures count >= 4 ==> r.wrote == 4 && r.text == "PONG"
  {
    if count < 4 then PrintOut(BUFLEN_MAX, "") else PrintOut(4, "PONG")
  }

  /** The two PONG printers behave identically. */
  lemma PongsAgree(count: nat)
    ensures MiscPong(count) == PrintPong(count)
  {
  }

  /** `misc_get_led`: the pin's state, which is the state `SetLed`
      drives it to, so writing back what was read changes nothing. */
  function GetLed(m: Misc): (on: bool)
    ensures SetLed(m, on).1 == m
  {
    m.led
  }

  /** `misc_set_led`: drives the pin and always reports OK. */
  function SetLed(m: Misc, on: bool): (r: (Status, Misc))
    ensures r.0 == Ok
    ensures r.1.led == on && r.1.dummyCoil == m.dummyCoil
  {
    (Ok, m.(led := on))
  }

  /** `misc_get_dummy_coil`: the stored value; writing it back changes
      nothing. */
  function GetDummyCoil(m: Misc): (on: bool)
    ensures SetDummyCoil(m, on).1 == m
  {
    m.dummyCoil
  }

  /** `misc_set_dummy_coil`: stores the value and always reports OK. */
  function SetDummyCoil(m: Misc, on: bool): (r: (Status, Misc))
    ensures r.0 == Ok
    ensures r.1.dummyCoil == on && r.1.led == m.led
  {
    (Ok, m.(dummyCoil := on))
  }

  /** Reading after a write returns the value written, and the other
      bit keeps its value. */
  lemma GetAfterSet(m: Misc, on: bool)
    ensures GetLed(SetLed(m, on).1) == on && GetDummyCoil(SetLed(m, on).1) == GetDummyCoil(m)
    ensures GetDummyCoil(SetDummyCoil(m, on).1) == on && GetLed(SetDummyCoil(m, on).1) == GetLed(m)
  {
  }

  /** Setting twice is setting once: the second call sees nothing of the
      first. */
  lemma SettersIdempotent(m: Misc, a: bool, b: bool)
    ensures SetLed(SetLed(m, a).1, b) == SetLed(m, b)
    ensures SetDummyCoil(SetDummyCoil(m, a).1, b) == SetDummyCoil(m, b)
  {
  }

  /** Through the text interface: printing the LED with the boolean
      printer and scanning the result into the LED setter of another
      state copies the LED and succeeds. */
  lemma LedThroughText(src: Misc, dst: Misc)
    ensures ScanBool(dst, PrintBool(src, 1, GetLed).text, SetLed).0.Success()
    ensures GetLed(ScanBool(dst, PrintBool(src, 1, GetLed).text, SetLed).1) == GetLed(src)
  {
    BoolRoundTrip(src, 1, GetLed, dst, SetLed);
  }
}

=== FILE: modbus.dfy ===
/** The Modbus-RTU request engine of avr/src/interface/modbus.c: frame
    filtering (length, station, CRC), dispatch on the function code through
    a sorted handler table, the register read and write handlers, exception
    replies and the outbound CRC. Function codes and exception codes follow
    sections 6.3, 6.4, 6.6, 6.12 and 7 of the Modbus Application Protocol
    Specification V1.1b3.

    A reply is the prefix of the transmit buffer that the engine hands to
    the transport; the empty reply stands for the return value 0, "send
    nothing". */
module Modbus {
  import opened Base
  import opened ModbusTypes
  import opened Search
  import opened Cmd
  import opened Crc16

  /** `modbus_get_station_id`: the station answers to address 1 only. */
  const STATION_ID: byte := 1

  /** Station id and function code precede every answer. */
  const TX_HEADER_LEN: nat := 3

  /** The most registers `read_registers` lets through:
      (SERIAL_TX_LEN - 3) / 2 = 38. */
  const MAX_READ_REGISTERS: nat := (SERIAL_TX_LEN - TX_HEADER_LEN) / 2

  /** The function byte of an exception reply: the request's code with
      bit 0x80 set (`serial_tx[1] |= 0x80`). */
  function ExceptionCode(fc: byte): (r: byte)
    ensures r >= 0x80 && r % 0x80 == fc % 0x80
    ensures fc < 0x80 ==> r == fc + 0x80
  {
    if fc >= 0x80 then fc else fc + 0x80
  }

  /** What a handler leaves in the transmit buffer after the station id
      and function code: a normal payload, or an exception status
      (`fill_exception`), which discards anything written before. */
  datatype Answer = Normal(payload: seq<byte>) | Exception(status: Status)

  /** The handlers of the `handlers` table. */
  datatype Handler = ReadRegisters | WriteRegister | WriteRegisters

  /** The `handlers` table: codes in ascending order with their handlers. */
  const HANDLER_CODES: seq<byte> := [0x03, 0x04, 0x06, 0x10]
  const HANDLERS: seq<Handler> := [ReadRegisters, ReadRegisters, WriteRegister, WriteRegisters]

  /** Key of each table row for the one-byte `memcmp` comparator. */
  function HandlerKeys(): (ks: seq<seq<int>>)
    ensures |ks| == |HANDLER_CODES|
    ensures forall i :: 0 <= i < |ks| ==> ks[i] == [HANDLER_CODES[i] as int]
  {
    [[0x03], [0x04], [0x06], [0x10]]
  }

  lemma HandlerTableSorted()
    ensures StrictlySorted(HandlerKeys())
  {
    var ks := HandlerKeys();
    forall i, j | 0 <= i < j < |ks| ensures LexLess(ks[i], ks[j]) {
      assert ks[i][0] < ks[j][0];
    }
  }

  /** `find_function_handler`: binary search of the handler table. Codes
      3 and 4 read registers, 6 writes one register, 16 writes several;
      every other code has no handler. */
  function FindFunctionHandler(code: byte): (r: Option<Handler>)
    ensures r.Some? <==> code in HANDLER_CODES
    ensures code == 0x03 || code == 0x04 ==> r == Some(ReadRegisters)
    ensures code == 0x06 ==> r == Some(WriteRegister)
    ensures code == 0x10 ==> r == Some(WriteRegisters)
  {
    HandlerTableSorted();
    var ks := HandlerKeys();
    match Find(ks, [code as int])
    case None =>
      None
    case Some(i) =>
      assert HANDLER_CODES[i] == code by {
        assert ks[i] == [HANDLER_CODES[i] as int];
      }
      Some(HANDLERS[i])
  }

  /** Outcome of the register read loop: the bytes read, or the status
      that stopped it. */
  datatype ReadResult = ReadFailed(status: Status) | ReadData(data: seq<byte>)

  /** What one reader call means to the read loop at register offset
      `o`: the bytes it produced and the offset after them, or the status
      that ends the read there. */
  datatype ReadStep = Advance(data: seq<byte>, next: nat) | Stop(status: Status)

  function ReadStepOf(out: ReadOut, o: nat): ReadStep
  {
    if out.code != Ok then Stop(out.code)
    else if out.consumed % 2 != 0 then Stop(SlaveOrServerFailure)
    else Advance(out.data, o + out.consumed / 2)
  }

  /** The step of the read loop at offset `o`, told from the table: a
      register without a readable entry of the kind stops the read as an
      illegal data address; otherwise its reader, given the room left,
      decides the step. */
  function ReadStepAt<D(!new)>(t: seq<ModbusEntry<D>>, d: D, kind: ObjectKind, base: nat, n: nat, o: nat): (r: ReadStep)
    requires ModbusTableValid(t) && o < n
    ensures r.Advance? ==> o < r.next <= n && |r.data| == 2 * (r.next - o)
    ensures r.Stop? ==> r.status != Ok
    ensures (forall k :: 0 <= k < |t| ==> !(t[k].kind == kind && t[k].addr == (base + o) % 0x1_0000 && t[k].reader.Some?))
      ==> r == Stop(IllegalDataAddress)
    ensures forall k :: (0 <= k < |t| && t[k].kind == kind && t[k].addr == (base + o) % 0x1_0000 && t[k].reader.Some?
      ==> r == ReadStepOf(t[k].reader.value(d, 2 * (n - o)), o))
  {
    var addr := (base + o) % 0x1_0000;
    assert forall k :: (0 <= k < |t| && t[k].kind == kind && t[k].addr == addr
      ==> FindModbus(t, kind, addr) == Some(k)) by {
      forall k | 0 <= k < |t| && t[k].kind == kind && t[k].addr == addr
        ensures FindModbus(t, kind, addr) == Some(k)
      {
        FindModbusUnique(t, kind, addr, k);
      }
    }
    match FindModbus(t, kind, addr)
    case None => Stop(IllegalDataAddress)
    case Some(k) =>
      if t[k].reader.None? then Stop(IllegalDataAddress)
      else ReadStepOf(t[k].reader.value(d, 2 * (n - o)), o)
  }

  /** The read loop of `read_registers` from register `i` on: each step
      reads at `base + i` (16-bit wrap-around) with the room left and
      advances by the registers it filled. */
  function ReadLoop<D(!new)>(t: seq<ModbusEntry<D>>, d: D, kind: ObjectKind, base: nat, n: nat, i: nat): (r: ReadResult)
    requires ModbusTableValid(t) && i <= n
    ensures r.ReadData? ==> |r.data| == 2 * (n - i)
    ensures r.ReadFailed? ==> r.status != Ok
    decreases n - i
  {
    if i == n then ReadData([])
    else
      match ReadStepAt(t, d, kind, base, n, i)
      case Stop(s) => ReadFailed(s)
      case Advance(data, next) =>
        match ReadLoop(t, d, kind, base, n, next)
        case ReadFailed(s) => ReadFailed(s)
        case ReadData(rest) => ReadData(data + rest)
  }

  /** `read_registers` (function codes 3 and 4): the request is a
      big-endian start address and register count. Code 3 reads holding
      registers, 4 input registers. */
  function ReadRegistersAnswer<D(!new)>(t: seq<ModbusEntry<D>>, d: D, fc: byte, args: seq<byte>): (a: Answer)
    requires ModbusTableValid(t)
    ensures |args| != 4 ==> a == Exception(IllegalFunction)
    ensures |args| == 4 && Be16(args[2], args[3]) > MAX_READ_REGISTERS ==> a == Exception(SlaveOrServerFailure)
    ensures a.Normal? ==> |args| == 4 && var n := Be16(args[2], args[3]);
      n <= MAX_READ_REGISTERS && |a.payload| == 1 + 2 * n && a.payload[0] == 2 * n
    ensures a.Exception? ==> a.status != Ok
  {
    var kind := if fc == 3 then HoldingRegister else InputRegister;
    if |args| != 4 then Exception(IllegalFunction)
    else
      var base := Be16(args[0], args[1]);
      var n := Be16(args[2], args[3]);
      if n > MAX_READ_REGISTERS then Exception(SlaveOrServerFailure)
      else
        match ReadLoop(t, d, kind, base, n, 0)
        case ReadFailed(s) => Exception(s)
        case ReadData(data) => Normal([2 * n] + data)
  }

  /** `try_register_write`: only holding registers with a writer can be
      written; anything else is an illegal data address and consumes
      nothing. */
  function TryRegisterWrite<D(!new)>(t: seq<ModbusEntry<D>>, d: D, addr: nat, input: seq<byte>): (r: (WriteOut, D))
    requires ModbusTableValid(t) && addr < 0x1_0000
    ensures (forall i :: 0 <= i < |t| ==> !(t[i].kind == HoldingRegister && t[i].addr == addr && t[i].writer.Some?))
      ==> r == (WriteOut(IllegalDataAddress, 0), d)
    ensures forall i :: (0 <= i < |t| && t[i].kind == HoldingRegister && t[i].addr == addr && t[i].writer.Some?
      ==> r == t[i].writer.value(d, input))
    ensures r.0.code == Ok ==> 0 < r.0.consumed <= |input|
  {
    assert forall i :: (0 <= i < |t| && t[i].kind == HoldingRegister && t[i].addr == addr
      ==> FindModbus(t, HoldingRegister, addr) == Some(i)) by {
      forall i | 0 <= i < |t| && t[i].kind == HoldingRegister && t[i].addr == addr
        ensures FindModbus(t, HoldingRegister, addr) == Some(i)
      {
        FindModbusUnique(t, HoldingRegister, addr, i);
      }
    }
    match FindModbus(t, HoldingRegister, addr)
    case None => (WriteOut(IllegalDataAddress, 0), d)
    case Some(k) =>
      if t[k].writer.None? then (WriteOut(IllegalDataAddress, 0), d)
      else t[k].writer.value(d, input)
  }

  /** `write_register` (function code 6): a big-endian address and one
      16-bit value; the reply echoes the request. */
  function WriteRegisterAnswer<D(!new)>(t: seq<ModbusEntry<D>>, d: D, args: seq<byte>): (r: (Answer, D))
    requires ModbusTableValid(t)
    ensures |args| != 4 ==> r == (Exception(IllegalFunction), d)
    ensures r.0.Normal? ==> |args| == 4 && r.0.payload == args
    ensures r.0.Exception? ==> r.0.status != Ok
  {
    if |args| != 4 then (Exception(IllegalFunction), d)
    else
      var w := TryRegisterWrite(t, d, Be16(args[0], args[1]), args[2..4]);
      if w.0.code != Ok then (Exception(w.0.code), w.1) else (Normal(args), w.1)
  }

  /** What one writer call means to the write loop at data offset `o`:
      the offset after the bytes it consumed, or the status that ends the
      write there; either way the device state it left. */
  datatype WriteStep<D> = Written(next: nat, dev: D) | Halted(status: Status, dev: D)

  function WriteStepOf<D>(w: (WriteOut, D), o: nat): WriteStep<D>
  {
    if w.0.code != Ok then Halted(w.0.code, w.1)
    else if w.0.consumed % 2 != 0 then Halted(SlaveOrServerFailure, w.1)
    else Written(o + w.0.consumed, w.1)
  }

  /** The step of the write loop at data offset `o` on device state `dv`,
      told from the table: a register without a writable holding entry
      halts the write as an illegal data address with the state
      untouched; otherwise its writer, given the rest of the data,
      decides the step. */
  function WriteStepAt<D(!new)>(t: seq<ModbusEntry<D>>, dv: D, base: nat, data: seq<byte>, o: nat): (r: WriteStep<D>)
    requires ModbusTableValid(t) && o < |data|
    ensures r.Written? ==> o < r.next <= |data| && (r.next - o) % 2 == 0
    ensures r.Halted? ==> r.status != Ok
    ensures (forall k :: 0 <= k < |t| ==> !(t[k].kind == HoldingRegister && t[k].addr == (base + o / 2) % 0x1_0000 && t[k].writer.Some?))
      ==> r == Halted(IllegalDataAddress, dv)
    ensures forall k :: (0 <= k < |t| && t[k].kind == HoldingRegister && t[k].addr == (base + o / 2) % 0x1_0000 && t[k].writer.Some?
      ==> r == WriteStepOf(t[k].writer.value(dv, data[o..]), o))
  {
    WriteStepOf(TryRegisterWrite(t, dv, (base + o / 2) % 0x1_0000, data[o..]), o)
  }

  /** The write loop of `write_registers` from data byte `i` on: each
      step writes the rest of the data at register `base + i/2` (16-bit
      wrap-around). Writes already done stay done when a later one fails.
      The result is `Ok` or the status that stopped the loop. */
  function WriteLoop<D(!new)>(t: seq<ModbusEntry<D>>, d: D, base: nat, data: seq<byte>, i: nat): (r: (Status, D))
    requires ModbusTableValid(t) && i <= |data|
    ensures i == |data| ==> r == (Ok, d)
    ensures r.0 == Ok && i < |data| ==> WriteStepAt(t, d, base, data, i).Written?
    decreases |data| - i
  {
    if i == |data| then (Ok, d)
    else
      match WriteStepAt(t, d, base, data, i)
      case Halted(s, dv) => (s, dv)
      case Written(next, dv) => WriteLoop(t, dv, base, data, next)
  }

  /** `write_registers` (function code 16): address, register count (not
      used), byte count, then the data. The reply carries only address and
      register count. */
  function WriteRegistersAnswer<D(!new)>(t: seq<ModbusEntry<D>>, d: D, args: seq<byte>): (r: (Answer, D))
    requires ModbusTableValid(t)
    ensures |args| < 5 || 5 + args[4] as int != |args| ==> r == (Exception(IllegalFunction), d)
    ensures r.0.Normal? ==> |args| >= 5 && r.0.payload == args[..4]
    ensures r.0.Exception? ==> r.0.status != Ok
  {
    if |args| < 5 then (Exception(IllegalFunction), d)
    else if 5 + args[4] as int != |args| then (Exception(IllegalFunction), d)
    else
      var w := WriteLoop(t, d, Be16(args[0], args[1]), args[5..], 0);
      if w.0 != Ok then (Exception(w.0), w.1) else (Normal(args[..4]), w.1)
  }

  /** Runs the handler the function code selects. */
  function Handle<D(!new)>(t: seq<ModbusEntry<D>>, d: D, h: Handler, fc: byte, args: seq<byte>): (r: (Answer, D))
    requires ModbusTableValid(t)
    ensures h == ReadRegisters ==> r.1 == d
    ensures r.0.Exception? ==> r.0.status != Ok
  {
    match h
    case ReadRegisters => (ReadRegistersAnswer(t, d, fc, args), d)
    case WriteRegister => WriteRegisterAnswer(t, d, args)
    case WriteRegisters => WriteRegistersAnswer(t, d, args)
  }

  /** The bytes `fill_exception` leaves: station, code with bit 0x80, status. */
  function ExceptionReply(station: byte, fc: byte, s: Status): (r: seq<byte>)
    ensures |r| == TX_HEADER_LEN
  {
    [station, ExceptionCode(fc), Code(s)]
  }

  /** The transmit buffer before the CRC: the answer after the station id
      and function code, replaced by a server failure when it would leave
      no room for the CRC. */
  function Body(station: byte, fc: byte, a: Answer): (r: seq<byte>)
    ensures TX_HEADER_LEN - 1 <= |r| <= SERIAL_TX_LEN - 2
    ensures r[0] == station && (r[1] == fc || r[1] == ExceptionCode(fc))
  {
    match a
    case Exception(s) => ExceptionReply(station, fc, s)
    case Normal(p) =>
      if 2 + |p| + 2 > SERIAL_TX_LEN then ExceptionReply(station, fc, SlaveOrServerFailure)
      else [station, fc] + p
  }

  /** Appends the CRC low byte first (`*(uint16_t*)(serial_tx+ret) = crc`). */
  function WithCrc(body: seq<byte>): (f: seq<byte>)
    ensures CrcValid(f) && |f| == |body| + 2 && body <= f
  {
    AppendCrcValid(body);
    var f := body + [LowByte(Crc(body)), HighByte(Crc(body))];
    assert f[..|f| - 2] == body;
    f
  }

  /** Whether `modbus_interface` processes a frame at all: six bytes at
      least, addressed to this station, and with a correct CRC. */
  predicate Accepted(frame: seq<byte>)
  {
    |frame| >= 6 && frame[0] == STATION_ID && CrcValid(frame)
  }

  /** `modbus_interface`: the reply to a received frame and the device
      state after it. A dropped frame gets the empty reply; every other
      frame gets a reply that passes the same CRC check and fits the
      transmit buffer. */
  function ModbusInterface<D(!new)>(t: seq<ModbusEntry<D>>, d: D, frame: seq<byte>): (r: (seq<byte>, D))
    requires ModbusTableValid(t)
    ensures r.0 == [] <==> !Accepted(frame)
    ensures !Accepted(frame) ==> r.1 == d
    ensures r.0 != [] ==> CrcValid(r.0) && 5 <= |r.0| <= SERIAL_TX_LEN && r.0[0] == STATION_ID
    ensures r.0 != [] ==> r.0[1] == frame[1] || r.0[1] == ExceptionCode(frame[1])
  {
    if |frame| < 6 || frame[0] != STATION_ID || !CrcValid(frame) then ([], d)
    else Respond(t, d, frame)
  }

  /** The reply to an accepted frame: the handler's answer (or "illegal
      function" when there is none), framed with its CRC. */
  function Respond<D(!new)>(t: seq<ModbusEntry<D>>, d: D, frame: seq<byte>): (r: (seq<byte>, D))
    requires ModbusTableValid(t) && |frame| >= 6
    ensures CrcValid(r.0) && 5 <= |r.0| <= SERIAL_TX_LEN && r.0[0] == frame[0]
    ensures r.0[1] == frame[1] || r.0[1] == ExceptionCode(frame[1])
  {
    var fc := frame[1];
    var args := frame[2..|frame| - 2];
    var a := match FindFunctionHandler(fc)
      case None => (Exception(IllegalFunction), d)
      case Some(h) => Handle(t, d, h, fc, args);
    var body := Body(frame[0], fc, a.0);
    var reply := WithCrc(body);
    assert reply[0] == body[0] && reply[1] == body[1];
    (reply, a.1)
  }

  /** What a client sends: a request body followed by its CRC. */
  function Request(body: seq<byte>): (f: seq<byte>)
  {
    WithCrc(body)
  }

  /** Every request a client frames for this station with at least a
      function code and two data bytes is answered. */
  lemma RequestAnswered<D(!new)>(t: seq<ModbusEntry<D>>, d: D, body: seq<byte>)
    requires ModbusTableValid(t)
    requires |body| >= 4 && body[0] == STATION_ID
    ensures ModbusInterface(t, d, Request(body)).0 != []
  {
  }

  /** An unknown function code gets exactly station, code | 0x80 and
      status 1 (illegal function), and no setter runs. */
  lemma UnknownFunctionRejected<D(!new)>(t: seq<ModbusEntry<D>>, d: D, frame: seq<byte>)
    requires ModbusTableValid(t) && Accepted(frame)
    requires frame[1] !in HANDLER_CODES
    ensures ModbusInterface(t, d, frame) == (WithCrc([STATION_ID, ExceptionCode(frame[1]), 1]), d)
  {
  }

  /** Every exception reply is five bytes: station, code with bit 0x80,
      status, CRC. */
  lemma ExceptionReplyShape<D(!new)>(t: seq<ModbusEntry<D>>, d: D, frame: seq<byte>)
    requires ModbusTableValid(t) && Accepted(frame)
    requires ModbusInterface(t, d, frame).0[1] >= 0x80 && frame[1] < 0x80
    ensures |ModbusInterface(t, d, frame).0| == 5
    ensures ModbusInterface(t, d, frame).0[2] != 0
  {
    var fc := frame[1];
    var args := frame[2..|frame| - 2];
    var a := match FindFunctionHandler(fc)
      case None => (Exception(IllegalFunction), d)
      case Some(h) => Handle(t, d, h, fc, args);
    var body := Body(frame[0], fc, a.0);
    assert ModbusInterface(t, d, frame).0 == WithCrc(body);
    assert body[1] == WithCrc(body)[1];
    if a.0.Normal? && 2 + |a.0.payload| + 2 <= SERIAL_TX_LEN {
      assert false;
    }
  }

  /** Thirty-eight registers pass the handler's own limit, but the reply
      with its CRC would need 81 bytes, so the read is never answered
      normally: 37 is the largest count a read can succeed with. */
  lemma ThirtyEightRegistersNeverSucceed<D(!new)>(t: seq<ModbusEntry<D>>, d: D, frame: seq<byte>)
    requires ModbusTableValid(t) && Accepted(frame)
    requires frame[1] == 3 || frame[1] == 4
    requires |frame| == 8 && Be16(frame[4], frame[5]) == 38
    ensures |ModbusInterface(t, d, frame).0| == 5
    ensures ModbusInterface(t, d, frame).0[1] == ExceptionCode(frame[1])
  {
    var args := frame[2..|frame| - 2];
    var a := ReadRegistersAnswer(t, d, frame[1], args);
    var body := Body(frame[0], frame[1], a);
    assert ModbusInterface(t, d, frame).0 == WithCrc(body);
    assert WithCrc(body)[1] == body[1];
  }

  /** A read of at most 37 registers that the handler completes is sent
      as station, code, byte count 2n and the data, then the CRC. */
  lemma ReadReplyLength<D(!new)>(t: seq<ModbusEntry<D>>, d: D, frame: seq<byte>)
    requires ModbusTableValid(t) && Accepted(frame)
    requires frame[1] == 3 || frame[1] == 4
    requires |frame| == 8 && Be16(frame[4], frame[5]) <= 37
    requires ReadRegistersAnswer(t, d, frame[1], frame[2..6]).Normal?
    ensures var n := Be16(frame[4], frame[5]);
      |ModbusInterface(t, d, frame).0| == 5 + 2 * n
      && ModbusInterface(t, d, frame).0[1] == frame[1]
      && ModbusInterface(t, d, frame).0[2] == 2 * n
  {
    var args := frame[2..6];
    var a := ReadRegistersAnswer(t, d, frame[1], args);
    var body := Body(frame[0], frame[1], a);
    assert body == [frame[0], frame[1]] + a.payload;
    assert ModbusInterface(t, d, frame).0 == WithCrc(body);
    assert WithCrc(body)[1] == body[1] && WithCrc(body)[2] == body[2];
  }

  /** Code 3 consults only holding registers and code 4 only input
      registers: a start address with no entry of that kind is an illegal
      data address, whatever other kinds sit there. */
  lemma ReadUsesKindOfCode<D(!new)>(t: seq<ModbusEntry<D>>, d: D, fc: byte, args: seq<byte>)
    requires ModbusTableValid(t) && |args| == 4
    requires 1 <= Be16(args[2], args[3]) <= MAX_READ_REGISTERS
    requires var kind := if fc == 3 then HoldingRegister else InputRegister;
      forall i :: 0 <= i < |t| ==> !(t[i].kind == kind && t[i].addr == Be16(args[0], args[1]))
    ensures ReadRegistersAnswer(t, d, fc, args) == Exception(IllegalDataAddress)
  {
    var kind := if fc == 3 then HoldingRegister else InputRegister;
    var base := Be16(args[0], args[1]);
    assert (base + 0) % 0x1_0000 == base;
    assert FindModbus(t, kind, base).None?;
    assert ReadLoop(t, d, kind, base, Be16(args[2], args[3]), 0) == ReadFailed(IllegalDataAddress);
  }

  /** A reader that reports an error at the start address has its status
      passed through as the exception; an odd byte count is a server
      failure. */
  lemma ReaderOutcomePassedThrough<D(!new)>(t: seq<ModbusEntry<D>>, d: D, fc: byte, args: seq<byte>, k: nat)
    requires ModbusTableValid(t) && |args| == 4
    requires 1 <= Be16(args[2], args[3]) <= MAX_READ_REGISTERS
    requires k < |t| && t[k].kind == (if fc == 3 then HoldingRegister else InputRegister)
    requires t[k].addr == Be16(args[0], args[1]) && t[k].reader.Some?
    ensures var out := t[k].reader.value(d, 2 * Be16(args[2], args[3]));
      (out.code != Ok ==> ReadRegistersAnswer(t, d, fc, args) == Exception(out.code))
      && (out.code == Ok && out.consumed % 2 == 1 ==> ReadRegistersAnswer(t, d, fc, args) == Exception(SlaveOrServerFailure))
  {
    var kind := if fc == 3 then HoldingRegister else InputRegister;
    var base := Be16(args[0], args[1]);
    assert base % 0x1_0000 == base;
    var r := FindModbus(t, kind, base);
    assert r.Some? && r.value == k by {
      FindModbusUnique(t, kind, base, k);
    }
  }

  /** Table keys are unique, so a lookup can only find the one entry with
      its kind and address. */
  lemma FindModbusUnique<D(!new)>(t: seq<ModbusEntry<D>>, kind: ObjectKind, addr: nat, k: nat)
    requires ModbusTableValid(t) && addr < 0x1_0000
    requires k < |t| && t[k].kind == kind && t[k].addr == addr
    ensures FindModbus(t, kind, addr) == Some(k)
  {
    var r := FindModbus(t, kind, addr);
    var j := r.value;
    if j != k {
      var ks := ModbusKeys(t);
      assert ks[j] == ks[k];
      if j < k {
        assert LexLess(ks[j], ks[k]);
      } else {
        assert LexLess(ks[k], ks[j]);
      }
      LexIrreflexive(ks[j]);
    }
  }

  /** A write to an address without a writable holding register is an
      illegal data address, and no setter runs. */
  lemma WriteNeedsWritableHolding<D(!new)>(t: seq<ModbusEntry<D>>, d: D, args: seq<byte>)
    requires ModbusTableValid(t) && |args| == 4
    requires forall i :: 0 <= i < |t| ==>
      !(t[i].kind == HoldingRegister && t[i].addr == Be16(args[0], args[1]) && t[i].writer.Some?)
    ensures WriteRegisterAnswer(t, d, args) == (Exception(IllegalDataAddress), d)
  {
  }

  // ---------------------------------------------------------------
  // Runs of the register loops

  /** A run of the read loop: the register offsets it visits, each step
      advancing to the next, ending either at `n` or at an offset whose
      step stops the read. */
  predicate ReadRun<D(!new)>(t: seq<ModbusEntry<D>>, d: D, kind: ObjectKind, base: nat, n: nat, offs: seq<nat>)
    requires ModbusTableValid(t)
  {
    && |offs| > 0
    && (forall j :: 0 <= j < |offs| - 1 ==>
          && offs[j] < n
          && ReadStepAt(t, d, kind, base, n, offs[j]).Advance?
          && ReadStepAt(t, d, kind, base, n, offs[j]).next == offs[j + 1])
    && (offs[|offs| - 1] == n
        || (offs[|offs| - 1] < n && ReadStepAt(t, d, kind, base, n, offs[|offs| - 1]).Stop?))
  }

  /** The bytes the readers produced along a run, in register order. */
  function RunBytes<D(!new)>(t: seq<ModbusEntry<D>>, d: D, kind: ObjectKind, base: nat, n: nat, offs: seq<nat>): (bs: seq<byte>)
    requires ModbusTableValid(t)
    requires forall j :: 0 <= j < |offs| - 1 ==> offs[j] < n && ReadStepAt(t, d, kind, base, n, offs[j]).Advance?
    decreases |offs|
  {
    if |offs| <= 1 then []
    else ReadStepAt(t, d, kind, base, n, offs[0]).data + RunBytes(t, d, kind, base, n, offs[1..])
  }

  /** How a run ends: every register read, with the readers' bytes, or
      the status of the step that stopped it. */
  function ReadRunResult<D(!new)>(t: seq<ModbusEntry<D>>, d: D, kind: ObjectKind, base: nat, n: nat, offs: seq<nat>): (r: ReadResult)
    requires ModbusTableValid(t) && ReadRun(t, d, kind, base, n, offs)
  {
    var last := offs[|offs| - 1];
    if last == n then ReadData(RunBytes(t, d, kind, base, n, offs))
    else ReadFailed(ReadStepAt(t, d, kind, base, n, last).status)
  }

  /** Every run from offset `i` ends as the read loop from `i` does: the
      loop succeeds exactly when the run reaches `n`, with the readers'
      bytes in register order, and otherwise fails with the status of
      the first step that stopped. */
  lemma {:induction false} ReadRunDecides<D(!new)>(t: seq<ModbusEntry<D>>, d: D, kind: ObjectKind, base: nat, n: nat, offs: seq<nat>)
    requires ModbusTableValid(t) && ReadRun(t, d, kind, base, n, offs) && offs[0] <= n
    ensures ReadLoop(t, d, kind, base, n, offs[0]) == ReadRunResult(t, d, kind, base, n, offs)
    decreases |offs|
  {
    var i := offs[0];
    if |offs| > 1 {
      var rest := offs[1..];
      assert ReadRun(t, d, kind, base, n, rest) by {
        assert forall j :: 0 <= j < |rest| ==> rest[j] == offs[j + 1];
      }
      ReadRunDecides(t, d, kind, base, n, rest);
    }
  }

  /** The read loop from any offset has a run. */
  lemma {:induction false} ReadLoopHasRun<D(!new)>(t: seq<ModbusEntry<D>>, d: D, kind: ObjectKind, base: nat, n: nat, i: nat)
    returns (offs: seq<nat>)
    requires ModbusTableValid(t) && i <= n
    ensures ReadRun(t, d, kind, base, n, offs) && offs[0] == i
    decreases n - i
  {
    if i == n {
      offs := [i];
    } else {
      var st := ReadStepAt(t, d, kind, base, n, i);
      if st.Stop? {
        offs := [i];
      } else {
        var rest := ReadLoopHasRun(t, d, kind, base, n, st.next);
        offs := [i] + rest;
        assert offs[1..] == rest;
      }
    }
  }

  /** A read of at most 38 registers is answered normally exactly when
      the run from the start address reaches the last register, with the
      byte count followed by the readers' bytes in register order;
      otherwise the answer is the exception of the step that stopped. */
  lemma ReadRegistersByRun<D(!new)>(t: seq<ModbusEntry<D>>, d: D, fc: byte, args: seq<byte>, offs: seq<nat>)
    requires ModbusTableValid(t) && |args| == 4 && Be16(args[2], args[3]) <= MAX_READ_REGISTERS
    requires var kind := if fc == 3 then HoldingRegister else InputRegister;
      ReadRun(t, d, kind, Be16(args[0], args[1]), Be16(args[2], args[3]), offs) && offs[0] == 0
    ensures var kind := if fc == 3 then HoldingRegister else InputRegister;
      var base := Be16(args[0], args[1]);
      var n := Be16(args[2], args[3]);
      var last := offs[|offs| - 1];
      ReadRegistersAnswer(t, d, fc, args) ==
        if last == n then Normal([2 * n] + RunBytes(t, d, kind, base, n, offs))
        else Exception(ReadStepAt(t, d, kind, base, n, last).status)
  {
    var kind := if fc == 3 then HoldingRegister else InputRegister;
    ReadRunDecides(t, d, kind, Be16(args[0], args[1]), Be16(args[2], args[3]), offs);
  }

  /** A run of the write loop: the (offset, device state) pairs it
      passes, each step writing at its offset on the state the previous
      step left, ending either with all data consumed or at a step that
      halts the write. */
  ghost predicate WriteRun<D(!new)>(t: seq<ModbusEntry<D>>, base: nat, data: seq<byte>, steps: seq<(nat, D)>)
    requires ModbusTableValid(t)
  {
    && |steps| > 0
    && (forall j :: 0 <= j < |steps| - 1 ==>
          && steps[j].0 < |data|
          && WriteStepAt(t, steps[j].1, base, data, steps[j].0) == Written(steps[j + 1].0, steps[j + 1].1))
    && (steps[|steps| - 1].0 == |data|
        || (steps[|steps| - 1].0 < |data| && WriteStepAt(t, steps[|steps| - 1].1, base, data, steps[|steps| - 1].0).Halted?))
  }

  /** How a write run ends: `Ok` with the state after the last write, or
      the halting step's status and the state it left. */
  ghost function WriteRunResult<D(!new)>(t: seq<ModbusEntry<D>>, base: nat, data: seq<byte>, steps: seq<(nat, D)>): (r: (Status, D))
    requires ModbusTableValid(t) && WriteRun(t, base, data, steps)
  {
    var (o, dv) := steps[|steps| - 1];
    if o == |data| then (Ok, dv)
    else
      var h := WriteStepAt(t, dv, base, data, o);
      (h.status, h.dev)
  }

  /** Every run from offset `i` on state `d` ends as the write loop does:
      the writes happen in data order, each on the state the previous one
      left, and the first halting step ends the loop with its status and
      the state it left, earlier writes staying done. */
  lemma {:induction false} WriteRunDecides<D(!new)>(t: seq<ModbusEntry<D>>, base: nat, data: seq<byte>, steps: seq<(nat, D)>)
    requires ModbusTableValid(t) && WriteRun(t, base, data, steps) && steps[0].0 <= |data|
    ensures WriteLoop(t, steps[0].1, base, data, steps[0].0) == WriteRunResult(t, base, data, steps)
    decreases |steps|
  {
    var (i, d) := steps[0];
    if |steps| > 1 {
      var rest := steps[1..];
      assert WriteRun(t, base, data, rest) by {
        assert forall j :: 0 <= j < |rest| ==> rest[j] == steps[j + 1];
      }
      WriteRunDecides(t, base, data, rest);
    }
  }

  /** The write loop from any offset and state has a run. */
  lemma {:induction false} WriteLoopHasRun<D(!new)>(t: seq<ModbusEntry<D>>, d: D, base: nat, data: seq<byte>, i: nat)
    returns (steps: seq<(nat, D)>)
    requires ModbusTableValid(t) && i <= |data|
    ensures WriteRun(t, base, data, steps) && steps[0] == (i, d)
    decreases |data| - i
  {
    if i == |data| {
      steps := [(i, d)];
    } else {
      var st := WriteStepAt(t, d, base, data, i);
      if st.Halted? {
        steps := [(i, d)];
      } else {
        var rest := WriteLoopHasRun(t, st.dev, base, data, st.next);
        steps := [(i, d)] + rest;
        assert steps[1..] == rest;
      }
    }
  }

  /** A well-formed multiple-register write is answered with address and
      register count exactly when its run consumes all the data, leaving
      the state after the last write; otherwise it is answered with the
      halting step's exception and the state that step left. */
  lemma WriteRegistersByRun<D(!new)>(t: seq<ModbusEntry<D>>, d: D, args: seq<byte>, steps: seq<(nat, D)>)
    requires ModbusTableValid(t) && |args| >= 5 && 5 + args[4] as int == |args|
    requires WriteRun(t, Be16(args[0], args[1]), args[5..], steps) && steps[0] == (0, d)
    ensures var res := WriteRunResult(t, Be16(args[0], args[1]), args[5..], steps);
      WriteRegistersAnswer(t, d, args) ==
        if res.0 == Ok then (Normal(args[..4]), res.1) else (Exception(res.0), res.1)
  {
    WriteRunDecides(t, Be16(args[0], args[1]), args[5..], steps);
  }

  /** The progress the marshaller contracts assume is what ends the
      loops: a reader reporting OK with no bytes, or a writer reporting
      OK with none consumed, leaves the loop at the same offset with the
      same room and the same input, so the C loops would call it again
      forever. */
  lemma ZeroProgressStalls<D>(out: ReadOut, w: (WriteOut, D), o: nat)
    requires out.code == Ok && out.consumed == 0
    requires w.0.code == Ok && w.0.consumed == 0
    ensures ReadStepOf(out, o) == Advance(out.data, o)
    ensures WriteStepOf(w, o) == Written(o, w.1)
  {
  }

  /** A single-register write to a writable holding register runs its
      writer on the value bytes: the request is echoed exactly when the
      writer reports OK, its status is the exception otherwise, and the
      device state is the one the writer left either way. */
  lemma WriteRegisterEffect<D(!new)>(t: seq<ModbusEntry<D>>, d: D, args: seq<byte>, k: nat)
    requires ModbusTableValid(t) && |args| == 4
    requires k < |t| && t[k].kind == HoldingRegister && t[k].addr == Be16(args[0], args[1]) && t[k].writer.Some?
    ensures var w := t[k].writer.value(d, args[2..4]);
      WriteRegisterAnswer(t, d, args) ==
        if w.0.code == Ok then (Normal(args), w.1) else (Exception(w.0.code), w.1)
  {
  }
}

=== FILE: modbus_legacy.dfy ===
/** The earlier Modbus-RTU engine of avr/src/interface_modbus.c: the same
    envelope (length, station and CRC filtering, outbound CRC) with a
    single placeholder handler for function code 4. */
module ModbusLegacy {
  import opened Base
  import opened ModbusTypes
  import opened Search
  import opened Cmd
  import opened Crc16
  import Modbus

  /** The exception function byte of this engine: `0x80 + code` stored in
      a `uint8_t`, which wraps for codes of 0x80 and above. */
  function ExceptionCode(fc: byte): (r: byte)
    ensures fc < 0x80 ==> r == fc + 0x80
    ensures fc >= 0x80 ==> r == fc - 0x80
  {
    (0x80 + fc) % 0x100
  }

  /** The only handler, `read_input_registers`: whatever the request, it
      puts "kissa" after the header and reports seven bytes. */
  const PLACEHOLDER: seq<byte> := ['k' as int, 'i' as int, 's' as int, 's' as int, 'a' as int]

  /** `find_function_handler` over the one-row table `{4}`. */
  function HasHandler(code: byte): (r: bool)
    ensures r <==> code == 4
  {
    Find([[4]], [code as int]).Some?
  }

  /** The transmit buffer before the CRC. */
  function Body(station: byte, fc: byte): (r: seq<byte>)
    ensures |r| + 2 <= SERIAL_TX_LEN && |r| >= 3 && r[0] == station
    ensures fc == 4 ==> |r| == 7 && r[2..] == PLACEHOLDER
    ensures fc != 4 ==> |r| == 3 && r[1] == ExceptionCode(fc) && r[2] == Code(IllegalFunction)
  {
    if !HasHandler(fc) then [station, ExceptionCode(fc), Code(IllegalFunction)]
    else
      var ret := [station, fc] + PLACEHOLDER;
      if |ret| + 2 > SERIAL_TX_LEN then [station, ExceptionCode(fc), Code(SlaveOrServerFailure)]
      else ret
  }

  /** `interface_modbus`: the reply to a frame, empty when the frame is
      dropped. */
  function InterfaceModbus(frame: seq<byte>): (r: seq<byte>)
    ensures r == [] <==> !Modbus.Accepted(frame)
    ensures r != [] ==> CrcValid(r) && |r| <= SERIAL_TX_LEN && r[0] == Modbus.STATION_ID
    ensures r != [] && frame[1] == 4 ==> |r| == 9 && r[2..7] == PLACEHOLDER
    ensures r != [] && frame[1] != 4 ==> |r| == 5 && r[1] == ExceptionCode(frame[1]) && r[2] == 1
  {
    if |frame| < 6 || frame[0] != Modbus.STATION_ID || !CrcValid(frame) then []
    else Respond(frame)
  }

  /** The reply to an accepted frame: the placeholder answer to function
      4, "illegal function" to anything else, framed with its CRC. */
  function Respond(frame: seq<byte>): (r: seq<byte>)
    requires |frame| >= 2
    ensures CrcValid(r) && |r| <= SERIAL_TX_LEN && r[0] == frame[0]
    ensures frame[1] == 4 ==> |r| == 9 && r[2..7] == PLACEHOLDER
    ensures frame[1] != 4 ==> |r| == 5 && r[1] == ExceptionCode(frame[1]) && r[2] == 1
  {
    var body := Body(frame[0], frame[1]);
    var reply := Modbus.WithCrc(body);
    assert reply[..|body|] == body;
    assert frame[1] == 4 ==> reply[2..7] == body[2..];
    reply
  }

  /** Both engines give the same illegal-function reply to a code below
      0x80 that neither implements. */
  lemma EnginesAgreeOnUnknownCodes<D(!new)>(t: seq<ModbusEntry<D>>, d: D, frame: seq<byte>)
    requires ModbusTableValid(t) && Modbus.Accepted(frame)
    requires frame[1] < 0x80 && frame[1] !in Modbus.HANDLER_CODES
    ensures InterfaceModbus(frame) == Modbus.ModbusInterface(t, d, frame).0
  {
    Modbus.UnknownFunctionRejected(t, d, frame);
  }

  /** From 0x80 on the engines differ: the earlier one wraps the
      exception byte around, the later one keeps bit 0x80 set. */
  lemma ExceptionCodesDiverge(fc: byte)
    requires fc >= 0x80
    ensures ExceptionCode(fc) < 0x80 && Modbus.ExceptionCode(fc) >= 0x80
  {
  }
}

=== FILE: modbus_types.dfy ===
/** Object kinds and status codes shared by both protocol engines
    (avr/src/modbus_types.h). The status values are the exception codes
    of section 7 of the Modbus Application Protocol Specification V1.1b3. */
module ModbusTypes {
  import opened Base

  datatype ObjectKind = Coil | DiscreteInput | InputRegister | HoldingRegister

  /** The enumerator value of an object kind: an ASCII letter. */
  function Tag(k: ObjectKind): (t: byte)
    ensures IsAlpha(t as char)
  {
    match k
    case Coil => 'c' as int
    case DiscreteInput => 'd' as int
    case InputRegister => 'i' as int
    case HoldingRegister => 'h' as int
  }

  /** As a sort key the tags order the kinds coil, discrete input,
      holding register, input register. */
  lemma TagOrder()
    ensures Tag(Coil) < Tag(DiscreteInput) < Tag(HoldingRegister) < Tag(InputRegister)
    ensures forall a, b :: Tag(a) == Tag(b) ==> a == b
  {
  }

  datatype Status =
    | Ok
    | IllegalFunction
    | IllegalDataAddress
    | IllegalDataValue
    | SlaveOrServerFailure
    | Acknowledge
    | SlaveOrServerBusy
    | NegativeAcknowledge
    | MemoryParity
    | NotDefined
    | GatewayPath
    | GatewayTarget

  /** The numeric value of a status; it is stored verbatim as the
      exception byte of a Modbus reply. */
  function Code(s: Status): (c: byte)
    ensures c <= 11
    ensures (c == 0) == (s == Ok)
  {
    match s
    case Ok => 0
    case IllegalFunction => 1
    case IllegalDataAddress => 2
    case IllegalDataValue => 3
    case SlaveOrServerFailure => 4
    case Acknowledge => 5
    case SlaveOrServerBusy => 6
    case NegativeAcknowledge => 7
    case MemoryParity => 8
    case NotDefined => 9
    case GatewayPath => 10
    case GatewayTarget => 11
  }

  /** The status a numeric value names, if any. */
  function StatusOf(c: int): (r: Option<Status>)
    ensures r.Some? <==> 0 <= c <= 11
    ensures r.Some? ==> Code(r.value) == c
  {
    if c == 0 then Some(Ok)
    else if c == 1 then Some(IllegalFunction)
    else if c == 2 then Some(IllegalDataAddress)
    else if c == 3 then Some(IllegalDataValue)
    else if c == 4 then Some(SlaveOrServerFailure)
    else if c == 5 then Some(Acknowledge)
    else if c == 6 then Some(SlaveOrServerBusy)
    else if c == 7 then Some(NegativeAcknowledge)
    else if c == 8 then Some(MemoryParity)
    else if c == 9 then Some(NotDefined)
    else if c == 10 then Some(GatewayPath)
    else if c == 11 then Some(GatewayTarget)
    else None
  }

  /** Codes are one-to-one: OK is 0, the exceptions are exactly 1 to 11,
      and the four the engines raise carry their protocol numbers. */
  lemma CodeRoundTrip(s: Status)
    ensures StatusOf(Code(s)) == Some(s)
    ensures s != Ok ==> 1 <= Code(s) <= 11
    ensures Code(IllegalFunction) == 1 && Code(IllegalDataAddress) == 2
    ensures Code(IllegalDataValue) == 3 && Code(SlaveOrServerFailure) == 4
  {
  }
}

=== FILE: proto.dfy ===
/** The prototype firmware, avr_proto/src/main.c: a newline-framed line
    receiver with an overflow state, a NUL-terminated line sender, the
    saturating sample accumulators fed by the ADC interrupt, and the
    PING / READ command loop. */

module Proto {
  import opened Base

  /** Buffer sizes of the prototype. */
  const PROTO_TX_LEN: nat := 40
  const PROTO_RX_LEN: nat := 30

  // ---------------------------------------------------------------
  // Accumulators

  /** `count == ~0`: a full accumulator takes no more samples. */
  const COUNT_MAX: nat := 0xFFFF

  /** `sum` is a `uint32_t`. */
  const SUM_MOD: nat := 0x1_0000_0000

  /** The largest value of the 10-bit converter. */
  const ADC_MAX: nat := 1023

  /** `accu_t`: the sum of the samples and their number. */
  datatype Accu = Accu(sum: nat, count: nat)

  /** `accus_t`. */
  datatype Accus = Accus(k9Raw: Accu, intTemp: Accu, juksautin: Accu)

  const ZERO_ACCU: Accu := Accu(0, 0)
  const ZERO_ACCUS: Accus := Accus(ZERO_ACCU, ZERO_ACCU, ZERO_ACCU)

  predicate AccuValid(a: Accu)
  {
    a.sum < SUM_MOD && a.count <= COUNT_MAX
  }

  /** `store(a, val)`: a full accumulator is left alone; otherwise the
      sample is added (modulo 2^32) and counted. */
  function Store(a: Accu, val: nat): (r: Accu)
    requires AccuValid(a) && val < 0x1_0000
    ensures AccuValid(r) && r.count >= a.count
    ensures a.count == COUNT_MAX ==> r == a
    ensures a.count < COUNT_MAX ==> r.count == a.count + 1
  {
    if a.count == COUNT_MAX then a else Accu((a.sum + val) % SUM_MOD, a.count + 1)
  }

  /** The samples one after the other. */
  function Stores(a: Accu, vals: seq<nat>): (r: Accu)
    requires AccuValid(a) && forall i :: 0 <= i < |vals| ==> vals[i] < 0x1_0000
    ensures AccuValid(r)
  {
    if |vals| == 0 then a else Store(Stores(a, vals[..|vals| - 1]), vals[|vals| - 1])
  }

  function Sum(vals: seq<nat>): nat
  {
    if |vals| == 0 then 0 else Sum(vals[..|vals| - 1]) + vals[|vals| - 1]
  }

  function Min(a: nat, b: nat): nat
  {
    if a <= b then a else b
  }

  /** An accumulator whose samples are each at most `bound`. */
  predicate Bounded(a: Accu, bound: nat)
  {
    a.sum <= bound * a.count
  }

  /** With samples of at most `bound`, and `bound * 65535` below 2^32,
      the sum never wraps: the accumulator holds the exact sum of the
      first samples up to the saturation of the count, and its mean
      stays at most `bound`. */
  lemma {:induction false} StoresSum(a: Accu, vals: seq<nat>, bound: nat)
    requires AccuValid(a) && Bounded(a, bound) && bound < 0x1_0000 && bound * COUNT_MAX < SUM_MOD
    requires forall i :: 0 <= i < |vals| ==> vals[i] <= bound
    ensures var k := Min(|vals|, COUNT_MAX - a.count);
      && Stores(a, vals).count == a.count + k
      && Stores(a, vals).sum == a.sum + Sum(vals[..k])
      && Bounded(Stores(a, vals), bound)
  {
    if |vals| == 0 {
      assert vals[..0] == [];
    } else {
      var n := |vals|;
      var p := vals[..n - 1];
      var v := vals[n - 1];
      StoresSum(a, p, bound);
      var b := Stores(a, p);
      var k := Min(n, COUNT_MAX - a.count);
      if b.count == COUNT_MAX {
        assert k == Min(n - 1, COUNT_MAX - a.count);
        assert vals[..k] == p[..k];
      } else {
        assert k == n;
        assert p[..n - 1] == p;
        assert vals[..n][..n - 1] == p;
        assert Sum(vals[..n]) == Sum(p) + v;
        StoreBounded(b, v, bound);
      }
    }
  }

  /** One sample of at most `bound` into an unsaturated accumulator adds
      exactly and keeps the bound. */
  lemma StoreBounded(a: Accu, val: nat, bound: nat)
    requires AccuValid(a) && Bounded(a, bound) && bound * COUNT_MAX < SUM_MOD
    requires a.count < COUNT_MAX && val <= bound && bound < 0x1_0000
    ensures Store(a, val).sum == a.sum + val
    ensures Bounded(Store(a, val), bound)
  {
    assert bound * (a.count + 1) == bound * a.count + bound;
    MulMono(a.count + 1, COUNT_MAX, bound);
  }

  // ---------------------------------------------------------------
  // The converter interrupt

  /** `v_accu.juksautin.count & 0b111` picks the next input: the internal
      temperature sensor (8) once in eight, the thermistor (0) otherwise. */
  function NextChannel(count: nat): (ch: nat)
    ensures ch == 0 || ch == 8
  {
    if count % 8 == 0 then 8 else 0
  }

  /** Of eight consecutive counts exactly one selects the temperature
      sensor. */
  lemma OneTemperatureInEight(k: nat)
    ensures var j := k + (8 - k % 8) % 8;
      && k <= j < k + 8 && NextChannel(j) == 8
      && forall i :: k <= i < k + 8 && i != j ==> NextChannel(i) == 0
  {
  }

  /** The converter side: the accumulators, the pump state `juksautus`,
      the input being converted and whether the FB pin pulls down. */
  datatype Adc = Adc(accus: Accus, juksautus: bool, channel: nat, fbLow: bool)

  /** What every interrupt keeps: valid accumulators holding 10-bit
      samples, a ratio accumulator of zeros and ones, and the FB pin
      following the pump state. */
  predicate AdcValid(s: Adc)
  {
    && AccuValid(s.accus.k9Raw) && Bounded(s.accus.k9Raw, ADC_MAX)
    && AccuValid(s.accus.intTemp) && Bounded(s.accus.intTemp, ADC_MAX)
    && AccuValid(s.accus.juksautin) && Bounded(s.accus.juksautin, 1)
    && s.fbLow == s.juksautus
  }

  /** The state after `main`: empty accumulators, FB released, the
      temperature sensor selected. */
  function AdcInit(): (s: Adc)
    ensures AdcValid(s)
  {
    Adc(ZERO_ACCUS, false, 8, false)
  }

  /** `ISR(ADC_vect)` with the conversion result `val` and the target:
      the next input is chosen from the ratio count, a thermistor sample
      drives the pump (pull down while above target), each sample goes to
      its accumulator, and the pump state to the ratio accumulator. */
  function AdcIsr(s: Adc, val: nat, target: nat): (r: Adc)
    requires AdcValid(s) && val <= ADC_MAX
    ensures AdcValid(r)
    ensures r.channel == NextChannel(s.accus.juksautin.count)
    ensures s.channel == 0 ==> r.juksautus == (val > target)
    ensures s.channel != 0 ==> r.juksautus == s.juksautus
    ensures r.accus.k9Raw == if s.channel == 0 then Store(s.accus.k9Raw, val) else s.accus.k9Raw
    ensures r.accus.intTemp == if s.channel == 8 then Store(s.accus.intTemp, val) else s.accus.intTemp
    ensures r.accus.juksautin == Store(s.accus.juksautin, if r.juksautus then 1 else 0)
  {
    var next := NextChannel(s.accus.juksautin.count);
    var a := s.accus;
    var j := if s.channel == 0 then val > target else s.juksautus;
    var k9 := if s.channel == 0 then Store(a.k9Raw, val) else a.k9Raw;
    var temp := if s.channel == 8 then Store(a.intTemp, val) else a.intTemp;
    var ratio := Store(a.juksautin, if j then 1 else 0);
    StoreKeeps(a.k9Raw, val, ADC_MAX);
    StoreKeeps(a.intTemp, val, ADC_MAX);
    StoreKeeps(a.juksautin, if j then 1 else 0, 1);
    Adc(Accus(k9, temp, ratio), j, next, if s.channel == 0 then j else s.fbLow)
  }

  /** A sample within the bound keeps an accumulator bounded. */
  lemma StoreKeeps(a: Accu, val: nat, bound: nat)
    requires AccuValid(a) && Bounded(a, bound) && val <= bound && bound <= ADC_MAX
    ensures Bounded(Store(a, val), bound)
  {
    if a.count < COUNT_MAX {
      StoreBounded(a, val, bound);
    }
  }

  // ---------------------------------------------------------------
  // The line receiver

  /** `serial_rx`, `serial_rx_i` and `msg_available`. */
  datatype Receiver = Receiver(rx: seq<char>, rxI: nat, msgAvailable: bool)

  predicate ReceiverValid(r: Receiver)
  {
    |r.rx| == PROTO_RX_LEN && r.rxI <= PROTO_RX_LEN
  }

  /** `ISR(USART_RX_vect)` for the character `c`: every byte first
      clears the message flag. A full buffer ignores bytes until a
      newline, which then leaves an empty string; otherwise a newline
      ends the string and flags the message, and any other byte is
      appended. */
  function RxIsr(r: Receiver, c: char): (q: Receiver)
    requires ReceiverValid(r)
    ensures ReceiverValid(q)
    ensures q.msgAvailable <==> c == '\n' && r.rxI < PROTO_RX_LEN
    ensures c == '\n' ==> q.rxI == 0
    ensures c != '\n' ==> q.rx == (if r.rxI < PROTO_RX_LEN then r.rx[r.rxI := c] else r.rx)
  {
    var fail := r.rxI == PROTO_RX_LEN;
    var end := c == '\n';
    if fail then
      if end then Receiver(r.rx[0 := '\0'], 0, false) else r.(msgAvailable := false)
    else if end then Receiver(r.rx[r.rxI := '\0'], 0, true)
    else Receiver(r.rx[r.rxI := c], r.rxI + 1, false)
  }

  /** The characters one after the other. */
  function RxChars(r: Receiver, cs: seq<char>): (q: Receiver)
    requires ReceiverValid(r)
    ensures ReceiverValid(q)
    decreases |cs|
  {
    if |cs| == 0 then r else RxChars(RxIsr(r, cs[0]), cs[1..])
  }

  lemma {:induction false} RxCharsAppend(r: Receiver, a: seq<char>, b: seq<char>)
    requires ReceiverValid(r)
    ensures RxChars(r, a + b) == RxChars(RxChars(r, a), b)
    decreases |a|
  {
    if |a| > 0 {
      assert (a + b)[0] == a[0];
      assert (a + b)[1..] == a[1..] + b;
      RxCharsAppend(RxIsr(r, a[0]), a[1..], b);
    } else {
      assert a + b == b;
    }
  }

  /** Characters without a newline that fit are stored in order after the
      index, and the flag is down once one has arrived. */
  lemma {:induction false} RxStores(r: Receiver, cs: seq<char>)
    requires ReceiverValid(r) && '\n' !in cs && r.rxI + |cs| <= PROTO_RX_LEN
    ensures var q := RxChars(r, cs);
      && q.rxI == r.rxI + |cs|
      && q.rx[..r.rxI] == r.rx[..r.rxI]
      && q.rx[r.rxI..q.rxI] == cs
      && (|cs| > 0 ==> !q.msgAvailable)
      && (|cs| == 0 ==> q == r)
    decreases |cs|
  {
    if |cs| > 0 {
      var r1 := RxIsr(r, cs[0]);
      assert '\n' !in cs[1..] by {
        assert forall i :: 0 <= i < |cs| - 1 ==> cs[1..][i] == cs[i + 1];
      }
      RxStores(r1, cs[1..]);
      var q := RxChars(r1, cs[1..]);
      assert q.rx[..r.rxI] == q.rx[..r1.rxI][..r.rxI];
      assert q.rx[r.rxI..q.rxI] == [q.rx[r.rxI]] + q.rx[r1.rxI..q.rxI];
    }
  }

  /** A full buffer ignores everything up to a newline. */
  lemma {:induction false} RxIgnores(r: Receiver, cs: seq<char>)
    requires ReceiverValid(r) && '\n' !in cs && r.rxI == PROTO_RX_LEN
    ensures RxChars(r, cs).rx == r.rx && RxChars(r, cs).rxI == PROTO_RX_LEN
    ensures |cs| > 0 ==> !RxChars(r, cs).msgAvailable
    decreases |cs|
  {
    if |cs| > 0 {
      assert '\n' !in cs[1..] by {
        assert forall i :: 0 <= i < |cs| - 1 ==> cs[1..][i] == cs[i + 1];
      }
      RxIgnores(RxIsr(r, cs[0]), cs[1..]);
    }
  }

  /** A line shorter than the buffer, received from the start of it, is
      delivered: the flag is up and the buffer holds the line as a C
      string. */
  lemma RxLine(r: Receiver, line: string)
    requires ReceiverValid(r) && r.rxI == 0
    requires |line| < PROTO_RX_LEN && '\n' !in line && '\0' !in line
    ensures var q := RxChars(r, line + "\n");
      q.msgAvailable && q.rxI == 0 && CString(q.rx) == line
  {
    RxCharsAppend(r, line, "\n");
    RxStores(r, line);
    var p := RxChars(r, line);
    var q := RxIsr(p, '\n');
    assert RxChars(p, "\n") == RxChars(q, []);
    assert q.rx[..|line|] == p.rx[..|line|] == line;
    CStringAt(q.rx, |line|);
  }

  /** A line of the buffer's size or longer is not delivered: the flag
      stays down and the buffer holds the empty string. */
  lemma RxLongLine(r: Receiver, line: string)
    requires ReceiverValid(r) && r.rxI == 0
    requires |line| >= PROTO_RX_LEN && '\n' !in line
    ensures var q := RxChars(r, line + "\n");
      !q.msgAvailable && q.rxI == 0 && CString(q.rx) == ""
  {
    var a := line[..PROTO_RX_LEN];
    var b := line[PROTO_RX_LEN..];
    assert line + "\n" == a + (b + "\n");
    assert '\n' !in a && '\n' !in b by {
      assert forall i :: 0 <= i < |a| ==> a[i] == line[i];
      assert forall i :: 0 <= i < |b| ==> b[i] == line[PROTO_RX_LEN + i];
    }
    RxCharsAppend(r, a, b + "\n");
    RxStores(r, a);
    var p := RxChars(r, a);
    RxCharsAppend(p, b, "\n");
    RxIgnores(p, b);
    var p2 := RxChars(p, b);
    var q := RxIsr(p2, '\n');
    assert RxChars(p2, "\n") == RxChars(q, []);
    CStringAt(q.rx, 0);
  }

  // ---------------------------------------------------------------
  // The line sender

  /** `serial_tx`, `serial_tx_i`, the UDRE and TX-complete interrupt
      enables, and the characters written to the data register. */
  datatype Sender = Sender(tx: seq<char>, txI: nat, udrie: bool, txcie: bool, sent: seq<char>)

  /** The buffer is NUL-terminated and the index has not passed the NUL. */
  predicate SenderValid(s: Sender)
  {
    |s.tx| == PROTO_TX_LEN && '\0' in s.tx && s.txI <= |CString(s.tx)|
  }

  /** `ISR(USART_UDRE_vect)`: the NUL is sent as a newline and hands over
      to the TX-complete interrupt; any other character is sent and the
      index moves on. */
  function UdreIsr(s: Sender): (r: Sender)
    requires SenderValid(s)
    ensures SenderValid(r) && r.tx == s.tx
    ensures s.txI == |CString(s.tx)| ==> !r.udrie && r.txcie && r.sent == s.sent + "\n" && r.txI == s.txI
    ensures s.txI < |CString(s.tx)| ==> r.txI == s.txI + 1 && r.sent == s.sent + [s.tx[s.txI]] && r.udrie == s.udrie
  {
    var out := s.tx[s.txI];
    if out == '\0' then s.(txcie := true, udrie := false, sent := s.sent + "\n")
    else s.(sent := s.sent + [out], txI := s.txI + 1)
  }

  /** The UDRE interrupt runs while it is enabled. */
  function Drain(s: Sender): (r: Sender)
    requires SenderValid(s)
    ensures SenderValid(r) && !r.udrie
    decreases |CString(s.tx)| - s.txI, s.udrie
  {
    if s.udrie then Drain(UdreIsr(s)) else s
  }

  /** A started transmission puts the C string from the index on the
      wire, then a newline, and arms the TX-complete interrupt. */
  lemma {:induction false} DrainSends(s: Sender)
    requires SenderValid(s) && s.udrie
    ensures Drain(s).sent == s.sent + CString(s.tx)[s.txI..] + "\n"
    ensures Drain(s).txcie
    decreases |CString(s.tx)| - s.txI
  {
    var c := CString(s.tx);
    var r := UdreIsr(s);
    if s.txI == |c| {
      assert c[s.txI..] == [];
    } else {
      assert s.tx[s.txI] == c[s.txI];
      DrainSends(r);
      assert c[s.txI..] == [c[s.txI]] + c[s.txI + 1..];
      assert Drain(s).sent == s.sent + [c[s.txI]] + c[s.txI + 1..] + "\n";
    }
  }

  // ---------------------------------------------------------------
  // The command loop

  /** The prototype: receiver, sender, the receiver enable bit (toggled
      by `rx_toggle`), the RS-485 driver pin and the indicator LED (both
      toggled by `tx_toggle`), the counter `i`, and the converter state
      whose accumulators are the one `v_accu` that the ADC interrupt fills
      and READ empties. */
  datatype Board = Board(recv: Receiver, send: Sender, rxOn: bool, txEn: bool, led: bool, counter: nat, adc: Adc)

  /** A transmission holds the driver on and the receiver off from its
      start to its TX-complete interrupt; a message can only be flagged
      while receiving. */
  predicate BoardValid(b: Board)
  {
    && ReceiverValid(b.recv) && SenderValid(b.send) && AdcValid(b.adc) && b.counter < 0x1_0000
    && (b.send.udrie ==> !b.send.txcie)
    && (b.txEn <==> b.send.udrie || b.send.txcie)
    && (b.txEn ==> !b.rxOn)
    && (b.recv.msgAvailable ==> b.rxOn)
  }

  /** `strcpy(serial_tx, s)`, or `snprintf(serial_tx, 40, ...)` of the
      text `s`: at most 39 characters, then NUL. */
  function PutText(tx: seq<char>, s: string): (r: seq<char>)
    requires |tx| == PROTO_TX_LEN && '\0' !in s
    ensures |r| == PROTO_TX_LEN && '\0' in r && CString(r) == Take(s, PROTO_TX_LEN - 1)
  {
    var t := Take(s, PROTO_TX_LEN - 1);
    var r := t + "\0" + tx[|t| + 1..];
    assert r[..|t|] == t && r[|t|] == '\0';
    CStringAt(r, |t|);
    r
  }

  /** `serial_tx_start`: the driver is switched and the UDRE interrupt
      starts from the first character. */
  function TxStart(b: Board, tx: seq<char>): (r: Board)
    requires BoardValid(b) && !b.txEn && !b.rxOn && |tx| == PROTO_TX_LEN && '\0' in tx
    ensures BoardValid(r) && r.txEn && r.led == !b.led && r.send.udrie && r.send.txI == 0 && r.send.tx == tx
    ensures r.send.sent == b.send.sent && r.recv == b.recv && r.counter == b.counter && r.adc == b.adc
  {
    b.(txEn := !b.txEn, led := !b.led, send := b.send.(tx := tx, txI := 0, udrie := true))
  }

  /** `loop`: without a message nothing happens. Otherwise the flag is
      cleared, the receiver switched off and the counter stepped; "PING"
      is answered "PONG", "READ" with the reading that `render` prints
      from the counter and the accumulators (which are then zeroed), and
      any other line gets no answer and the receiver back on. */
  function Loop(b: Board, render: (nat, Accus) -> string): (r: Board)
    requires BoardValid(b)
    ensures BoardValid(r)
    ensures !b.recv.msgAvailable ==> r == b
    ensures b.recv.msgAvailable ==> !r.recv.msgAvailable && r.counter == Inc16(b.counter)
  {
    if !b.recv.msgAvailable then b
    else
      var b1 := b.(recv := b.recv.(msgAvailable := false), rxOn := !b.rxOn, counter := Inc16(b.counter));
      var line := CString(b.recv.rx);
      if line == "PING" then
        TxStart(b1, PutText(b1.send.tx, "PONG"))
      else if line == "READ" then
        var text := CString(render(b1.counter, b1.adc.accus));
        TxStart(b1.(adc := b1.adc.(accus := ZERO_ACCUS)), PutText(b1.send.tx, text))
      else b1.(rxOn := !b1.rxOn)
  }

  /** `ISR(USART_TX_vect)`: the driver goes back and the receiver on. */
  function TxDone(b: Board): (r: Board)
    requires BoardValid(b) && b.send.txcie
    ensures BoardValid(r) && !r.txEn && r.led == !b.led && r.rxOn && !r.send.txcie
    ensures r.send.sent == b.send.sent && r.recv == b.recv
  {
    b.(txEn := !b.txEn, led := !b.led, rxOn := !b.rxOn, send := b.send.(txcie := false))
  }

  /** The whole PING exchange: a board that has just received "PING"
      puts "PONG" and a newline on the wire and is then listening
      again. */
  lemma PingPong(b: Board, render: (nat, Accus) -> string)
    requires BoardValid(b) && b.recv.msgAvailable && CString(b.recv.rx) == "PING"
    ensures var b1 := Loop(b, render);
      && b1.send.udrie
      && var b2 := b1.(send := Drain(b1.send));
      && b2.send.txcie
      && var b3 := TxDone(b2);
      && b3.send.sent == b.send.sent + "PONG\n" && b3.rxOn && !b3.txEn
      && b1.led == !b.led && b3.led == b.led
  {
    var b1 := Loop(b, render);
    assert CString(b1.send.tx) == "PONG";
    DrainSends(b1.send);
  }

  /** A line that is neither command gets no answer: nothing is sent and
      the receiver is on again at once. */
  lemma OtherLinesIgnored(b: Board, render: (nat, Accus) -> string)
    requires BoardValid(b) && b.recv.msgAvailable
    requires CString(b.recv.rx) != "PING" && CString(b.recv.rx) != "READ"
    ensures Loop(b, render).send == b.send && Loop(b, render).rxOn && !Loop(b, render).txEn
    ensures Loop(b, render).adc == b.adc
  {
  }

  /** READ hands the accumulators as they were to the printer, zeroes
      them, and sends at most 39 characters of what it prints. */
  lemma ReadReports(b: Board, render: (nat, Accus) -> string)
    requires BoardValid(b) && b.recv.msgAvailable && CString(b.recv.rx) == "READ"
    ensures var r := Loop(b, render);
      && r.adc.accus == ZERO_ACCUS && r.send.udrie && r.send.txI == 0
      && CString(r.send.tx) == Take(CString(render(Inc16(b.counter), b.adc.accus)), PROTO_TX_LEN - 1)
  {
  }

  /** `ISR(ADC_vect)` on the board: the converter step on the board's
      accumulators, and nothing else of the board changes. */
  function BoardAdc(b: Board, val: nat, target: nat): (r: Board)
    requires BoardValid(b) && val <= ADC_MAX
    ensures BoardValid(r)
    ensures r.recv == b.recv && r.send == b.send && r.rxOn == b.rxOn && r.txEn == b.txEn
    ensures r.led == b.led && r.counter == b.counter
    ensures r.adc.accus.juksautin.count == Min(b.adc.accus.juksautin.count + 1, COUNT_MAX)
  {
    b.(adc := AdcIsr(b.adc, val, target))
  }

  /** `ISR(USART_RX_vect)` on the board. It fires only while `rx_toggle`
      has the receiver enabled: with the receiver off, an arriving byte
      changes nothing. */
  function BoardRx(b: Board, c: char): (r: Board)
    requires BoardValid(b)
    ensures BoardValid(r)
    ensures !b.rxOn ==> r == b
    ensures b.rxOn ==> r.recv == RxIsr(b.recv, c)
    ensures r.send == b.send && r.rxOn == b.rxOn && r.txEn == b.txEn && r.adc == b.adc
  {
    if b.rxOn then b.(recv := RxIsr(b.recv, c)) else b
  }

  /** While a reply is on the wire the receiver is off, so bytes arriving
      then are lost and cannot flag a message. */
  lemma {:induction false} DeafWhileSending(b: Board, cs: seq<char>)
    requires BoardValid(b) && b.txEn
    ensures BoardRxChars(b, cs) == b
    decreases |cs|
  {
    if |cs| > 0 {
      DeafWhileSending(BoardRx(b, cs[0]), cs[1..]);
    }
  }

  /** The bytes one after the other on the board. */
  function BoardRxChars(b: Board, cs: seq<char>): (r: Board)
    requires BoardValid(b)
    ensures BoardValid(r)
    decreases |cs|
  {
    if |cs| == 0 then b else BoardRxChars(BoardRx(b, cs[0]), cs[1..])
  }

  /** READ empties the ratio accumulator too, so the conversion that
      follows a READ always measures the temperature sensor. */
  lemma ReadRestartsCycle(b: Board, render: (nat, Accus) -> string, val: nat, target: nat)
    requires BoardValid(b) && b.recv.msgAvailable && CString(b.recv.rx) == "READ"
    requires val <= ADC_MAX
    ensures BoardAdc(Loop(b, render), val, target).adc.channel == 8
  {
    ReadReports(b, render);
  }
}

=== FILE: search.dfy ===
/** The ordering `memcmp`/`strcmp` impose on byte strings and the
    binary search `bsearch` performs with such a comparator. Both command
    tables and the Modbus handler table are searched this way. */
module Search {
  import opened Base

  /** Lexicographic order on element values; a proper prefix comes first. */
  predicate LexLess(a: seq<int>, b: seq<int>)
    decreases |a|
  {
    if |a| == 0 then |b| > 0
    else if |b| == 0 then false
    else a[0] < b[0] || (a[0] == b[0] && LexLess(a[1..], b[1..]))
  }

  /** Sign of the C comparator: negative, zero or positive. */
  function Cmp(a: seq<int>, b: seq<int>): (r: int)
    ensures r == 0 <==> a == b
    ensures r < 0 <==> LexLess(a, b)
  {
    LexIrreflexive(a);
    if a == b then 0 else if LexLess(a, b) then -1 else 1
  }

  lemma {:induction false} LexIrreflexive(a: seq<int>)
    ensures !LexLess(a, a)
    decreases |a|
  {
    if |a| > 0 {
      LexIrreflexive(a[1..]);
    }
  }

  lemma {:induction false} LexTransitive(a: seq<int>, b: seq<int>, c: seq<int>)
    requires LexLess(a, b) && LexLess(b, c)
    ensures LexLess(a, c)
    decreases |a|
  {
    if |a| > 0 && a[0] == b[0] && b[0] == c[0] {
      LexTransitive(a[1..], b[1..], c[1..]);
    }
  }

  lemma {:induction false} LexTotal(a: seq<int>, b: seq<int>)
    ensures a == b || LexLess(a, b) || LexLess(b, a)
    decreases |a|
  {
    if |a| > 0 && |b| > 0 && a[0] == b[0] {
      LexTotal(a[1..], b[1..]);
      if a[1..] == b[1..] {
        assert a == [a[0]] + a[1..] && b == [b[0]] + b[1..];
      }
    }
  }

  /** The table invariant both binary searches need. */
  ghost predicate StrictlySorted(keys: seq<seq<int>>)
  {
    forall i, j :: 0 <= i < j < |keys| ==> LexLess(keys[i], keys[j])
  }

  /** A key below `keys[mid]` occurs nowhere at or after `mid`. */
  lemma AbsentAbove(keys: seq<seq<int>>, key: seq<int>, mid: nat, hi: nat)
    requires StrictlySorted(keys) && mid < hi <= |keys|
    requires LexLess(key, keys[mid])
    ensures forall i :: mid <= i < hi ==> keys[i] != key
  {
    forall i | mid <= i < hi
      ensures keys[i] != key
    {
      if i > mid {
        LexTransitive(key, keys[mid], keys[i]);
      }
      LexIrreflexive(key);
    }
  }

  /** A key above `keys[mid]` occurs nowhere at or before `mid`. */
  lemma AbsentBelow(keys: seq<seq<int>>, key: seq<int>, lo: nat, mid: nat)
    requires StrictlySorted(keys) && lo <= mid < |keys|
    requires LexLess(keys[mid], key)
    ensures forall i :: lo <= i <= mid ==> keys[i] != key
  {
    forall i | lo <= i <= mid
      ensures keys[i] != key
    {
      if i < mid {
        LexTransitive(keys[i], keys[mid], key);
      }
      LexIrreflexive(key);
    }
  }

  /** `bsearch` over `keys[lo..hi]`: halve the range around its middle
      element until the comparator reports equality or the range is empty. */
  function FindIn(keys: seq<seq<int>>, key: seq<int>, lo: nat, hi: nat): (r: Option<nat>)
    requires StrictlySorted(keys) && lo <= hi <= |keys|
    ensures r.Some? ==> lo <= r.value < hi && keys[r.value] == key
    ensures r.None? ==> forall i :: lo <= i < hi ==> keys[i] != key
    decreases hi - lo
  {
    if lo == hi then None
    else
      var mid := lo + (hi - lo) / 2;
      var c := Cmp(key, keys[mid]);
      if c == 0 then Some(mid)
      else if c < 0 then
        AbsentAbove(keys, key, mid, hi);
        FindIn(keys, key, lo, mid)
      else
        LexTotal(key, keys[mid]);
        AbsentBelow(keys, key, lo, mid);
        FindIn(keys, key, mid + 1, hi)
  }

  /** Binary search over a whole table: the position of the key, or
      nothing exactly when the key is absent. */
  function Find(keys: seq<seq<int>>, key: seq<int>): (r: Option<nat>)
    requires StrictlySorted(keys)
    ensures r.Some? ==> r.value < |keys| && keys[r.value] == key
    ensures r.None? <==> key !in keys
  {
    FindIn(keys, key, 0, |keys|)
  }
}

=== FILE: serial.dfy ===
/** The frame transport of avr/src/serial.c: silence-delimited receive
    frames in a double buffer, a two-phase timer between frames, and
    interrupt-driven half-duplex transmission from `serial_tx`.

    Each interrupt handler and each API call is one function from the
    transport state to the next; an event happens atomically. The two
    receive buffers keep their size as a field so that the buffers as
    declared (`SERIAL_RX_LEN` bytes) and one byte larger can be compared.

    Hardware facts the model relies on are preconditions of the events:
    the receive interrupt does not fire while the RS-485 driver is on
    (half duplex), the timer interrupt fires only while armed, the UDRE
    interrupt only while enabled, and the transmit-complete interrupt
    only after the last queued byte has gone out. */
module Serial {
  import opened Base

  datatype RxState = RxActive | RxEnd | RxTxReady

  /** Which of the two receive buffers. */
  datatype Which = A | B

  function Other(w: Which): (r: Which)
    ensures r != w
  {
    if w == A then B else A
  }

  /** `serial_counter_t`. */
  datatype Counters = Counters(good: nat, flipTimeout: nat, tooLongRx: nat, tooLongTx: nat)

  const ZERO_COUNTERS: Counters := Counters(0, 0, 0, 0)

  function Total(c: Counters): nat
  {
    c.good + c.flipTimeout + c.tooLongRx + c.tooLongTx
  }

  /** `~0` stored in the `uint8_t` receive index: the overflow mark. */
  const RX_OVERFLOW: nat := 255

  /** The state of serial.c. `udrie` is the UDRE interrupt enable,
      `txEn` the RS-485 driver pin, `timerArmed` the one-shot timer, and
      `led` the indicator pin, which every transmission toggles at its
      start and again at its end, and `sent` the bytes written to the
      data register so far. */
  datatype Transport = Transport(
    bufA: seq<byte>, bufB: seq<byte>,
    back: Which, front: Option<Which>, frontLen: nat, rxI: nat,
    rxState: RxState, timerArmed: bool,
    tx: seq<char>, txLen: nat, txI: nat, txState: bool,
    udrie: bool, txEn: bool, led: bool, sent: seq<char>,
    counts: Counters)
  {
    function Buf(w: Which): seq<byte>
    {
      if w == A then bufA else bufB
    }

    /** What every reachable state keeps: equal buffers of at least
        `SERIAL_RX_LEN` bytes, an index inside them or at the overflow
        mark, a held front buffer distinct from the back one, the timer
        armed exactly between a byte and the end of the second phase,
        and a transmission that runs only from the ready state over a
        queued length inside `serial_tx`. */
    ghost predicate Valid()
    {
      && |bufA| == |bufB| >= SERIAL_RX_LEN
      && |tx| == SERIAL_TX_LEN
      && (rxI <= SERIAL_RX_LEN || rxI == RX_OVERFLOW)
      && (front.Some? ==> front.value != back && frontLen <= SERIAL_RX_LEN)
      && (rxState == RxTxReady <==> !timerArmed)
      && txI <= txLen <= SERIAL_TX_LEN
      && (!txState ==> txI == 0 && !udrie && !txEn)
      && (txState ==> 1 <= txLen)
      && (udrie ==> txEn && txI < txLen)
      && (txEn ==> txState && rxState == RxTxReady)
      && (txEn && !udrie ==> txI == txLen)
      && (txState && !txEn ==> txI == 0)
    }
  }

  /** The state after `serial_init` with receive buffers of `size`
      bytes: nothing received, nothing to send, ready to transmit. */
  function Init(size: nat): (s: Transport)
    requires size >= SERIAL_RX_LEN
    ensures s.Valid() && s.front.None? && s.rxI == 0 && !s.txState && s.counts == ZERO_COUNTERS
  {
    Transport(seq(size, i => 0), seq(size, i => 0), A, None, 0, 0, RxTxReady, false,
              seq(SERIAL_TX_LEN, i => '\0'), 0, 0, false, false, false, false, [], ZERO_COUNTERS)
  }

  // ---------------------------------------------------------------
  // Receiving

  /** `ISR(USART_RX_vect)`: arm the timer, become active, and store the
      byte at the index, or mark the frame overflowed once the index has
      reached `SERIAL_RX_LEN`. */
  function RxByte(s: Transport, b: byte): (r: Transport)
    requires s.Valid() && !s.txEn
    ensures r.Valid() && !r.txEn && |r.bufA| == |s.bufA|
    ensures r.rxState == RxActive && r.timerArmed
    ensures r.front == s.front && r.frontLen == s.frontLen && r.back == s.back && r.counts == s.counts
    ensures r.tx == s.tx && r.txState == s.txState && r.sent == s.sent
    ensures r.Buf(Other(s.back)) == s.Buf(Other(s.back))
  {
    var s1 := s.(rxState := RxActive, timerArmed := true);
    if s.rxI >= SERIAL_RX_LEN then s1.(rxI := RX_OVERFLOW)
    else if s.back == A then s1.(bufA := s.bufA[s.rxI := b], rxI := s.rxI + 1)
    else s1.(bufB := s.bufB[s.rxI := b], rxI := s.rxI + 1)
  }

  /** `end_of_frame`: count the frame as too long (checked first), as
      missed because the front buffer is still held, or as good, in
      which case the back buffer becomes the front one; then rewind. */
  function EndOfFrame(s: Transport): (r: Transport)
    requires s.Valid()
    ensures r.Valid() && r.rxI == 0
    ensures Total(r.counts) == Total(s.counts) + 1
    ensures s.rxI > SERIAL_RX_LEN ==>
      r.counts == s.counts.(tooLongRx := s.counts.tooLongRx + 1) && r.front == s.front && r.back == s.back
    ensures s.rxI <= SERIAL_RX_LEN && s.front.Some? ==>
      r.counts == s.counts.(flipTimeout := s.counts.flipTimeout + 1) && r.front == s.front && r.back == s.back
    ensures s.rxI <= SERIAL_RX_LEN && s.front.None? ==>
      && r.counts == s.counts.(good := s.counts.good + 1)
      && r.front == Some(s.back) && r.frontLen == s.rxI && r.back == Other(s.back)
    ensures r.bufA == s.bufA && r.bufB == s.bufB
  {
    if s.rxI > SERIAL_RX_LEN then
      s.(counts := s.counts.(tooLongRx := s.counts.tooLongRx + 1), rxI := 0)
    else if s.front.Some? then
      s.(counts := s.counts.(flipTimeout := s.counts.flipTimeout + 1), rxI := 0)
    else
      s.(counts := s.counts.(good := s.counts.good + 1), frontLen := s.rxI,
         front := Some(s.back), back := Other(s.back), rxI := 0)
  }

  /** `transmit_now`: toggle the indicator LED, drive the bus and let
      the UDRE interrupt run. */
  function TransmitNow(s: Transport): (r: Transport)
    requires s.Valid() && s.txState && !s.txEn && s.rxState == RxTxReady
    ensures r.Valid() && r.udrie && r.txEn && r.led == !s.led
    ensures r == s.(udrie := r.udrie, txEn := r.txEn, led := r.led)
  {
    s.(txEn := true, udrie := true, led := !s.led)
  }

  /** `ISR(TIMER2_COMPB_vect)`: the first expiry after a byte ends the
      frame and re-arms the timer; the second makes the line ready and
      starts a pending transmission. */
  function TimerExpired(s: Transport): (r: Transport)
    requires s.Valid() && s.timerArmed
    ensures r.Valid() && |r.bufA| == |s.bufA|
    ensures s.rxState == RxActive ==> r.rxState == RxEnd && r.timerArmed && r == EndOfFrame(s).(rxState := RxEnd)
    ensures s.rxState != RxActive ==> r.rxState == RxTxReady && !r.timerArmed && r.rxI == s.rxI
    ensures s.rxState != RxActive ==> (r.udrie <==> s.txState) && r.counts == s.counts
  {
    if s.rxState == RxActive then EndOfFrame(s).(rxState := RxEnd)
    else
      var s1 := s.(rxState := RxTxReady, timerArmed := false);
      if s.txState then TransmitNow(s1) else s1
  }

  /** Bytes arriving one after another. */
  function RxBytes(s: Transport, bs: seq<byte>): (r: Transport)
    requires s.Valid() && !s.txEn
    ensures r.Valid() && !r.txEn && |r.bufA| == |s.bufA|
    ensures r.front == s.front && r.frontLen == s.frontLen && r.back == s.back && r.counts == s.counts
    ensures r.tx == s.tx && r.txState == s.txState && r.sent == s.sent
    ensures |bs| > 0 ==> r.rxState == RxActive && r.timerArmed
    ensures |bs| == 0 ==> r == s
    decreases |bs|
  {
    if |bs| == 0 then s else RxBytes(RxByte(s, bs[0]), bs[1..])
  }

  /** From an empty back buffer, up to `SERIAL_RX_LEN` bytes land at its
      start, in order; one byte more marks the frame overflowed. */
  lemma {:induction false} RxBytesStore(s: Transport, bs: seq<byte>)
    requires s.Valid() && !s.txEn && s.rxI + |bs| <= SERIAL_RX_LEN
    ensures RxBytes(s, bs).rxI == s.rxI + |bs|
    ensures RxBytes(s, bs).Buf(s.back)[..s.rxI] == s.Buf(s.back)[..s.rxI]
    ensures RxBytes(s, bs).Buf(s.back)[s.rxI..s.rxI + |bs|] == bs
    ensures RxBytes(s, bs).Buf(Other(s.back)) == s.Buf(Other(s.back))
    decreases |bs|
  {
    if |bs| > 0 {
      var s1 := RxByte(s, bs[0]);
      assert s1.Buf(s.back) == s.Buf(s.back)[s.rxI := bs[0]];
      RxBytesStore(s1, bs[1..]);
      var r := RxBytes(s, bs);
      assert r == RxBytes(s1, bs[1..]);
      assert r.Buf(s.back)[s.rxI..s.rxI + |bs|] == [bs[0]] + bs[1..];
    }
  }

  /** Once the index is past the buffer it stays at the overflow mark. */
  lemma {:induction false} RxBytesOverflow(s: Transport, bs: seq<byte>)
    requires s.Valid() && !s.txEn && s.rxI >= SERIAL_RX_LEN && |bs| > 0
    ensures RxBytes(s, bs).rxI == RX_OVERFLOW
    decreases |bs|
  {
    if |bs| > 1 {
      RxBytesOverflow(RxByte(s, bs[0]), bs[1..]);
    }
  }

  /** A frame of `bs` on an idle line, followed by the silence that
      ends it. */
  function ReceiveFrame(s: Transport, bs: seq<byte>): (r: Transport)
    requires s.Valid() && !s.txEn && |bs| > 0
    ensures r.Valid() && r.rxI == 0
  {
    TimerExpired(RxBytes(s, bs))
  }

  /** A frame of at most `SERIAL_RX_LEN` bytes arriving while no front
      buffer is held becomes the front buffer, holding those bytes;
      a longer one is counted as too long and is never handed out. */
  lemma FrameArrives(s: Transport, bs: seq<byte>)
    requires s.Valid() && !s.txEn && s.rxI == 0 && s.front.None? && |bs| > 0
    ensures |bs| <= SERIAL_RX_LEN ==>
      && ReceiveFrame(s, bs).front == Some(s.back)
      && ReceiveFrame(s, bs).frontLen == |bs|
      && ReceiveFrame(s, bs).Buf(s.back)[..|bs|] == bs
      && ReceiveFrame(s, bs).counts == s.counts.(good := s.counts.good + 1)
    ensures |bs| > SERIAL_RX_LEN ==>
      && ReceiveFrame(s, bs).front.None?
      && ReceiveFrame(s, bs).counts == s.counts.(tooLongRx := s.counts.tooLongRx + 1)
  {
    if |bs| <= SERIAL_RX_LEN {
      RxBytesStore(s, bs);
    } else {
      RxBytesStore(s, bs[..SERIAL_RX_LEN]);
      RxBytesSplit(s, bs[..SERIAL_RX_LEN], bs[SERIAL_RX_LEN..]);
      assert bs[..SERIAL_RX_LEN] + bs[SERIAL_RX_LEN..] == bs;
      RxBytesOverflow(RxBytes(s, bs[..SERIAL_RX_LEN]), bs[SERIAL_RX_LEN..]);
    }
  }

  lemma {:induction false} RxBytesSplit(s: Transport, xs: seq<byte>, ys: seq<byte>)
    requires s.Valid() && !s.txEn
    ensures RxBytes(s, xs + ys) == RxBytes(RxBytes(s, xs), ys)
    decreases |xs|
  {
    if |xs| > 0 {
      assert (xs + ys)[0] == xs[0] && (xs + ys)[1..] == xs[1..] + ys;
      RxBytesSplit(RxByte(s, xs[0]), xs[1..], ys);
      assert RxBytes(s, xs + ys) == RxBytes(RxByte(s, xs[0]), xs[1..] + ys);
    } else {
      assert xs + ys == ys;
    }
  }

  // ---------------------------------------------------------------
  // The front buffer

  /** `serial_get_message` stores a NUL at `front[front_len]`; that cell
      exists only when the length is below the buffer's size. */
  predicate NulFits(s: Transport)
  {
    s.front.Some? ==> s.frontLen < |s.bufA| && s.frontLen < |s.bufB|
  }

  /** `serial_get_message`: nothing when no front buffer is held;
      otherwise the front buffer, NUL-terminated at its length, and
      that length. */
  function GetMessage(s: Transport): (r: (Transport, Option<seq<byte>>, nat))
    requires s.Valid() && NulFits(s)
    ensures r.0.Valid() && r.0.front == s.front && r.0.counts == s.counts
    ensures r.0.txState == s.txState && r.0.tx == s.tx && r.0.sent == s.sent
    ensures r.1.None? <==> s.front.None?
    ensures r.1.None? ==> r.2 == 0
    ensures r.1.Some? ==>
      && r.2 == s.frontLen && r.2 < |r.1.value| && r.1.value == r.0.Buf(s.front.value)
      && r.1.value[..r.2] == s.Buf(s.front.value)[..r.2] && r.1.value[r.2] == 0
  {
    match s.front
    case None => (s, None, 0)
    case Some(w) =>
      var s1 := if w == A then s.(bufA := s.bufA[s.frontLen := 0]) else s.(bufB := s.bufB[s.frontLen := 0]);
      assert s1.Buf(w)[..s.frontLen] == s.Buf(w)[..s.frontLen];
      (s1, Some(s1.Buf(w)), s.frontLen)
  }

  /** `serial_free_message`: release the front buffer. */
  function FreeMessage(s: Transport): (r: Transport)
    requires s.Valid()
    ensures r.Valid() && r.front.None? && r.back == s.back && r.rxI == s.rxI
    ensures r.tx == s.tx && r.txState == s.txState && r.counts == s.counts
  {
    s.(front := None)
  }

  /** As declared, with buffers of `SERIAL_RX_LEN` bytes, a frame of
      exactly `SERIAL_RX_LEN` bytes is accepted and `serial_get_message`
      then stores its NUL one past the end of the buffer. */
  lemma NulOverrunsAsWritten(s: Transport, bs: seq<byte>)
    requires s.Valid() && !s.txEn && s.rxI == 0 && s.front.None?
    requires |s.bufA| == SERIAL_RX_LEN && |bs| == SERIAL_RX_LEN
    ensures ReceiveFrame(s, bs).front.Some?
    ensures ReceiveFrame(s, bs).frontLen == |ReceiveFrame(s, bs).Buf(ReceiveFrame(s, bs).front.value)|
    ensures !NulFits(ReceiveFrame(s, bs))
  {
    FrameArrives(s, bs);
  }

  /** The state after `serial_init` with the declared buffers can
      receive such a frame. */
  lemma InitCanOverrun()
    ensures Init(SERIAL_RX_LEN).Valid() && !Init(SERIAL_RX_LEN).txEn
    ensures Init(SERIAL_RX_LEN).rxI == 0 && Init(SERIAL_RX_LEN).front.None?
    ensures |Init(SERIAL_RX_LEN).bufA| == SERIAL_RX_LEN
  {
  }

  /** With buffers of `SERIAL_RX_LEN + 1` bytes the NUL always fits. */
  lemma NulFitsWithSpareByte(s: Transport)
    requires s.Valid() && |s.bufA| == SERIAL_RX_LEN + 1
    ensures NulFits(s)
  {
  }

  /** `pull_serial_counters`: the counters, which are then all zero. */
  function PullCounters(s: Transport): (r: (Counters, Transport))
    requires s.Valid()
    ensures r.0 == s.counts
    ensures r.1.Valid()
    ensures Total(r.1.counts) == 0
  {
    (s.counts, s.(counts := ZERO_COUNTERS))
  }

  // ---------------------------------------------------------------
  // Transmitting

  /** A store into the global `serial_tx` by an engine; nothing else of
      the transport changes. */
  function SetTx(s: Transport, tx: seq<char>): (r: Transport)
    requires s.Valid() && |tx| == SERIAL_TX_LEN
    ensures r.Valid() && r.tx == tx
    ensures r.front == s.front && r.txState == s.txState && r.rxState == s.rxState
    ensures r.counts == s.counts && r.sent == s.sent
  {
    s.(tx := tx)
  }

  /** `serial_tx_bin(len)`: too long counts an error and sends nothing,
      zero does nothing, otherwise the length is queued and the
      transmission starts at once if the line is ready (else at the end
      of the second timer phase). The one caller checks
      `serial_is_transmitting` first. */
  function TxBin(s: Transport, len: nat): (r: Transport)
    requires s.Valid() && !s.txState && len < 256
    ensures r.Valid()
    ensures len > SERIAL_TX_LEN ==> r == s.(counts := s.counts.(tooLongTx := s.counts.tooLongTx + 1))
    ensures len == 0 ==> r == s
    ensures 0 < len <= SERIAL_TX_LEN ==>
      && r.txState && r.txLen == len && r.txI == 0 && r.tx == s.tx && r.sent == s.sent
      && (r.udrie <==> s.rxState == RxTxReady) && r.counts == s.counts
      && r.led == (if s.rxState == RxTxReady then !s.led else s.led)
  {
    if len > SERIAL_TX_LEN then s.(counts := s.counts.(tooLongTx := s.counts.tooLongTx + 1))
    else if len == 0 then s
    else
      var s1 := s.(txLen := len, txState := true);
      if s.rxState == RxTxReady then TransmitNow(s1) else s1
  }

  /** `strnlen(serial_tx, SERIAL_TX_LEN)`. */
  function StrnLen(tx: seq<char>): (n: nat)
    requires |tx| == SERIAL_TX_LEN
    ensures n <= SERIAL_TX_LEN && n == |CString(tx)|
    ensures n < SERIAL_TX_LEN ==> tx[n] == '\0'
  {
    |CString(tx)|
  }

  /** `serial_tx_line`: a buffer without NUL counts an error; otherwise
      the NUL becomes a newline (with '>' marking a line that filled the
      buffer) and the line with its newline is queued. */
  function TxLine(s: Transport): (r: Transport)
    requires s.Valid() && !s.txState
    ensures r.Valid()
    ensures StrnLen(s.tx) == SERIAL_TX_LEN ==> r == s.(counts := s.counts.(tooLongTx := s.counts.tooLongTx + 1))
    ensures StrnLen(s.tx) < SERIAL_TX_LEN ==> r.txState && r.txLen == StrnLen(s.tx) + 1 && r.txI == 0
    ensures StrnLen(s.tx) < SERIAL_TX_LEN ==> r.led == (if s.rxState == RxTxReady then !s.led else s.led)
  {
    var len := StrnLen(s.tx);
    if len == SERIAL_TX_LEN then s.(counts := s.counts.(tooLongTx := s.counts.tooLongTx + 1))
    else
      var t1 := if len + 1 >= SERIAL_TX_LEN then s.tx[SERIAL_TX_LEN - 2 := '>'] else s.tx;
      TxBin(s.(tx := t1[len := '\n']), len + 1)
  }

  /** The bytes `serial_tx_line` queues: the line and a newline; a line
      of 79 characters has its next-to-last one replaced by '>'. */
  lemma LineQueued(s: Transport)
    requires s.Valid() && !s.txState && StrnLen(s.tx) < SERIAL_TX_LEN
    ensures var n := StrnLen(s.tx);
      && n + 1 < SERIAL_TX_LEN ==> TxLine(s).tx[..n + 1] == CString(s.tx) + "\n"
    ensures var n := StrnLen(s.tx);
      && n + 1 == SERIAL_TX_LEN ==>
         TxLine(s).tx[..n + 1] == CString(s.tx)[..n - 1] + ">" + "\n"
  {
    var n := StrnLen(s.tx);
    assert s.tx[..n] == CString(s.tx);
    if n + 1 == SERIAL_TX_LEN {
      assert TxLine(s).tx[..n + 1] == CString(s.tx)[..n - 1] + ">" + "\n";
    } else {
      assert TxLine(s).tx[..n + 1] == CString(s.tx) + "\n";
    }
  }

  /** `ISR(USART_UDRE_vect)`: send the byte at the index, and disable
      this interrupt when it is the last one. */
  function Udre(s: Transport): (r: Transport)
    requires s.Valid() && s.udrie
    ensures r.Valid() && r.txI == s.txI + 1 && r.sent == s.sent + [s.tx[s.txI]]
    ensures r.udrie <==> r.txI < r.txLen
    ensures r.tx == s.tx && r.txLen == s.txLen && r.txEn && r.led == s.led
  {
    var s1 := s.(sent := s.sent + [s.tx[s.txI]], txI := s.txI + 1);
    if s.txLen == s.txI + 1 then s1.(udrie := false) else s1
  }

  /** `n` UDRE interrupts in a row. */
  function Udres(s: Transport, n: nat): (r: Transport)
    requires s.Valid() && s.txEn && (n > 0 ==> s.udrie) && s.txI + n <= s.txLen
    ensures r.Valid() && r.txI == s.txI + n && r.tx == s.tx && r.txLen == s.txLen && r.txEn
    ensures r.led == s.led
    decreases n
  {
    if n == 0 then s else Udres(Udre(s), n - 1)
  }

  /** A transmission puts `serial_tx[..len]` on the wire, in order, and
      then stops feeding the data register. */
  lemma {:induction false} UdresSend(s: Transport, n: nat)
    requires s.Valid() && s.txEn && (n > 0 ==> s.udrie) && s.txI + n <= s.txLen
    ensures Udres(s, n).sent == s.sent + s.tx[s.txI..s.txI + n]
    ensures Udres(s, n).udrie <==> s.txI + n < s.txLen
    decreases n
  {
    if n > 0 {
      var s1 := Udre(s);
      UdresSend(s1, n - 1);
      SliceCons(s.tx, s.txI, s.txI + n);
      assert Udres(s, n).sent == (s.sent + [s.tx[s.txI]]) + s.tx[s.txI + 1..s.txI + n];
    }
  }

  lemma SliceCons<T>(t: seq<T>, i: nat, j: nat)
    requires i < j <= |t|
    ensures t[i..j] == [t[i]] + t[i + 1..j]
  {
  }

  /** `ISR(USART_TX_vect)`: the last byte is out; toggle the indicator
      LED back and release the bus. */
  function TxComplete(s: Transport): (r: Transport)
    requires s.Valid() && s.txEn && !s.udrie
    ensures r.Valid() && !r.txState && !r.txEn && r.txI == 0 && r.led == !s.led
    ensures r.sent == s.sent && r.tx == s.tx && r.counts == s.counts && r.front == s.front
  {
    s.(txI := 0, txEn := false, txState := false, led := !s.led)
  }

  /** A whole line, from a ready idle line to the end of transmission:
      the wire carries the C string in `serial_tx` and a newline, and
      the transport is free to send again. */
  lemma LineOnWire(s: Transport)
    requires s.Valid() && !s.txState && s.rxState == RxTxReady
    requires StrnLen(s.tx) + 1 < SERIAL_TX_LEN
    ensures var q := TxLine(s);
      q.udrie && q.txI == 0 &&
      var done := TxComplete(Udres(q, q.txLen));
      && done.sent == s.sent + CString(s.tx) + "\n"
      && !done.txState && done.led == s.led
  {
    var q := TxLine(s);
    LineQueued(s);
    UdresSend(q, q.txLen);
    assert q.tx[0..q.txLen] == q.tx[..q.txLen];
  }
}

=== FILE: tz.dfy ===
// `find_version_2` of the host tool (juksutil/src/tz.c): find the
// version-2 header of a TZif file (RFC 8536) by skipping the version-1
// header and data block.

module Tz {
  import opened Base

  /** Size of a TZif header: magic, version, 15 unused bytes and six
      32-bit counts (section 3.1 of RFC 8536). */
  const HEADER_LEN: nat := 0x2c

  /** Offset of the first count, `tzh_ttisutcnt`. */
  const COUNTS_AT: nat := 0x14

  /** `p[i] < '2'` with `char` signed, as on the x86 hosts the tool is
      built for: a byte of 0x80 or more is negative and so below '2'. */
  predicate VersionAtLeast2(b: byte)
  {
    0x32 <= b < 0x80
  }

  /** The six counts of a header, in file order. */
  datatype Counts = Counts(isut: nat, isstd: nat, leap: nat, time: nat, typ: nat, chars: nat)

  predicate CountsFit(c: Counts)
  {
    c.isut < 0x1_0000_0000 && c.isstd < 0x1_0000_0000 && c.leap < 0x1_0000_0000
    && c.time < 0x1_0000_0000 && c.typ < 0x1_0000_0000 && c.chars < 0x1_0000_0000
  }

  /** The counts as `be32toh` reads them from offset 0x14. */
  function CountsOf(p: seq<byte>): (c: Counts)
    requires |p| >= HEADER_LEN
    ensures CountsFit(c)
  {
    Counts(Be32At(p, COUNTS_AT), Be32At(p, COUNTS_AT + 4), Be32At(p, COUNTS_AT + 8),
           Be32At(p, COUNTS_AT + 12), Be32At(p, COUNTS_AT + 16), Be32At(p, COUNTS_AT + 20))
  }

  /** The size of the version-1 data block as the code adds it up:
      4 + 1 bytes per transition, 6 per type, 4 per leap second, one per
      standard/wall and UT/local indicator, and the abbreviations. */
  function BlockLenAsWritten(c: Counts): nat
  {
    4 * c.time + 1 * c.time + 6 * c.typ + 4 * c.leap + c.isstd + c.isut + c.chars
  }

  /** The size of the version-1 data block by section 3.2 of RFC 8536,
      where a version-1 leap-second record is two 4-byte values. */
  function BlockLen(c: Counts): nat
  {
    5 * c.time + 6 * c.typ + 8 * c.leap + c.isstd + c.isut + c.chars
  }

  /** The code falls short by four bytes per leap-second record. */
  lemma UnderSkip(c: Counts)
    ensures BlockLenAsWritten(c) + 4 * c.leap == BlockLen(c)
  {
  }

  /** The `int` skip as the code accumulates it. Each `+=` adds an
      unsigned 32-bit product, so `skip` is converted to `unsigned int`,
      the sum is taken modulo 2^32, and the result is stored back in the
      `int` (modulo 2^32, as the compilers the tool is built with do). The
      net effect is the whole sum modulo 2^32 read as a signed value. */
  function Skip(p: seq<byte>, block: Counts -> nat): (skip: int)
    requires |p| >= HEADER_LEN
    ensures -0x8000_0000 <= skip < 0x8000_0000
    ensures (skip - (HEADER_LEN + block(CountsOf(p)))) % 0x1_0000_0000 == 0
  {
    Int32(HEADER_LEN + block(CountsOf(p)))
  }

  /** Below 2^31 the skip does not wrap. */
  lemma SkipExact(p: seq<byte>, block: Counts -> nat)
    requires |p| >= HEADER_LEN
    ensures HEADER_LEN + block(CountsOf(p)) < 0x8000_0000 ==> Skip(p, block) == HEADER_LEN + block(CountsOf(p))
  {
    if HEADER_LEN + block(CountsOf(p)) < 0x8000_0000 {
      Int32Id(HEADER_LEN + block(CountsOf(p)));
    }
  }

  /** What `find_version_2` reads: byte 4 and, with a version-2 first
      header, the header's counts and the byte at `skip + 4`, where
      `skip + 4` must not overflow the `int`. The code checks none of
      this against the file's length. */
  predicate Readable(p: seq<byte>, block: Counts -> nat)
  {
    && |p| > 4
    && (VersionAtLeast2(p[4]) ==>
          && |p| >= HEADER_LEN
          && 0 <= Skip(p, block) + 4 < |p|
          && Skip(p, block) + 4 < 0x8000_0000)
  }

  /** The walk with a given block size: nothing unless both headers
      carry a version of at least 2; otherwise the offset of the second
      header, which is negative when the skip wrapped below zero. */
  function Walk(p: seq<byte>, block: Counts -> nat): (r: Option<int>)
    requires Readable(p, block)
    ensures r.Some? <==> VersionAtLeast2(p[4]) && VersionAtLeast2(p[Skip(p, block) + 4])
    ensures r.Some? ==> r.value == Skip(p, block) && 0 <= r.value + 4 < |p|
  {
    if !VersionAtLeast2(p[4]) then None
    else
      var skip := Skip(p, block);
      if !VersionAtLeast2(p[skip + 4]) then None else Some(skip)
  }

  /** `find_version_2` as written. */
  function FindVersion2AsWritten(p: seq<byte>): (r: Option<int>)
    requires Readable(p, BlockLenAsWritten)
    ensures r.Some? ==> VersionAtLeast2(p[4])
    ensures r.Some? ==> (r.value - (HEADER_LEN + BlockLenAsWritten(CountsOf(p)))) % 0x1_0000_0000 == 0
    ensures r.Some? && HEADER_LEN + BlockLenAsWritten(CountsOf(p)) < 0x8000_0000 ==>
              r.value == HEADER_LEN + BlockLenAsWritten(CountsOf(p))
  {
    if !VersionAtLeast2(p[4]) then None
    else
      SkipExact(p, BlockLenAsWritten);
      Walk(p, BlockLenAsWritten)
  }

  /** `find_version_2` skipping eight bytes per leap-second record, with
      the skip still kept in the `int`. */
  function FindVersion2(p: seq<byte>): (r: Option<int>)
    requires Readable(p, BlockLen)
    ensures r.Some? ==> VersionAtLeast2(p[4])
    ensures r.Some? ==> (r.value - (HEADER_LEN + BlockLen(CountsOf(p)))) % 0x1_0000_0000 == 0
    ensures r.Some? && HEADER_LEN + BlockLen(CountsOf(p)) < 0x8000_0000 ==>
              r.value == HEADER_LEN + BlockLen(CountsOf(p))
  {
    if !VersionAtLeast2(p[4]) then None
    else
      SkipExact(p, BlockLen);
      Walk(p, BlockLen)
  }

  /** `find_version_2` with the length checks the code lacks: the header,
      the block and the second header's version byte must lie inside the
      file, and the skip is an unbounded count, so it cannot wrap. */
  function FindVersion2Checked(p: seq<byte>): (r: Option<nat>)
    ensures r.Some? <==>
              && |p| >= HEADER_LEN && VersionAtLeast2(p[4])
              && HEADER_LEN + BlockLen(CountsOf(p)) + 4 < |p|
              && VersionAtLeast2(p[HEADER_LEN + BlockLen(CountsOf(p)) + 4])
    ensures r.Some? ==> r.value == HEADER_LEN + BlockLen(CountsOf(p))
  {
    if |p| < HEADER_LEN || !VersionAtLeast2(p[4]) then None
    else
      var skip := HEADER_LEN + BlockLen(CountsOf(p));
      if skip + 4 >= |p| || !VersionAtLeast2(p[skip + 4]) then None else Some(skip)
  }

  /** Wherever the code reads inside the file and its skip does not wrap,
      the checked walk answers as the walk does. */
  lemma CheckedAgrees(p: seq<byte>)
    requires Readable(p, BlockLen) && |p| >= HEADER_LEN
    requires HEADER_LEN + BlockLen(CountsOf(p)) < 0x8000_0000
    ensures FindVersion2Checked(p) == FindVersion2(p)
  {
    SkipExact(p, BlockLen);
  }

  // ---------------------------------------------------------------
  // Building a file

  /** `htobe32`: the high and then the low 16-bit half, each high byte
      first. */
  function Be32Bytes(x: nat): (bs: seq<byte>)
    requires x < 0x1_0000_0000
    ensures |bs| == 4
  {
    var hi := x / 0x1_0000;
    var lo := x % 0x1_0000;
    [HighByte(hi), LowByte(hi), HighByte(lo), LowByte(lo)]
  }

  lemma Be32RoundTrip(x: nat)
    requires x < 0x1_0000_0000
    ensures Be32At(Be32Bytes(x), 0) == x
  {
    var hi := x / 0x1_0000;
    var lo := x % 0x1_0000;
    Halves(hi);
    Halves(lo);
    assert x == hi * 0x1_0000 + lo;
  }

  /** A 16-bit value is its high byte times 256 plus its low byte. */
  lemma Halves(h: nat)
    requires h < 0x1_0000
    ensures HighByte(h) as nat * 256 + LowByte(h) as nat == h
  {
  }

  /** A header with the given version byte and counts. */
  function Header(version: byte, c: Counts): (h: seq<byte>)
    requires CountsFit(c)
    ensures |h| == HEADER_LEN && h[4] == version
  {
    [0x54, 0x5a, 0x69, 0x66, version] + seq(15, _ => 0)
      + Be32Bytes(c.isut) + Be32Bytes(c.isstd) + Be32Bytes(c.leap)
      + Be32Bytes(c.time) + Be32Bytes(c.typ) + Be32Bytes(c.chars)
  }

  lemma Be32Inside(h: seq<byte>, i: nat, x: nat)
    requires x < 0x1_0000_0000 && i + 4 <= |h| && h[i..i + 4] == Be32Bytes(x)
    ensures Be32At(h, i) == x
  {
    Be32RoundTrip(x);
    assert Be32At(h, i) == Be32At(h[i..i + 4], 0);
  }

  /** The counts read back from a header are the ones written. */
  lemma HeaderCounts(version: byte, c: Counts, rest: seq<byte>)
    requires CountsFit(c)
    ensures CountsOf(Header(version, c) + rest) == c
  {
    var p := Header(version, c) + rest;
    assert p[20..24] == Be32Bytes(c.isut);
    assert p[24..28] == Be32Bytes(c.isstd);
    assert p[28..32] == Be32Bytes(c.leap);
    assert p[32..36] == Be32Bytes(c.time);
    assert p[36..40] == Be32Bytes(c.typ);
    assert p[40..44] == Be32Bytes(c.chars);
    Be32Inside(p, 20, c.isut);
    Be32Inside(p, 24, c.isstd);
    Be32Inside(p, 28, c.leap);
    Be32Inside(p, 32, c.time);
    Be32Inside(p, 36, c.typ);
    Be32Inside(p, 40, c.chars);
  }

  /** A version-2 file: the first header, its data block, and what
      follows, which starts with the second header. */
  function File(version: byte, c: Counts, block: seq<byte>, tail: seq<byte>): (p: seq<byte>)
    requires CountsFit(c) && |block| == BlockLen(c)
    ensures |p| == HEADER_LEN + BlockLen(c) + |tail|
  {
    Header(version, c) + block + tail
  }

  /** Skipping by section 3.2 of RFC 8536, with the length checks, lands
      on the second header of every file whose two headers both say
      version 2 or later. */
  lemma FindsSecondHeader(version: byte, c: Counts, block: seq<byte>, tail: seq<byte>)
    requires CountsFit(c) && |block| == BlockLen(c) && |tail| > 4
    requires VersionAtLeast2(version) && VersionAtLeast2(tail[4])
    ensures FindVersion2Checked(File(version, c, block, tail)) == Some(HEADER_LEN + |block|)
  {
    var p := File(version, c, block, tail);
    HeaderCounts(version, c, block + tail);
    assert p == Header(version, c) + (block + tail);
    assert p[HEADER_LEN + |block| + 4] == tail[4];
  }

  /** The walk that keeps its skip in an `int` finds the second header
      too, while `skip + 4` stays below 2^31. */
  lemma WalkFindsSecondHeader(version: byte, c: Counts, block: seq<byte>, tail: seq<byte>)
    requires CountsFit(c) && |block| == BlockLen(c) && |tail| > 4
    requires VersionAtLeast2(version) && VersionAtLeast2(tail[4])
    requires HEADER_LEN + BlockLen(c) + 4 < 0x8000_0000
    ensures Readable(File(version, c, block, tail), BlockLen)
    ensures FindVersion2(File(version, c, block, tail)) == Some(HEADER_LEN + |block|)
  {
    var p := File(version, c, block, tail);
    HeaderCounts(version, c, block + tail);
    assert p == Header(version, c) + (block + tail);
    SkipExact(p, BlockLen);
    FindsSecondHeader(version, c, block, tail);
    CheckedAgrees(p);
  }

  /** A file whose first header says version 1 is refused. */
  lemma RefusesVersion1(version: byte, c: Counts, block: seq<byte>, tail: seq<byte>)
    requires CountsFit(c) && |block| == BlockLen(c) && !VersionAtLeast2(version)
    ensures Readable(File(version, c, block, tail), BlockLen)
    ensures FindVersion2(File(version, c, block, tail)).None?
  {
  }

  /** As written, a file with leap-second records is walked to an offset
      four bytes per record short of the second header. */
  lemma MissesSecondHeader(version: byte, c: Counts, block: seq<byte>, tail: seq<byte>)
    requires CountsFit(c) && |block| == BlockLen(c) && |tail| > 4
    requires VersionAtLeast2(version) && c.leap > 0
    requires HEADER_LEN + BlockLen(c) < 0x8000_0000
    ensures Readable(File(version, c, block, tail), BlockLenAsWritten)
    ensures FindVersion2AsWritten(File(version, c, block, tail)) != Some(HEADER_LEN + |block|)
  {
    var p := File(version, c, block, tail);
    HeaderCounts(version, c, block + tail);
    assert p == Header(version, c) + (block + tail);
    UnderSkip(c);
    SkipExact(p, BlockLenAsWritten);
  }

  /** One leap second and nothing else: the walk as written returns
      offset 48, the middle of the leap-second record, because the
      magic "TZif" of the second header at 52 passes as a version byte;
      the second header is at 52. */
  lemma OneLeapSecond(block: seq<byte>, tail: seq<byte>)
    requires |block| == 8 && |tail| > 4 && tail[..4] == [0x54, 0x5a, 0x69, 0x66] && VersionAtLeast2(tail[4])
    ensures Readable(File(0x32, Counts(0, 0, 1, 0, 0, 0), block, tail), BlockLenAsWritten)
    ensures Readable(File(0x32, Counts(0, 0, 1, 0, 0, 0), block, tail), BlockLen)
    ensures FindVersion2AsWritten(File(0x32, Counts(0, 0, 1, 0, 0, 0), block, tail)) == Some(48)
    ensures FindVersion2(File(0x32, Counts(0, 0, 1, 0, 0, 0), block, tail)) == Some(52)
  {
    var c := Counts(0, 0, 1, 0, 0, 0);
    var p := File(0x32, c, block, tail);
    HeaderCounts(0x32, c, block + tail);
    assert p == Header(0x32, c) + (block + tail);
    assert BlockLenAsWritten(c) == 4;
    SkipExact(p, BlockLenAsWritten);
    assert p[52] == tail[0];
    WalkFindsSecondHeader(0x32, c, block, tail);
  }

  /** The skip wraps: 0x33333334 transitions make the code's sum
      44 + 5 * 0x33333334, which is 48 modulo 2^32, so the walk reads
      byte 52 of the file although the data block it skips is over 4 GiB
      long. */
  lemma WrappedSkip(version: byte, rest: seq<byte>)
    requires VersionAtLeast2(version) && |rest| > 8
    ensures HEADER_LEN + BlockLenAsWritten(Counts(0, 0, 0, 0x3333_3334, 0, 0)) >= 0x1_0000_0000
    ensures Readable(Header(version, Counts(0, 0, 0, 0x3333_3334, 0, 0)) + rest, BlockLenAsWritten)
    ensures Skip(Header(version, Counts(0, 0, 0, 0x3333_3334, 0, 0)) + rest, BlockLenAsWritten) == 48
  {
    HeaderCounts(version, Counts(0, 0, 0, 0x3333_3334, 0, 0), rest);
  }

  /** The code never compares the skip with the file's length: a file
      that ends before the byte at `skip + 4` is read past its end, and
      the checked walk refuses it. */
  lemma TruncatedReadsPast(version: byte, c: Counts, rest: seq<byte>)
    requires CountsFit(c) && VersionAtLeast2(version)
    requires HEADER_LEN + BlockLenAsWritten(c) < 0x8000_0000
    requires |rest| <= BlockLenAsWritten(c) + 4
    ensures !Readable(Header(version, c) + rest, BlockLenAsWritten)
    ensures FindVersion2Checked(Header(version, c) + rest).None?
  {
    var p := Header(version, c) + rest;
    HeaderCounts(version, c, rest);
    SkipExact(p, BlockLenAsWritten);
    UnderSkip(c);
  }
}
